=== FILE: README.md ===
# content-performance-report, modelled in Dafny

This project models the data pipeline of content-performance-report. The repository has three Python scripts.

- `content_report.py` reads CSV exports of posts and cleans each row. Cleaning parses the date in one of three formats, reads the counters as integers, and strips and title-cases the text cells. The script then filters the rows by date window and channel and rolls them up into one post per url. It reports the overall totals, a per-channel summary and two top-N lists.
- `w6_join_campaigns.py` normalises urls into join keys and reads the `utm_*` query parameters. It left-joins the content against a campaign table and attributes each post to a campaign, source, medium and topic. It then summarises the views per attribution.
- `w6_pandas_basics.py` loads the same exports into a data frame. It prints the overall figures, a channel summary, two top-5 lists, monthly and day-of-week summaries, and a month × channel pivot of views.

The model is functional throughout:
- a row, post, campaign row or summary row is a datatype;
- a table is a `seq`;
- each step of a script is a pure function with a named result.

The contracts state what each step promises, and lemmas relate the steps: round trips, totals that are kept, orderings and fall-back chains. Each module follows one part of the program.

| module | file | models |
|---|---|---|
| `Wrappers` | wrappers.dfy | `Option` |
| `Text` | text.dfy | `str.strip`, `lstrip`, `rstrip`, `rstrip(c)`, `lower`, `title`, `astype(str)` of a cell |
| `Numbers` | numbers.dfy | `to_int`: `int(float(str(s).strip()))` with 0 on error |
| `Dates` | dates.dfy | `date`, `parse_date`, `strftime`, `weekday`/`day_name`, the `YYYY-MM` month text |
| `Metrics` | metrics.dfy | the counters and `ctr_pct` |
| `Ranking` | ranking.dfy | Python tuple comparison, stable `sorted`, the slice `[:n]` |
| `Groups` | groups.dfy | group-by in order of first appearance, and summary rows sorted by a key |
| `Records` | records.dfy | `normalize_row`, the reading loop of `read_folder_csv`, `filter_rows`, the date arguments |
| `Rollup` | rollup.dfy | `rollup_by_url` |
| `Report` | report.dfy | `overall_metrics`, `channel_summary`, `add_post_ctr`, `top_posts`, and `main` without I/O |
| `Urls` | urls.dfy | `normalize_url`, `urlsplit`, `parse_qs`, `utm_from_url` |
| `Campaigns` | campaigns.dfy | `load_campaigns` per row, the left join, attribution, the join check and the summaries of `w6_join_campaigns.py` |
| `Frame` | frame.dfy | `load_content`, and the overall, channel and top-5 figures of `w6_pandas_basics.py` |
| `Periods` | periods.dfy | the monthly and day-of-week summaries and the month × channel pivot |

Representation choices:
- **CTR.** `ctr_pct` is an integer number of hundredths of a percent: the exact ratio rounded half to even. For example, 2.11% is 211.
- **Sort keys.** A sort key is a `seq<int>` compared lexicographically. A numeric component that sorts descending is negated. A text component is its code points, as Python compares strings.
- **Sort stability.** `sorted` and `sort_values` are modelled as one stable sort.
- **Cells.** A field is `Some` of its text as it stands in the file, or `None` for an absent column. `csv.DictReader` gives an empty field as "", and `content_report.py` treats "" and `None` alike. pandas reads every field through `Text.ReadCsv`: the empty field and the default missing-value spellings of `read_csv` ("NA", "N/A", "NULL", "nan", "None" and the rest of its list) become NaN, which `astype(str)` writes as "nan".

## Model

| member | source | states |
|---|---|---|
| Text.Strip | content-performance-report/content_report.py:14 | `strip()` leaves no whitespace at either end and never lengthens its input |
| Text.StripShape | content-performance-report/content_report.py:30 | stripping cuts only whitespace: the result is a middle slice of the input, and both cut ends are all whitespace |
| Text.StripIdempotent | content-performance-report/content_report.py:30 | stripping twice is stripping once |
| Text.Title | content-performance-report/content_report.py:32 | `title()` keeps the length and every non-letter; a letter keeps its letter, and is upper-case when it starts a word and lower-case when it follows a letter |
| Text.TitleStripCommute | content-performance-report/w6_pandas_basics.py:17 | `.title().strip()` equals `.strip().title()`, so both scripts derive the same channel from a cell |
| Text.TitleIgnoresCase | content-performance-report/content_report.py:65 | texts equal up to case title-case to the same text, so the channel filter ignores the case it is typed in |
| Text.TitleIdempotent | content-performance-report/content_report.py:32 | title-casing twice is title-casing once |
| Text.Lower | content-performance-report/w6_join_campaigns.py:8 | `lower()` keeps the length, leaves no upper-case letter, turns each upper-case letter into its lower-case partner and keeps every other character |
| Text.RStripChar | content-performance-report/w6_join_campaigns.py:8 | `rstrip("/")` removes the whole trailing run of '/' and nothing else |
| Text.StripLower | content-performance-report/w6_join_campaigns.py:8 | stripping commutes with lower-casing, so the order of `strip()` and `lower()` does not matter |
| Numbers.ToIntOfMissing | content-performance-report/content_report.py:22-26 | a missing cell reads as 0: `str(None)` is no numeral |
| Numbers.ToIntOfIntText | content-performance-report/content_report.py:22-26 | the text of any integer of magnitude at most 2^53, negative ones included, reads back as that integer (the float holds it exactly) |
| Numbers.ToIntTruncates | content-performance-report/content_report.py:24 | for m below 2^32 and at most six fraction digits, a fraction is cut off toward zero: m.f reads as m and -m.f as -m |
| Numbers.NegatedReading | content-performance-report/content_report.py:24 | a leading '-' before any unsigned numeral that does not end in whitespace negates its reading, so negative counters are not rejected |
| Numbers.ToIntWithoutDigits | content-performance-report/content_report.py:25-26 | ASCII text with no digit that is no spelling of infinity reads as 0 and does not raise |
| Numbers.ParseNeedsDigit | content-performance-report/content_report.py:24 | `float` rejects ASCII text without a digit that is no spelling of infinity or NaN |
| Dates.Earlier | content-performance-report/content_report.py:97 | `min` of two dates is one of them and not after either |
| Dates.Later | content-performance-report/content_report.py:98 | `max` of two dates is one of them and not before either |
| Dates.MakeDate | content-performance-report/content_report.py:17 | fields give a date exactly when they form a real calendar day |
| Dates.ParseDateOfIso | content-performance-report/content_report.py:11-20 | a date written `%Y-%m-%d` reads back as itself |
| Dates.ParseDateOfDmy | content-performance-report/content_report.py:11-20 | a date written `%d/%m/%Y` reads back as itself: the ISO format never matches a slash layout |
| Dates.ParseDateOfMdy | content-performance-report/content_report.py:11-20 | a date written `%m/%d/%Y` is read day-first, with its fields swapped, when its day is at most 12, and correctly otherwise |
| Dates.ParseDateSound | content-performance-report/content_report.py:13-20 | every date `parse_date` returns is the stripped input written in one of the three formats |
| Dates.IsoSound | content-performance-report/content_report.py:17 | text the ISO format accepts is the ISO rendering of the date it gives |
| Dates.DmySound | content-performance-report/content_report.py:17 | text the day/month format accepts is the day/month rendering of its date |
| Dates.MdySound | content-performance-report/content_report.py:17 | text the month/day format accepts is the month/day rendering of its date |
| Dates.DayFirstExample | tests/test_content_report.py:4-8 | "02/01/2025" is 2 January 2025 |
| Dates.MonthFirstExample | content-performance-report/content_report.py:15-19 | "02/13/2025" fails day/month and falls through to month/day: 13 February 2025 |
| Dates.ImpossibleDateExample | content-performance-report/content_report.py:15-20 | "31/02/2025" is a date in neither slash order, so the result is None |
| Dates.ForeignTextExample | tests/test_content_report.py:8 | "bad" gives None |
| Dates.Weekday | content-performance-report/w6_pandas_basics.py:113 | the weekday lies in 0..6; which number is which day is fixed by `Dates.NewYear2025` and `Dates.WeekdayNextDay` |
| Dates.WeekdayNextDay | content-performance-report/w6_pandas_basics.py:113 | weekdays advance by one, modulo 7, from each calendar day to the next |
| Dates.OrdinalNextDay | content-performance-report/w6_pandas_basics.py:113 | the day number of the next calendar day is one more |
| Dates.NewYear2025 | content-performance-report/w6_pandas_basics.py:113 | 1 January 2025 is named "Wednesday" |
| Metrics.RoundHalfEven | content-performance-report/content_report.py:107 | the quotient rounded to the nearest integer, with an exact half going to the even neighbour |
| Metrics.CtrPct | content-performance-report/content_report.py:107 | 0 without impressions; otherwise clicks/impressions × 100 to the nearest hundredth; between 0 and 100% when clicks do not exceed impressions |
| Metrics.CtrExample | tests/test_content_report.py:24 | 19 clicks on 900 impressions is 2.11% |
| Ranking.LtIrreflexive | content-performance-report/content_report.py:128 | no key ranks before itself |
| Ranking.LtTransitive | content-performance-report/content_report.py:128 | tuple order is transitive |
| Ranking.LtTotal | content-performance-report/content_report.py:128 | any two different keys are ordered one way or the other |
| Ranking.LtCons | content-performance-report/content_report.py:138 | a tuple led by a number compares on that number first and on the rest only on a tie |
| Ranking.CodesInjective | content-performance-report/content_report.py:128 | different strings have different code-point keys, so comparing keys is comparing strings |
| Ranking.SortBy | content-performance-report/content_report.py:139 | `sorted` returns a permutation of its input in ascending key order, and keeps the input order among elements with equal keys (it is stable) |
| Ranking.SortedUnique | content-performance-report/content_report.py:128 | when no two elements share a key, there is only one sorted order of them |
| Ranking.StableSortUnique | content-performance-report/content_report.py:139 | two sorted lists that hold, for every key, the same elements in the same order are equal: a stable sort has only one result |
| Ranking.IsStableSort | content-performance-report/content_report.py:139 | any sorted list with the input's elements of each key in input order is the `sorted` result |
| Ranking.Take | content-performance-report/content_report.py:139 | the slice `[:n]` is a prefix of min(n, len) elements, and for a negative n it drops the last -n |
| Ranking.PrefixIsBest | content-performance-report/content_report.py:139 | nothing outside a prefix of a sorted list ranks above anything inside it |
| Records.NormalizeRow | content-performance-report/content_report.py:28-40 | None exactly when the stripped title is empty or the date parses in no format; a kept row holds the parsed date, the title and url cells stripped (the title non-empty), the channel cell stripped and title-cased, and the three counters as `to_int` reads their cells |
| Records.CleanFields | content-performance-report/content_report.py:30-36 | every text field of a normalised row is trimmed, and the channel is its own title case |
| Records.NormalizeRender | content-performance-report/content_report.py:28-40 | writing a clean row out as text and normalising it again gives the same row, for counters the float holds exactly (at most 2^53) |
| Records.NormalizeIdempotent | content-performance-report/content_report.py:28-40 | normalising the text of a normalised row changes nothing, for counters of at most 2^53 |
| Records.MissingTitleDropped | content-performance-report/content_report.py:38-39 | a record with a missing or empty title is dropped, whatever else it holds |
| Records.Present | content-performance-report/content_report.py:55-57 | `if clean: rows.append(clean)` keeps exactly the rows that normalised, and only those |
| Records.CleanRows | content-performance-report/content_report.py:51-58 | the rows read are normalised; each comes from some record, and each record that normalises contributes its row |
| Records.CleanRowsConcat | content-performance-report/content_report.py:51-57 | reading files one after another gives the concatenation of their rows |
| Records.ChannelFilter | content-performance-report/content_report.py:65 | a channel argument that is used is non-empty and trimmed |
| Records.FilterRows | content-performance-report/content_report.py:62-74 | exactly the rows that are on or after `start`, on or before `end` and on the normalised channel |
| Records.FilterConcat | content-performance-report/content_report.py:66-73 | each row is judged on its own: filtering a concatenation is concatenating the filtered parts |
| Records.FilterIdempotent | content-performance-report/content_report.py:62-74 | filtering again with the same arguments removes nothing more |
| Records.ChannelFilterMatchesRows | content-performance-report/content_report.py:65 | a non-blank argument becomes the channel that `normalize_row` would store for the same text |
| Records.BlankChannelFiltersNothing | content-performance-report/content_report.py:65 | a blank channel argument selects no channel |
| Records.ChannelFilterIgnoresCase | content-performance-report/content_report.py:65 | channel arguments that differ only in case filter alike |
| Records.DateBound | content-performance-report/content_report.py:176-177 | an empty argument gives no bound; otherwise the bound is the parsed date, and an argument that parses always gives one |
| Records.MistypedBoundIgnored | content-performance-report/content_report.py:176-177 | an unparseable `--start` such as "31/02/2025" silently removes the lower bound |
| Rollup.Earliest | content-performance-report/content_report.py:97 | reference: a date of the group that is on or before all of them |
| Rollup.Latest | content-performance-report/content_report.py:98 | reference: a date of the group that is on or after all of them |
| Rollup.RollupByUrl | content-performance-report/content_report.py:76-99 | one post per distinct key (the url, or `title|channel`), no key twice. Each post is named after its first row, holds the sums of its rows, and spans their earliest to latest date |
| Rollup.BucketStep | content-performance-report/content_report.py:80-98 | one loop step keeps the roll-up faithful to the rows seen so far |
| Rollup.IndexOfPost | content-performance-report/content_report.py:81 | `bucket.get(key)`: the position of the post with that key, or -1 when there is none |
| Rollup.RollupKeepsTotals | content-performance-report/content_report.py:94-96 | the posts' counters add up to the rows' counters |
| Rollup.RollupCount | content-performance-report/content_report.py:80-93 | there are as many posts as distinct row keys |
| Rollup.RollupOrder | content-performance-report/content_report.py:79-99 | `list(bucket.values())` gives the posts in the order their keys first occur in the rows: an earlier post's key first occurs before a later post's key does |
| Rollup.PostSpansItsRows | content-performance-report/content_report.py:97-98 | every row's post exists, its date lies within the post's first and last date, and first ≤ last |
| Rollup.FirstTitleWins | content-performance-report/content_report.py:82-93 | a later row with the same url but a new title and channel is merged into the first row's post |
| Rollup.KeyCollision | content-performance-report/content_report.py:80 | a url "A\|B" and a url-less row titled "A" on channel "B" share one key and one post |
| Report.OverallOfRows | content-performance-report/content_report.py:103-114 | the overall totals of the roll-up are the totals of the rows, and `posts` is the number of distinct row keys |
| Report.TwoPostsExample | tests/test_content_report.py:10-24 | the three-row scenario gives posts 2, views 230, clicks 19, impressions 900 and 2.11% |
| Report.ChannelSummary | content-performance-report/content_report.py:116-129 | one row per channel of the posts, each with its post count, sums and rate, most views first and ties by channel name |
| Report.ChannelsAddUp | content-performance-report/content_report.py:117-123 | the channel rows add up to the overall sums and post count |
| Report.AddPostCtr | content-performance-report/content_report.py:131-133 | every post gains its own rate `CtrPct` of its clicks and impressions, which lies in 0..100% when clicks ≤ impressions, and is otherwise unchanged |
| Report.Eligible | content-performance-report/content_report.py:137 | exactly the posts with at least `min_impr` impressions |
| Report.EligibleConcat | content-performance-report/content_report.py:137 | each post is judged on its own: the eligible posts of a concatenation are the concatenated eligible posts, in order and with repeats |
| Report.RankedEligible | content-performance-report/content_report.py:137-139 | the eligible posts reordered by the chosen key, with posts that tie on the whole key in their input order |
| Report.TopPosts | content-performance-report/content_report.py:135-139 | for n ≥ 0, min(n, eligible) posts; the list is a prefix of the eligible posts in stable key order and so a sub-multiset of them; each is eligible and carries its own rate |
| Report.TopPostsAreBest | content-performance-report/content_report.py:135-139 | no eligible post left out ranks above one in the list |
| Report.TopPostsOfStableOrder | content-performance-report/content_report.py:135-139 | any stable sort of the eligible posts, cut at n, is the top list |
| Report.ViewsOrder | content-performance-report/content_report.py:138 | the views key puts more views first, then title ascending |
| Report.CtrOrder | content-performance-report/content_report.py:138 | the CTR key puts the higher rate first, then more impressions, then title ascending |
| Report.NoCleanRows | content-performance-report/content_report.py:178-181 | no row is read exactly when no record normalises |
| Report.TopWithinPosts | content-performance-report/content_report.py:188-189 | a top list never has more entries than there are posts |
| Report.BuildReport | content-performance-report/content_report.py:162-189 | None ("No rows found.") exactly when no record normalises; otherwise the totals are those of the selected rows and both top lists are within the post count |
| Groups.GroupBy | content-performance-report/content_report.py:117-123 | one group per key, no key twice, each holding its members' count, distinct ids and sums |
| Groups.AddStep | content-performance-report/content_report.py:118-123 | one accumulation step keeps the groups faithful to the items seen so far |
| Groups.GroupByTotals | content-performance-report/content_report.py:117-123 | the groups' counters add up to the items' counters, and their counts to the number of items |
| Groups.SummariesBy | content-performance-report/w6_pandas_basics.py:54-62 | one summary row per key, sorted by the given order, with the members' sums, rate, and count or distinct-url count |
| Groups.RankedSummaries | content-performance-report/w6_pandas_basics.py:54-62 | the same rows, sorted by views descending and then key ascending |
| Groups.RankingIsDeterminate | content-performance-report/w6_pandas_basics.py:62 | with distinct keys, the order by (views desc, key asc) is the only sorted order |
| Groups.SummariesAddUp | content-performance-report/w6_pandas_basics.py:54-62 | summary rows add up to the items' totals, and row counts add up to the item count |
| Groups.SumsOfPermutation | content-performance-report/w6_pandas_basics.py:62 | sorting the summary rows does not change their sums |
| Urls.NormalizeUrl | content-performance-report/w6_join_campaigns.py:7-8 | the key is lower-case, never ends in '/', never starts with whitespace, and is no longer than the url |
| Urls.NormalizeUrlNotIdempotent | content-performance-report/w6_join_campaigns.py:8 | "t /" becomes "t " with its space kept, and normalising again changes it to "t" |
| Urls.TrailingSlashIgnored | content-performance-report/w6_join_campaigns.py:8 | a trimmed url with a '/' appended has the same key |
| Urls.TrailingSpaceDropped | content-performance-report/w6_join_campaigns.py:8 | a trailing space does not change the key |
| Urls.NormalizeUrlIgnoresCase | content-performance-report/w6_join_campaigns.py:8 | urls that differ only in case have the same key |
| Urls.Split | content-performance-report/w6_join_campaigns.py:25 | splitting on a separator gives at least one piece and no piece contains it |
| Urls.JoinSplit | content-performance-report/w6_join_campaigns.py:25 | joining the pieces of a split gives the text back |
| Urls.SplitJoin | content-performance-report/w6_join_campaigns.py:25 | splitting a join gives the pieces back when none holds the separator |
| Urls.PairOf | content-performance-report/w6_join_campaigns.py:25 | a pair read from a query piece splits it at its first '=' and has a non-empty value, since `parse_qs` drops blank values |
| Urls.Pick | content-performance-report/w6_join_campaigns.py:26 | None exactly when the name never occurs; otherwise the value of the name's first occurrence |
| Urls.QueryRoundTrip | content-performance-report/w6_join_campaigns.py:25 | a query written from pairs without '&', '+' or '%', names without '=' and non-empty values parses back to exactly those pairs |
| Urls.FirstValueWins | content-performance-report/w6_join_campaigns.py:26 | a name given twice yields its first value |
| Urls.Cut | content-performance-report/w6_join_campaigns.py:25 | the text before and after the first occurrence of a character, or the whole text and "" |
| Urls.UrlSplit | content-performance-report/w6_join_campaigns.py:25 | fails exactly on a network location error: an unpaired bracket, text before '[', text after ']' that does not start a port, or a bracketed host that is neither IPv6 nor IPvFuture; otherwise the path and query hold no '#' and the path no '?' |
| Urls.SplitOfHttps | content-performance-report/w6_join_campaigns.py:25 | an https url written from host, path and query fails exactly when the host is a network location error, and otherwise splits back into those parts |
| Urls.UtmFromUrl | content-performance-report/w6_join_campaigns.py:23-35 | a url that makes the split fail yields all five fields as None |
| Urls.PlainHostAccepted | content-performance-report/w6_join_campaigns.py:25 | a network location without brackets is always accepted |
| Urls.BracketedNetlocOf | content-performance-report/w6_join_campaigns.py:25 | a bracketed host with a suffix is refused exactly when the suffix does not start with ':' or the host is neither IPv6 nor IPvFuture |
| Urls.GapGroupAccepted | content-performance-report/w6_join_campaigns.py:25 | "[::x]" for any hextet x, with or without a port, is accepted as an IPv6 host |
| Urls.WordInBracketsRefused | content-performance-report/w6_join_campaigns.py:34-35 | "[x]" is no IP address, so the parser raises |
| Urls.TextBeforeBracketRefused | content-performance-report/w6_join_campaigns.py:34-35 | "a[::1]" has text before the bracket, so the parser raises |
| Urls.UtmOfHttps | content-performance-report/w6_join_campaigns.py:23-33 | for an https url whose host is accepted, each `utm_*` field is the first value given for that name, or None |
| Urls.RefusedHostLosesUtm | content-performance-report/w6_join_campaigns.py:34-35 | a host the parser refuses makes it raise, so all five fields are None |
| Campaigns.LoadCampaign | content-performance-report/w6_join_campaigns.py:14-16 | the url is the field's text, or "nan" when `read_csv` takes the field for a missing value (empty, "NA", "N/A", "NULL" and the other default spellings); the key is the normalised url |
| Campaigns.LoadCampaignCells | content-performance-report/w6_join_campaigns.py:14-20 | each campaign, source, medium and topic field becomes its stripped text, or "nan" when `read_csv` takes it for a missing value |
| Campaigns.NaCellReadsNan | content-performance-report/w6_join_campaigns.py:14-20 | a campaign written "N/A" loads as "nan", like an empty one |
| Campaigns.FirstIndex | content-performance-report/w6_join_campaigns.py:58 | the position of the first row with the key, or -1 when no row has it |
| Campaigns.First | content-performance-report/w6_join_campaigns.py:58 | a row of the table with the key: None exactly when the table lacks the key |
| Campaigns.FirstIsEarliest | content-performance-report/w6_join_campaigns.py:58 | the row found is the earliest row with the key: no row before it has the key |
| Campaigns.DropDuplicateKeys | content-performance-report/w6_join_campaigns.py:58 | keeps table rows only, keeps every key, and no key twice |
| Campaigns.DropKeepsFirst | content-performance-report/w6_join_campaigns.py:58 | each kept row is the first row of its key |
| Campaigns.FirstOfDeduplicated | content-performance-report/w6_join_campaigns.py:58 | dropping duplicates does not change which row a key finds |
| Campaigns.Matches | content-performance-report/w6_join_campaigns.py:57-60 | the table rows with a key are never more than the table |
| Campaigns.MatchesMembers | content-performance-report/w6_join_campaigns.py:57-60 | a row is matched exactly when it is in the table and has the key |
| Campaigns.MatchesEmpty | content-performance-report/w6_join_campaigns.py:57-60 | no row matches exactly when the key is absent from the table |
| Campaigns.MatchesConcat | content-performance-report/w6_join_campaigns.py:57-60 | the matches of a concatenated table are the concatenated matches, so table order and repeats are kept |
| Campaigns.MergeOnePerRow | content-performance-report/w6_join_campaigns.py:57-60 | against distinct keys the left join yields one row per content row, in order, each paired with its key's row or none |
| Campaigns.DuplicateKeysRepeatContent | content-performance-report/w6_join_campaigns.py:57-60 | without de-duplication, two table rows under one key turn one content row into two |
| Campaigns.JoinKeepsContent | content-performance-report/w6_join_campaigns.py:56-60 | the join keeps every content row once, in order, paired with the first table row of its key |
| Campaigns.TablePrevails | content-performance-report/w6_join_campaigns.py:66-71 | with a joined table row, all four attributions are that row's values, whatever the UTM parameters say |
| Campaigns.UtmFallback | content-performance-report/w6_join_campaigns.py:66-71 | without a table row, campaign, source and medium are the UTM values or "unknown", and topic is "unknown" |
| Campaigns.BlankCellIsNotFilled | content-performance-report/w6_join_campaigns.py:18-20 | a campaign field `read_csv` takes for a missing value, in a matched row, is attributed "nan": the UTM fallback never sees it |
| Campaigns.AttributionsKeepContent | content-performance-report/w6_join_campaigns.py:56-71 | every content row appears once, in order, with its first table row and its own UTM fields |
| Campaigns.Extra | content-performance-report/w6_join_campaigns.py:76 | never more rows than the table |
| Campaigns.ExtraMembers | content-performance-report/w6_join_campaigns.py:76 | a row is extra exactly when it is in the table and its key belongs to no content row |
| Campaigns.ExtraConcat | content-performance-report/w6_join_campaigns.py:76-84 | the extra rows of a concatenated table are the concatenated extra rows, so `len(extra_campaign)` counts repeats |
| Campaigns.NullCount | content-performance-report/w6_join_campaigns.py:75 | the number of null cells, counted with multiplicity, and 0 exactly when none is null |
| Campaigns.MissingNeverReported | content-performance-report/w6_join_campaigns.py:74-85 | as written, the join check always reports 0 urls missing a campaign and every url as matched |
| Campaigns.Unmatched | content-performance-report/w6_join_campaigns.py:75 | the number of joined rows without a table row, counted with multiplicity, and 0 exactly when every row matched |
| Campaigns.JoinCheckCounts | content-performance-report/w6_join_campaigns.py:74-85 | intended check: matched + missing = content urls, and missing = 0 exactly when every content key is in the table |
| Campaigns.NoCampaignGoesUnreported | content-performance-report/w6_join_campaigns.py:74-85 | one url and an empty table: the check as written reports 0 missing, the intended check reports 1 |
| Campaigns.Summarise | content-performance-report/w6_join_campaigns.py:101-129 | one row per value of the attribution, with the summed counters, distinct-url count and rate, most views first and ties by key |
| Campaigns.SummaryAddsUp | content-performance-report/w6_join_campaigns.py:101-129 | for every attribution column, the summary rows' counters add up to the content totals |
| Campaigns.Qualifying | content-performance-report/w6_join_campaigns.py:146 | exactly the merged rows with at least 100 impressions |
| Campaigns.QualifyingConcat | content-performance-report/w6_join_campaigns.py:146 | each row is judged on its own: the qualifying rows of a concatenation are the concatenated qualifying rows |
| Campaigns.TopWithCampaign | content-performance-report/w6_join_campaigns.py:143-149 | min(5, qualifying) qualifying rows: a prefix of the qualifying rows stably sorted by views descending and then title ascending, and so a sub-multiset of them |
| Campaigns.TopWithCampaignIsBest | content-performance-report/w6_join_campaigns.py:143-149 | no qualifying row left out ranks above one in the list |
| Campaigns.TopWithCampaignOfStableOrder | content-performance-report/w6_join_campaigns.py:143-149 | any stable sort of the qualifying rows by views and title, cut at 5, is the top list |
| Frame.Load | content-performance-report/w6_pandas_basics.py:11-28 | a row is dropped exactly when its date reads as NaT. A kept row holds the date read; the title and url as the stripped text of the field after `read_csv`'s missing-value detection ("nan" for a missing value); the channel as that text stripped and title-cased; and the counters as `to_int` reads the fields after the same detection |
| Frame.EmptyFieldIsMissing | content-performance-report/w6_pandas_basics.py:11 | an empty field, like an absent one, is a missing value to `read_csv` |
| Frame.BlankTitleKept | content-performance-report/w6_pandas_basics.py:11-28 | a dated row whose title is empty, absent or whitespace only is kept: with title "nan" when the field is empty or absent (a missing value), and "" when it is whitespace only. `normalize_row` drops the same record |
| Frame.ChannelAsReport | content-performance-report/w6_pandas_basics.py:11-17 | the loaded channel equals the channel `normalize_row` makes, unless `read_csv` takes the field for a missing value, where it is "Nan"; either way it is its own title case |
| Frame.UnreadableCountsZero | content-performance-report/w6_pandas_basics.py:22-23 | a missing counter, or one with no digit, becomes 0 |
| Frame.LoadContent | content-performance-report/w6_pandas_basics.py:13-28 | the loaded rows are clean, each comes from some record, and every loadable record contributes its row |
| Frame.LoadConcat | content-performance-report/w6_pandas_basics.py:13 | loading concatenated files is concatenating the loaded files |
| Frame.DropsOnlyUndated | content-performance-report/w6_pandas_basics.py:28 | no row is lost exactly when every date reads |
| Frame.UrlsAreIds | content-performance-report/w6_pandas_basics.py:41 | `nunique` of the url column counts the distinct urls, never more than the rows |
| Frame.OverallOf | content-performance-report/w6_pandas_basics.py:37-47 | `rows` is the row count and `posts` the distinct-url count, so posts ≤ rows and posts > 0 when there are rows; the counters are the rows' sums and the rate is that of the sums |
| Frame.OverallOfOne | content-performance-report/w6_pandas_basics.py:37 | the totals of one row are its counters |
| Frame.OverallConcat | content-performance-report/w6_pandas_basics.py:37 | the totals of concatenated tables are the sums of their totals |
| Frame.ChannelSummary | content-performance-report/w6_pandas_basics.py:54-62 | one row per channel, with distinct urls (never more than its rows), sums and rate, most views first and ties by channel |
| Frame.ChannelsAddUp | content-performance-report/w6_pandas_basics.py:54-62 | the channel rows add up to the overall sums |
| Frame.Qualifying | content-performance-report/w6_pandas_basics.py:70 | exactly the rows with at least 100 impressions |
| Frame.PostRows | content-performance-report/w6_pandas_basics.py:69-75 | one row per (url, title, channel) of the qualifying rows, no post twice, holding the sums of that post's qualifying rows, at least 100 impressions, and their rate |
| Frame.SmallRowIgnored | content-performance-report/w6_pandas_basics.py:70-71 | a row below 100 impressions changes no top-list row, even when its post has qualifying rows |
| Frame.TopBy | content-performance-report/w6_pandas_basics.py:69-92 | min(5, posts) post rows: a prefix of the post rows stably sorted by the key, and so a sub-multiset of them |
| Frame.TopIsBest | content-performance-report/w6_pandas_basics.py:69-92 | no post left out of a top list ranks above one in it |
| Frame.TopByOfStableOrder | content-performance-report/w6_pandas_basics.py:69-92 | any stable sort of the post rows by the key, cut at 5, is the top list |
| Periods.Monthly | content-performance-report/w6_pandas_basics.py:99-108 | one row per month that has rows, strictly ascending by month text, with distinct urls, sums and rate |
| Periods.MonthOrder | content-performance-report/w6_pandas_basics.py:99-107 | ascending `YYYY-MM` text is (year, month) order |
| Periods.MonthlyIsChronological | content-performance-report/w6_pandas_basics.py:99-108 | the months of the summary come in calendar order |
| Periods.DayIndex | content-performance-report/w6_pandas_basics.py:114 | a day name's place in `order`, and 7 exactly for text that is no day name |
| Periods.DayIndexOfName | content-performance-report/w6_pandas_basics.py:113-114 | a date's day name sits at its weekday in `order` |
| Periods.DayOfWeek | content-performance-report/w6_pandas_basics.py:113-124 | one row per day name that has rows, at most 7, in Monday-to-Sunday order, with distinct urls, sums and rate; days without rows are absent |
| Periods.WeekOrdered | content-performance-report/w6_pandas_basics.py:123-124 | rows sorted on the categorical order follow the week strictly |
| Periods.Row | content-performance-report/w6_pandas_basics.py:131 | a pivot row holds one cell per channel column, each the views of that month and channel |
| Periods.Channels | content-performance-report/w6_pandas_basics.py:131 | the pivot columns: exactly the channels seen, strictly ascending |
| Periods.Months | content-performance-report/w6_pandas_basics.py:131 | the pivot index: exactly the months seen, strictly ascending, and the same months as the monthly summary |
| Periods.PivotOf | content-performance-report/w6_pandas_basics.py:131 | rows are the months seen and columns the channels seen, both ascending; each cell holds the summed views of its month and channel |
| Periods.AbsentCellIsZero | content-performance-report/w6_pandas_basics.py:131 | `fill_value=0`: a month and channel with no row in common hold 0 |
| Periods.PivotRowAddsUp | content-performance-report/w6_pandas_basics.py:100-131 | each pivot row adds up to its month's views in the monthly summary |
| Periods.RowAddsUp | content-performance-report/w6_pandas_basics.py:131 | a row over distinct columns that cover every channel adds up to the month's views |

## Left out

- File and console I/O is not modelled: file discovery and reading, `print`, `save_csv`, `save_json`, `print_table`, argparse, and the `.to_csv` exports. The records of the CSV files are a parameter. `main` is modelled by `Report.BuildReport` from those records and the argument strings.
- The `SystemExit` calls for an empty data folder (w6_pandas_basics.py:7-8) and for a missing campaign file (w6_join_campaigns.py:12-13) are not modelled, because they are I/O.
- Metrics.CtrPct: `ctr_pct` is the exact ratio in hundredths, rounded half to even. Binary-float `round(x, 2)` can differ from this in the last digit. The pandas scripts also keep the unrounded float. Because rates are rounded, two different rates can become equal and then be ordered by the later fields of the key.
- Campaigns.Summarise: the source and topic summaries divide without a zero check (w6_join_campaigns.py:117,127), which gives a float inf or NaN rate for zero impressions. The model uses the rate with 0 for zero impressions, as at line 107.
- Dates.ParseDateSound: `parse_date` is modelled with fixed-width fields of ASCII digits. Python's `strptime` also accepts one-digit month and day fields and a space-padded day. Its pattern is compiled without `re.ASCII`, so a field may also hold any Unicode decimal digit: `parse_date("٢٠٢٥-01-01")` is 2025-01-01 in Python. The model rejects all of these.
- Dates.IsoSound: holds for the fixed-width ASCII-digit fields the model reads. Text that `strptime` accepts with one-digit fields or non-ASCII decimal digits is not the rendering of its date.
- Dates.DmySound: the same gap as Dates.IsoSound, for the day/month format.
- Dates.MdySound: the same gap as Dates.IsoSound, for the month/day format.
- Frame.Load: `pd.to_datetime`'s format inference is the `DateReader` parameter, so any reader can be plugged in. `pd.to_numeric` is modelled by the same decimal grammar as `to_int`. The counters that `.astype(int)` stores are int64 in pandas, and so are the column sums built from them (the overall, channel, top-5, monthly, day-of-week and pivot figures, and the Campaigns summaries, which use the same loader). A counter of 2^63 or more does not fit, and sums beyond that range wrap silently. The model's counters and sums are unbounded integers, so its figures agree with pandas only while every counter and sum stays within int64.
- Numbers.ToInt: the grammar is sign, digits and an optional fraction, read exactly and truncated toward zero. Python reads the text into a binary64 float first, and the model does not round as that float does: integers beyond 2^53 and long fractions such as "0.99999999999999999" (which reads as 1) can differ, so the lemmas about numerals bound their inputs (at most 2^53, or below 2^32 with at most six fraction digits). A numeral of 309 or more digits becomes an infinite float, and `int` of it raises `OverflowError`, which `to_int` does not catch (content_report.py:25); the model returns the number. Exponents, underscores and non-ASCII digits are not modelled, and neither are the "inf"/"infinity" spellings (which raise `OverflowError`) and the "nan" spellings (which raise `ValueError` in `int` and read as 0).
- ToIntWithoutDigits: stated only for text that is no spelling of infinity, because `int(float("inf"))` raises `OverflowError` instead of giving 0.
- ParseNeedsDigit: stated only for text that is no spelling of infinity or NaN, because `float` accepts those without a digit.
- Urls.PairOf: `parse_qs` percent-decoding and '+' → space are not modelled, so the round-trip lemmas exclude '+' and '%'. The query is split on '&' only.
- Urls.UrlSplit: of the checks `urlsplit` makes, the bracket checks of Python 3.12 (and of 3.11.4 onward) are modelled: an unpaired bracket, text around the bracketed host, and a bracketed host that is not an IPv6 or IPvFuture address. The NFKC check, which refuses a non-ASCII network location whose normal form gains one of '/', '?', '#', '@' or ':' (such as "a\uFF0Fb"), is not modelled. So Urls.UrlSplit, Urls.SplitOfHttps, Urls.PlainHostAccepted, Urls.BracketedNetlocOf and Urls.UtmOfHttps hold as stated only for network locations whose characters are ASCII; for a host the NFKC check refuses, Python gives all five UTM fields as None where the model reads them.
- Text.Title: title-casing is ASCII-only: letters outside 'A'..'Z' and 'a'..'z' are kept as they are. The whitespace set of `strip` is Python's.
- Text.Lower: lower-casing is ASCII-only: only 'A'..'Z' are changed, while Python's `lower()` also lower-cases non-ASCII letters.
- The `per_url` group-by of the join script (w6_join_campaigns.py:40-51) is not modelled. The per-url content table is an input to `Campaigns.Join`, with its `url_key` column computed by `NormalizeUrl`.
- Frame.TopBy: posts are grouped in order of first appearance and then sorted stably. pandas `groupby` orders the groups by their (url, title, channel) key before the stable multi-column `sort_values`. The two orders can differ only for posts that tie on the whole sort key, such as two urls with the same title and views.
- Periods.DayOfWeek: a day name outside the categories would become NaN in pandas and sort last. This cannot happen, because every day name is in the order list.
- The medium column is filled (w6_join_campaigns.py:69) and modelled by `Campaigns.Attribute`, but the source does not summarise it, so neither does the model.
- `nunique` ignores NaN urls. Urls here are always text, because `astype(str)` turns a blank cell into "nan".
- Campaigns.Attributions: when the per-url table is empty (no dated rows), `pd.DataFrame([])` has no `utm_*` columns and w6_join_campaigns.py:67 raises `KeyError`. The model returns no rows instead.
- Campaigns.LoadCampaign: `read_csv`'s default missing-value spellings are modelled by `Text.ReadCsv`, but its column type inference before `astype(str)` is not. In an integer column, "007" reads as "7". In a float column (a numeric column that also holds a blank or a decimal), "2024" reads as "2024.0". The model keeps the field's text as written. The `na_values`, `keep_default_na` and `na_filter` options are not modelled; the scripts use the defaults. `Frame.Load` reads its text fields the same way and has the same gap.
- Campaigns.LoadCampaignCells: the same type-inference gap as Campaigns.LoadCampaign, for the campaign, source, medium and topic columns.
- A missing column, which raises `KeyError` in pandas and an absent key in `csv.DictReader`, is modelled only as a blank cell (`None`).

## Findings

| source | as written | input that shows it | evidently intended | confidence | as-written member | corrected member |
|---|---|---|---|---|---|---|
| content-performance-report/w6_join_campaigns.py:75-82 | `missing_campaign` is computed after line 67 has filled every campaign cell with the UTM value or "unknown", so it is always empty and `matched` always equals the number of content urls | one content url and an empty campaign table: the url has no campaign row, yet the check reports 0 missing and 1 matched | count the content urls that found no table row (before the fill) as missing, and the others as matched | not executed | Campaigns.MissingNeverReported | Campaigns.JoinCheckCounts |

=== FILE: campaigns.dfy ===
/**
 * The campaign join of w6_join_campaigns.py: per-url content rows are
 * left-joined on a normalised url key against a campaign table from which
 * duplicate keys were dropped (the first row of each key is kept); each
 * joined row is attributed a campaign, source and medium (the table's value,
 * else the url's UTM parameter, else "unknown") and a topic (the table's
 * value, else "unknown"); the joined rows are then summarised per campaign,
 * per source and per topic, and the best viewed rows are listed.
 */
module Campaigns {
  import opened Wrappers
  import opened Text
  import opened Metrics
  import opened Ranking
  import opened Urls
  import Numbers
  import Groups

  // ----- the two tables -----

  /** One row of the per-url content table, with its `url_key` column. */
  datatype Content = Content(url: string, key: string, title: string, counts: Counters)

  /** A per-url content row with its join key: the normalised url. */
  function ContentRow(url: string, title: string, counts: Counters): Content {
    Content(url, NormalizeUrl(url), title, counts)
  }

  /** A campaign record as it stands in the file: each field's text, None
      for an absent column. */
  datatype RawCampaign = RawCampaign(
    url: Option<string>, campaign: Option<string>, source: Option<string>,
    medium: Option<string>, topic: Option<string>)

  /** A loaded campaign row: every cell is text, and `key` is `url_key`. */
  datatype Campaign = Campaign(url: string, key: string, campaign: string, source: string, medium: string, topic: string)

  /** `load_campaigns` on one record: the url as text with its key, and the
      four attribution cells as stripped text (`LoadCampaignCells`). A url
      `read_csv` takes for a missing value is never null after loading: it
      reads "nan". */
  function LoadCampaign(r: RawCampaign): (c: Campaign)
    ensures c.key == NormalizeUrl(c.url)
    ensures ReadCsv(r.url).None? ==> c.url == "nan"
    ensures ReadCsv(r.url).Some? ==> c.url == r.url.value
  {
    var url := UrlCell(r.url);
    Campaign(url, NormalizeUrl(url), Cell(r.campaign), Cell(r.source), Cell(r.medium), Cell(r.topic))
  }

  /** An attribution cell `read_csv` takes for a missing value reads "nan";
      any other reads as its stripped text. */
  lemma LoadCampaignCells(r: RawCampaign)
    ensures ReadCsv(r.campaign).None? ==> LoadCampaign(r).campaign == "nan"
    ensures ReadCsv(r.source).None? ==> LoadCampaign(r).source == "nan"
    ensures ReadCsv(r.medium).None? ==> LoadCampaign(r).medium == "nan"
    ensures ReadCsv(r.topic).None? ==> LoadCampaign(r).topic == "nan"
    ensures ReadCsv(r.campaign).Some? ==> LoadCampaign(r).campaign == Strip(r.campaign.value)
    ensures ReadCsv(r.source).Some? ==> LoadCampaign(r).source == Strip(r.source.value)
    ensures ReadCsv(r.medium).Some? ==> LoadCampaign(r).medium == Strip(r.medium.value)
    ensures ReadCsv(r.topic).Some? ==> LoadCampaign(r).topic == Strip(r.topic.value)
  {
  }

  /** A campaign written "N/A" in the file is a missing value to `read_csv`,
      so the loaded row holds "nan" there, as for a blank cell. */
  lemma NaCellReadsNan(r: RawCampaign)
    requires r.campaign == Some("N/A")
    ensures LoadCampaign(r).campaign == "nan"
  {
    assert NaText("N/A");
  }

  /** The url cell read as text: a missing value reads "nan". */
  function UrlCell(v: Option<string>): (t: string)
    ensures ReadCsv(v).None? ==> t == "nan"
    ensures ReadCsv(v).Some? ==> t == v.value
  {
    AsText(ReadCsv(v))
  }

  /** An attribution cell read as text and stripped: a missing value reads
      "nan", which has nothing to strip. */
  function Cell(v: Option<string>): (t: string)
    ensures ReadCsv(v).None? ==> t == "nan"
    ensures ReadCsv(v).Some? ==> t == Strip(v.value)
  {
    match ReadCsv(v)
    case None => "nan"
    case Some(x) => Strip(x)
  }

  function LoadCampaigns(rows: seq<RawCampaign>): seq<Campaign> {
    seq(|rows|, i requires 0 <= i < |rows| => LoadCampaign(rows[i]))
  }

  function TableKeys(t: seq<Campaign>): set<string> {
    set c | c in t :: c.key
  }

  // ----- drop_duplicates("url_key") -----

  /** Where the first row with key `k` sits, or -1. */
  function FirstIndex(t: seq<Campaign>, k: string): (i: int)
    ensures -1 <= i < |t|
    ensures i >= 0 ==> t[i].key == k && forall j | 0 <= j < i :: t[j].key != k
    ensures i < 0 ==> forall j | 0 <= j < |t| :: t[j].key != k
  {
    if |t| == 0 then -1
    else
      var i := FirstIndex(t[..|t| - 1], k);
      if i >= 0 then i else if t[|t| - 1].key == k then |t| - 1 else -1
  }

  /** The first row with key `k`: no earlier row has that key. */
  function First(t: seq<Campaign>, k: string): (r: Option<Campaign>)
    ensures r.None? <==> k !in TableKeys(t)
    ensures r.Some? ==> r.value in t && r.value.key == k
  {
    var i := FirstIndex(t, k);
    if i < 0 then None else Some(t[i])
  }

  /** The row kept for a key is the earliest row with that key: one sits
      at a position before which no row has the key. */
  lemma FirstIsEarliest(t: seq<Campaign>, k: string)
    ensures First(t, k).Some? ==>
      exists i | 0 <= i < |t| :: t[i] == First(t, k).value && forall j | 0 <= j < i :: t[j].key != k
  {
    var i := FirstIndex(t, k);
    if i >= 0 {
      assert t[i] == First(t, k).value;
    }
  }

  /** `drop_duplicates("url_key")`: one row per key, in table order. */
  function DropDuplicateKeys(t: seq<Campaign>): (r: seq<Campaign>)
    ensures forall i, j | 0 <= i < j < |r| :: r[i].key != r[j].key
    ensures TableKeys(r) == TableKeys(t)
    ensures forall c | c in r :: c in t
  {
    if |t| == 0 then []
    else
      var init := t[..|t| - 1];
      var x := t[|t| - 1];
      var p := DropDuplicateKeys(init);
      assert t == init + [x];
      assert TableKeys(t) == TableKeys(init) + {x.key};
      if x.key in TableKeys(init) then p
      else
        assert forall c | c in p :: c.key != x.key;
        assert TableKeys(p + [x]) == TableKeys(p) + {x.key};
        p + [x]
  }

  /** Each kept row is the first row of its key: later duplicates go. */
  lemma {:induction false} DropKeepsFirst(t: seq<Campaign>)
    ensures forall c | c in DropDuplicateKeys(t) :: First(t, c.key) == Some(c)
  {
    if |t| > 0 {
      var init := t[..|t| - 1];
      var x := t[|t| - 1];
      DropKeepsFirst(init);
      forall c | c in DropDuplicateKeys(t)
        ensures First(t, c.key) == Some(c)
      {
        if c in DropDuplicateKeys(init) {
          FirstOfPrefix(t, c.key);
        } else {
          assert c == x && x.key !in TableKeys(init);
          FirstOfPrefix(t, c.key);
        }
      }
    }
  }

  /** Looking up the first row in a longer table finds the prefix's first
      row when there is one, and the new row otherwise. */
  lemma FirstOfPrefix(t: seq<Campaign>, k: string)
    requires |t| > 0
    ensures var init := t[..|t| - 1];
      First(t, k) == if First(init, k).Some? then First(init, k)
                     else if t[|t| - 1].key == k then Some(t[|t| - 1]) else None
  {
  }

  /** After dropping duplicates the lookup is unchanged. */
  lemma FirstOfDeduplicated(t: seq<Campaign>, k: string)
    ensures First(DropDuplicateKeys(t), k) == First(t, k)
  {
    var d := DropDuplicateKeys(t);
    if First(d, k).Some? {
      DropKeepsFirst(t);
    }
  }

  // ----- merge(how="left") -----

  /** A content row with the table row it was joined to, if any. */
  datatype Joined = Joined(content: Content, row: Option<Campaign>)

  /** The rows of `t` with key `k`, in order. */
  function Matches(t: seq<Campaign>, k: string): (m: seq<Campaign>)
    ensures |m| <= |t|
  {
    if |t| == 0 then []
    else
      var init := t[..|t| - 1];
      var x := t[|t| - 1];
      assert t == init + [x];
      Matches(init, k) + (if x.key == k then [x] else [])
  }

  /** The matches of `k` are exactly the table rows with key `k`. */
  lemma {:induction false} MatchesMembers(t: seq<Campaign>, k: string, c: Campaign)
    ensures c in Matches(t, k) <==> c in t && c.key == k
    decreases |t|
  {
    if |t| > 0 {
      var init := t[..|t| - 1];
      assert t == init + [t[|t| - 1]];
      MatchesMembers(init, k, c);
    }
  }

  /** No row matches exactly when no table row has the key. */
  lemma MatchesEmpty(t: seq<Campaign>, k: string)
    ensures |Matches(t, k)| == 0 <==> k !in TableKeys(t)
  {
    var m := Matches(t, k);
    if |m| > 0 {
      MatchesMembers(t, k, m[0]);
    }
    if k in TableKeys(t) {
      var c :| c in t && c.key == k;
      MatchesMembers(t, k, c);
    }
  }

  /** Each table row is matched on its own, so order and repeats are kept. */
  lemma {:induction false} MatchesConcat(a: seq<Campaign>, b: seq<Campaign>, k: string)
    ensures Matches(a + b, k) == Matches(a, k) + Matches(b, k)
    decreases |b|
  {
    if |b| == 0 {
      assert a + b == a;
    } else {
      var init := b[..|b| - 1];
      var x := b[|b| - 1];
      assert b == init + [x];
      assert a + b == (a + init) + [x];
      MatchesConcat(a, init, k);
      MatchesSnoc(a + init, x, k);
      MatchesSnoc(init, x, k);
    }
  }

  lemma MatchesSnoc(t: seq<Campaign>, x: Campaign, k: string)
    ensures Matches(t + [x], k) == Matches(t, k) + (if x.key == k then [x] else [])
  {
    assert (t + [x])[..|t|] == t;
  }

  /** What a left join makes of one content row: one row per match, or one
      row without a match. */
  function Pairings(c: Content, t: seq<Campaign>): seq<Joined> {
    var m := Matches(t, c.key);
    if |m| == 0 then [Joined(c, None)]
    else seq(|m|, i requires 0 <= i < |m| => Joined(c, Some(m[i])))
  }

  /** The left merge on the url key: content rows in order, each repeated
      once per matching table row, or kept once without one. */
  function LeftMerge(content: seq<Content>, t: seq<Campaign>): seq<Joined> {
    if |content| == 0 then []
    else LeftMerge(content[..|content| - 1], t) + Pairings(content[|content| - 1], t)
  }

  /** With at most one row per key the match is the first row, if any. */
  lemma {:induction false} MatchesOfDistinct(t: seq<Campaign>, k: string)
    requires forall i, j | 0 <= i < j < |t| :: t[i].key != t[j].key
    ensures Matches(t, k) == if First(t, k).Some? then [First(t, k).value] else []
  {
    if |t| > 0 {
      var init := t[..|t| - 1];
      var x := t[|t| - 1];
      MatchesOfDistinct(init, k);
      FirstOfPrefix(t, k);
      if x.key == k {
        assert k !in TableKeys(init) by {
          forall c | c in init ensures c.key != k {
            var i :| 0 <= i < |init| && init[i] == c;
            assert t[i] == c;
          }
        }
      }
    }
  }

  /** Against a table with distinct keys, the left join yields exactly one
      row per content row, in content order, with the first matching row. */
  lemma {:induction false} MergeOnePerRow(content: seq<Content>, t: seq<Campaign>)
    requires forall i, j | 0 <= i < j < |t| :: t[i].key != t[j].key
    ensures |LeftMerge(content, t)| == |content|
    ensures forall i | 0 <= i < |content| ::
      LeftMerge(content, t)[i] == Joined(content[i], First(t, content[i].key))
  {
    if |content| > 0 {
      var init := content[..|content| - 1];
      var c := content[|content| - 1];
      var prev := LeftMerge(init, t);
      var r := LeftMerge(content, t);
      assert r == prev + [Joined(c, First(t, c.key))] by {
        MergeStep(content, t);
      }
      MergeOnePerRow(init, t);
      forall i | 0 <= i < |content|
        ensures r[i] == Joined(content[i], First(t, content[i].key))
      {
        if i < |init| {
          assert r[i] == prev[i];
          assert content[i] == init[i];
        } else {
          assert r[i] == Joined(c, First(t, c.key));
        }
      }
    }
  }

  lemma MergeStep(content: seq<Content>, t: seq<Campaign>)
    requires |content| > 0
    requires forall i, j | 0 <= i < j < |t| :: t[i].key != t[j].key
    ensures var c := content[|content| - 1];
      LeftMerge(content, t) == LeftMerge(content[..|content| - 1], t) + [Joined(c, First(t, c.key))]
  {
    var c := content[|content| - 1];
    MatchesOfDistinct(t, c.key);
    if First(t, c.key).Some? {
      SinglePairing(c, t, First(t, c.key).value);
    }
  }

  lemma SinglePairing(c: Content, t: seq<Campaign>, v: Campaign)
    requires Matches(t, c.key) == [v]
    ensures Pairings(c, t) == [Joined(c, Some(v))]
  {
  }

  /** Two table rows under one key turn one content row into two: the reason
      duplicates are dropped first. */
  lemma DuplicateKeysRepeatContent(c: Content, a: Campaign, b: Campaign)
    requires a.key == c.key && b.key == c.key
    ensures LeftMerge([c], [a, b]) == [Joined(c, Some(a)), Joined(c, Some(b))]
  {
    assert [a, b][..1] == [a];
    assert [c][..0] == [];
    assert Matches([a, b], c.key) == [a, b];
  }

  /** The left join against the table with duplicate keys dropped. */
  function Join(content: seq<Content>, t: seq<Campaign>): seq<Joined> {
    LeftMerge(content, DropDuplicateKeys(t))
  }

  /** The join keeps every content row once, in order, and pairs it with the
      first table row of its key. */
  lemma JoinKeepsContent(content: seq<Content>, t: seq<Campaign>)
    ensures |Join(content, t)| == |content|
    ensures forall i | 0 <= i < |content| ::
      Join(content, t)[i] == Joined(content[i], First(t, content[i].key))
  {
    var d := DropDuplicateKeys(t);
    MergeOnePerRow(content, d);
    forall i | 0 <= i < |content|
      ensures First(d, content[i].key) == First(t, content[i].key)
    {
      FirstOfDeduplicated(t, content[i].key);
    }
  }

  // ----- attribution -----

  /** The four attribution columns of the table. */
  datatype Column = CampaignColumn | SourceColumn | MediumColumn | TopicColumn

  function Get(r: Campaign, col: Column): string {
    match col
    case CampaignColumn => r.campaign
    case SourceColumn => r.source
    case MediumColumn => r.medium
    case TopicColumn => r.topic
  }

  /** A column of the merged frame: null where no table row was joined. */
  function MergedCell(j: Joined, col: Column): Option<string> {
    if j.row.Some? then Some(Get(j.row.value, col)) else None
  }

  /** A null cell takes the fallback, and a null fallback gives "unknown". */
  function Fill(value: Option<string>, fallback: Option<string>): string {
    value.GetOr(fallback.GetOr("unknown"))
  }

  /** A joined row with its UTM parameters and its four attributions. */
  datatype Attributed = Attributed(
    content: Content, row: Option<Campaign>, utm: Utm,
    campaign: string, source: string, medium: string, topic: string)

  /** The attribution of one joined row: campaign, source and medium fall
      back to the url's UTM parameter, topic falls back to nothing, and the
      last resort is "unknown". */
  function Attribute(j: Joined, u: Utm): (a: Attributed)
    ensures a.content == j.content && a.row == j.row && a.utm == u
  {
    Attributed(j.content, j.row, u,
      Fill(MergedCell(j, CampaignColumn), u.campaign),
      Fill(MergedCell(j, SourceColumn), u.source),
      Fill(MergedCell(j, MediumColumn), u.medium),
      Fill(MergedCell(j, TopicColumn), None))
  }

  /** A joined table row decides all four attributions, whatever the url's
      query says. */
  lemma TablePrevails(j: Joined, u: Utm)
    requires j.row.Some?
    ensures var a := Attribute(j, u);
      && a.campaign == j.row.value.campaign && a.source == j.row.value.source
      && a.medium == j.row.value.medium && a.topic == j.row.value.topic
  {
  }

  /** Without a table row, campaign, source and medium are the url's UTM
      parameters where present, and "unknown" elsewhere; topic is always
      "unknown". */
  lemma UtmFallback(j: Joined, u: Utm)
    requires j.row.None?
    ensures var a := Attribute(j, u);
      && (u.campaign.Some? ==> a.campaign == u.campaign.value)
      && (u.campaign.None? ==> a.campaign == "unknown")
      && (u.source.Some? ==> a.source == u.source.value)
      && (u.source.None? ==> a.source == "unknown")
      && (u.medium.Some? ==> a.medium == u.medium.value)
      && (u.medium.None? ==> a.medium == "unknown")
      && a.topic == "unknown"
  {
  }

  /** A missing campaign value in a matched row is attributed "nan": the UTM
      fallback only ever serves content rows with no table row. */
  lemma BlankCellIsNotFilled(c: Content, r: RawCampaign, u: Utm)
    requires ReadCsv(r.campaign).None?
    ensures Attribute(Joined(c, Some(LoadCampaign(r))), u).campaign == "nan"
  {
  }

  /** The merged frame once every row is attributed. */
  function Attributions(content: seq<Content>, t: seq<Campaign>): (ms: seq<Attributed>)
    ensures |ms| == |Join(content, t)|
  {
    var js := Join(content, t);
    seq(|js|, i requires 0 <= i < |js| => Attribute(js[i], UtmFromUrl(js[i].content.url)))
  }

  /** Every content row appears once in the merged frame, with its own
      counters and the first table row of its key. */
  lemma AttributionsKeepContent(content: seq<Content>, t: seq<Campaign>)
    ensures |Attributions(content, t)| == |content|
    ensures forall i | 0 <= i < |content| ::
      && Attributions(content, t)[i].content == content[i]
      && Attributions(content, t)[i].row == First(t, content[i].key)
      && Attributions(content, t)[i].utm == UtmFromUrl(content[i].url)
  {
    JoinKeepsContent(content, t);
  }

  // ----- join diagnostics -----

  function ContentKeys(content: seq<Content>): set<string> {
    set c | c in content :: c.key
  }

  /** The table rows, duplicates included, whose key no content row has. */
  function Extra(t: seq<Campaign>, content: seq<Content>): (r: seq<Campaign>)
    ensures |r| <= |t|
  {
    if |t| == 0 then []
    else
      var init := t[..|t| - 1];
      var x := t[|t| - 1];
      assert t == init + [x];
      Extra(init, content) + (if x.key !in ContentKeys(content) then [x] else [])
  }

  /** The rows left over are exactly the table rows whose key no content
      row has. */
  lemma {:induction false} ExtraMembers(t: seq<Campaign>, content: seq<Content>, c: Campaign)
    ensures c in Extra(t, content) <==> c in t && c.key !in ContentKeys(content)
    decreases |t|
  {
    if |t| > 0 {
      var init := t[..|t| - 1];
      assert t == init + [t[|t| - 1]];
      ExtraMembers(init, content, c);
    }
  }

  /** Each table row is judged on its own, so every duplicate row counts. */
  lemma {:induction false} ExtraConcat(a: seq<Campaign>, b: seq<Campaign>, content: seq<Content>)
    ensures Extra(a + b, content) == Extra(a, content) + Extra(b, content)
    decreases |b|
  {
    if |b| == 0 {
      assert a + b == a;
    } else {
      var init := b[..|b| - 1];
      var x := b[|b| - 1];
      assert b == init + [x];
      assert a + b == (a + init) + [x];
      ExtraConcat(a, init, content);
      ExtraSnoc(a + init, x, content);
      ExtraSnoc(init, x, content);
    }
  }

  lemma ExtraSnoc(t: seq<Campaign>, x: Campaign, content: seq<Content>)
    ensures Extra(t + [x], content) == Extra(t, content) + (if x.key !in ContentKeys(content) then [x] else [])
  {
    assert (t + [x])[..|t|] == t;
  }

  datatype JoinCheck = JoinCheck(contentUrls: nat, campaignRows: nat, matched: nat, missing: nat, withoutContent: nat)

  /** The number of null cells in a column. */
  function NullCount(cells: seq<Option<string>>): (n: nat)
    ensures n <= |cells|
    ensures n == multiset(cells)[None]
    ensures n == 0 <==> forall i | 0 <= i < |cells| :: cells[i].Some?
  {
    if |cells| == 0 then 0
    else
      assert cells == cells[..|cells| - 1] + [cells[|cells| - 1]];
      NullCount(cells[..|cells| - 1]) + (if cells[|cells| - 1].None? then 1 else 0)
  }

  /** The campaign column as the diagnostics see it: after the fill. */
  function FilledCampaigns(ms: seq<Attributed>): seq<Option<string>> {
    seq(|ms|, i requires 0 <= i < |ms| => Some(ms[i].campaign))
  }

  /** The join check as written: the null campaign cells are counted after
      the fallback has filled every one of them. */
  function JoinCheckAsWritten(content: seq<Content>, t: seq<Campaign>): JoinCheck {
    var ms := Attributions(content, t);
    var missing := NullCount(FilledCampaigns(ms));
    JoinCheck(|content|, |t|, |ms| - missing, missing, |Extra(t, content)|)
  }

  /** As written, no content url is ever reported without a campaign, and
      every one is reported as matched. */
  lemma MissingNeverReported(content: seq<Content>, t: seq<Campaign>)
    ensures JoinCheckAsWritten(content, t).missing == 0
    ensures JoinCheckAsWritten(content, t).matched == |content|
  {
    AttributionsKeepContent(content, t);
  }

  /** The table-row column of the joined rows. */
  function RowsOf(js: seq<Joined>): (r: seq<Option<Campaign>>)
    ensures |r| == |js| && forall i | 0 <= i < |js| :: r[i] == js[i].row
  {
    seq(|js|, i requires 0 <= i < |js| => js[i].row)
  }

  /** The joined rows without a table row. */
  function Unmatched(js: seq<Joined>): (n: nat)
    ensures n <= |js|
    ensures n == multiset(RowsOf(js))[None]
    ensures n == 0 <==> forall i | 0 <= i < |js| :: js[i].row.Some?
  {
    if |js| == 0 then 0
    else
      var init := js[..|js| - 1];
      assert RowsOf(js) == RowsOf(init) + [js[|js| - 1].row];
      Unmatched(init) + (if js[|js| - 1].row.None? then 1 else 0)
  }

  /** The diagnostics as evidently intended: the content urls with no table
      row are counted before the fallback fills them. */
  function JoinCheckIntended(content: seq<Content>, t: seq<Campaign>): JoinCheck {
    var js := Join(content, t);
    var missing := Unmatched(js);
    JoinCheck(|content|, |t|, |js| - missing, missing, |Extra(t, content)|)
  }

  /** Every content url is either matched or missing, and none is missing
      exactly when every content url has a table row. */
  lemma JoinCheckCounts(content: seq<Content>, t: seq<Campaign>)
    ensures var r := JoinCheckIntended(content, t);
      && r.matched + r.missing == r.contentUrls
      && (r.missing == 0 <==> forall c | c in content :: c.key in TableKeys(t))
  {
    var js := Join(content, t);
    JoinKeepsContent(content, t);
    if forall c | c in content :: c.key in TableKeys(t) {
      forall i | 0 <= i < |js| ensures js[i].row.Some? {
        assert content[i] in content;
      }
    } else {
      var c :| c in content && c.key !in TableKeys(t);
      var i :| 0 <= i < |content| && content[i] == c;
      assert js[i].row.None?;
    }
  }

  /** One content url and an empty table: the url has no campaign, the
      intended check reports it and the check as written does not. */
  lemma NoCampaignGoesUnreported(c: Content)
    ensures JoinCheckAsWritten([c], []).missing == 0
    ensures JoinCheckIntended([c], []).missing == 1
  {
    MissingNeverReported([c], []);
    JoinKeepsContent([c], []);
    assert Join([c], [])[..0] == [];
  }

  // ----- summaries -----

  function Key(a: Attributed, col: Column): string {
    match col
    case CampaignColumn => a.campaign
    case SourceColumn => a.source
    case MediumColumn => a.medium
    case TopicColumn => a.topic
  }

  /** Grouped on one attribution; `urls` counts distinct urls. */
  function ByColumn(col: Column): Groups.Facet<Attributed, string> {
    Groups.Facet((a: Attributed) => Key(a, col), (a: Attributed) => a.content.url, (a: Attributed) => a.content.counts)
  }

  /** The summary on one attribution: one row per value, with the summed
      counters, the number of distinct urls and the rate, most viewed first
      and ties by the value. */
  function Summarise(ms: seq<Attributed>, col: Column): (r: seq<Groups.Summary>)
    ensures SortedBy(r, Groups.ViewsThenKey)
    ensures (set s | s in r :: s.key) == (set a | a in ms :: Key(a, col))
    ensures forall i, j | 0 <= i < j < |r| :: r[i].key != r[j].key
    ensures forall s | s in r ::
      var m := Groups.Members(ms, ByColumn(col), s.key);
      && s.counts == Groups.SumOf(m, ByColumn(col))
      && s.posts == |Groups.IdsOf(m, ByColumn(col))|
      && s.ctrPct == CtrPct(s.counts)
  {
    KeysOfColumn(ms, col);
    Groups.RankedSummaries(ms, ByColumn(col), true)
  }

  lemma KeysOfColumn(ms: seq<Attributed>, col: Column)
    ensures Groups.KeysOf(ms, ByColumn(col)) == (set a | a in ms :: Key(a, col))
  {
    Groups.KeysOfImage(ms, ByColumn(col));
  }

  /** The content totals. */
  function TotalOf(content: seq<Content>): Counters {
    if |content| == 0 then Zero else TotalOf(content[..|content| - 1]).Plus(content[|content| - 1].counts)
  }

  /** The rows of every summary add up to the content totals: each content
      row lands in exactly one summary row, once. */
  lemma SummaryAddsUp(content: seq<Content>, t: seq<Campaign>, col: Column)
    ensures Groups.SumSummaries(Summarise(Attributions(content, t), col)) == TotalOf(content)
  {
    var ms := Attributions(content, t);
    Groups.SummariesAddUp(ms, ByColumn(col), true, Groups.ViewsThenKey);
    AttributionsKeepContent(content, t);
    SameCounters(ms, content, col);
  }

  lemma {:induction false} SameCounters(ms: seq<Attributed>, content: seq<Content>, col: Column)
    requires |ms| == |content|
    requires forall i | 0 <= i < |ms| :: ms[i].content == content[i]
    ensures Groups.SumOf(ms, ByColumn(col)) == TotalOf(content)
  {
    if |ms| > 0 {
      SameCounters(ms[..|ms| - 1], content[..|content| - 1], col);
    }
  }

  // ----- top posts with campaign -----

  /** The merged rows with at least `MinImpressions` impressions, in order. */
  function Qualifying(ms: seq<Attributed>): (r: seq<Attributed>)
    ensures |r| <= |ms|
    ensures forall a | a in r :: a in ms && a.content.counts.impressions >= MinImpressions
    ensures forall a | a in ms && a.content.counts.impressions >= MinImpressions :: a in r
  {
    if |ms| == 0 then []
    else
      var init := ms[..|ms| - 1];
      var x := ms[|ms| - 1];
      assert ms == init + [x];
      Qualifying(init) + (if x.content.counts.impressions >= MinImpressions then [x] else [])
  }

  /** Each row is judged on its own, so order and repeats are kept. */
  lemma {:induction false} QualifyingConcat(a: seq<Attributed>, b: seq<Attributed>)
    ensures Qualifying(a + b) == Qualifying(a) + Qualifying(b)
    decreases |b|
  {
    if |b| == 0 {
      assert a + b == a;
    } else {
      var init := b[..|b| - 1];
      var x := b[|b| - 1];
      var e := if x.content.counts.impressions >= MinImpressions then [x] else [];
      assert (a + b)[..|a + b| - 1] == a + init;
      assert (a + b)[|a + b| - 1] == x;
      QualifyingConcat(a, init);
      assert Qualifying(a + b) == Qualifying(a + init) + e;
      assert Qualifying(b) == Qualifying(init) + e;
    }
  }

  /** `(-views, title)`. */
  function ViewsTitle(a: Attributed): seq<int> {
    [-a.content.counts.views] + Codes(a.content.title)
  }

  /** The five most viewed qualifying rows, ties by title. */
  function TopWithCampaign(ms: seq<Attributed>): (r: seq<Attributed>)
    ensures |r| == if |Qualifying(ms)| < 5 then |Qualifying(ms)| else 5
    ensures forall a | a in r :: a in ms && a.content.counts.impressions >= MinImpressions
    ensures SortedBy(r, ViewsTitle)
    ensures r == SortBy(Qualifying(ms), ViewsTitle)[..|r|]
    ensures multiset(r) <= multiset(Qualifying(ms))
  {
    var s := SortBy(Qualifying(ms), ViewsTitle);
    assert forall a | a in s :: a in multiset(Qualifying(ms));
    var r := Take(s, 5);
    SortedPrefix(s, ViewsTitle, |r|);
    PrefixMultiset(s, |r|);
    r
  }

  /** The list is the head of any sorted arrangement of the qualifying rows
      that keeps tied rows in merged-frame order. */
  lemma TopWithCampaignOfStableOrder(ms: seq<Attributed>, s: seq<Attributed>)
    requires SortedBy(s, ViewsTitle)
    requires forall k :: Ties(s, ViewsTitle, k) == Ties(Qualifying(ms), ViewsTitle, k)
    ensures TopWithCampaign(ms) == Take(s, 5)
  {
    IsStableSort(Qualifying(ms), s, ViewsTitle);
  }

  /** No qualifying row left out of the list has more views, or as many and
      an earlier title, than one in it. */
  lemma TopWithCampaignIsBest(ms: seq<Attributed>)
    ensures var r := TopWithCampaign(ms);
      forall x, y | x in Qualifying(ms) && x !in r && y in r :: !Lt(ViewsTitle(x), ViewsTitle(y))
  {
    var s := SortBy(Qualifying(ms), ViewsTitle);
    var r := TopWithCampaign(ms);
    assert r == s[..|r|];
    forall x, y | x in Qualifying(ms) && x !in r && y in r
      ensures !Lt(ViewsTitle(x), ViewsTitle(y))
    {
      assert x in multiset(s);
      PrefixIsBest(s, ViewsTitle, |r|, x, y);
    }
  }
}

=== FILE: dates.dfy ===
/**
 * Calendar dates and `parse_date` in content_report.py: the text is stripped
 * and tried against `%Y-%m-%d`, then `%d/%m/%Y`, then `%m/%d/%Y`; the first
 * format that yields a real date wins, and no match gives None.
 *
 * Dates are proleptic Gregorian (year, month, day) triples with Python's
 * `date` range, years 1 to 9999. Each format is read with fixed-width fields.
 */
module Dates {
  import opened Wrappers
  import Text
  import opened Numbers

  datatype Ymd = Ymd(year: int, month: int, day: int)

  predicate IsLeap(y: int) {
    y % 4 == 0 && (y % 100 != 0 || y % 400 == 0)
  }

  function DaysInMonth(y: int, m: int): int
    requires 1 <= m <= 12
  {
    if m == 2 then (if IsLeap(y) then 29 else 28)
    else if m == 4 || m == 6 || m == 9 || m == 11 then 30
    else 31
  }

  predicate IsValid(d: Ymd) {
    && 1 <= d.year <= 9999
    && 1 <= d.month <= 12
    && 1 <= d.day <= DaysInMonth(d.year, d.month)
  }

  /** A value of Python's `datetime.date`. */
  type Date = d: Ymd | IsValid(d) witness Ymd(1970, 1, 1)

  /** `a < b` on dates: chronological, that is lexicographic on the triple. */
  predicate Before(a: Date, b: Date) {
    || a.year < b.year
    || (a.year == b.year && a.month < b.month)
    || (a.year == b.year && a.month == b.month && a.day < b.day)
  }

  /** `a <= b` on dates. */
  predicate NotAfter(a: Date, b: Date) {
    !Before(b, a)
  }

  /** Python's `min(a, b)`. */
  function Earlier(a: Date, b: Date): (r: Date)
    ensures NotAfter(r, a) && NotAfter(r, b)
    ensures r == a || r == b
  {
    if Before(b, a) then b else a
  }

  /** Python's `max(a, b)`. */
  function Later(a: Date, b: Date): (r: Date)
    ensures NotAfter(a, r) && NotAfter(b, r)
    ensures r == a || r == b
  {
    if Before(a, b) then b else a
  }

  lemma NotAfterTransitive(a: Date, b: Date, c: Date)
    requires NotAfter(a, b) && NotAfter(b, c)
    ensures NotAfter(a, c)
  {
  }

  // ----- fixed-width rendering -----

  function Pad2(n: int): (s: string)
    requires 0 <= n < 100
    ensures |s| == 2 && AllDigits(s)
  {
    [DigitChar(n / 10), DigitChar(n % 10)]
  }

  function Pad4(n: int): (s: string)
    requires 0 <= n < 10000
    ensures |s| == 4 && AllDigits(s)
  {
    Pad2(n / 100) + Pad2(n % 100)
  }

  /** `d.strftime("%Y-%m-%d")`. */
  function IsoText(d: Date): string {
    Pad4(d.year) + "-" + Pad2(d.month) + "-" + Pad2(d.day)
  }

  /** `d.strftime("%d/%m/%Y")`. */
  function DmyText(d: Date): string {
    Pad2(d.day) + "/" + Pad2(d.month) + "/" + Pad4(d.year)
  }

  /** `d.strftime("%m/%d/%Y")`. */
  function MdyText(d: Date): string {
    Pad2(d.month) + "/" + Pad2(d.day) + "/" + Pad4(d.year)
  }

  // ----- the three formats -----

  /** The date with these fields, when there is one. */
  function MakeDate(y: int, m: int, d: int): (r: Option<Date>)
    ensures r.Some? <==> IsValid(Ymd(y, m, d))
    ensures r.Some? ==> r.value == Ymd(y, m, d)
  {
    if IsValid(Ymd(y, m, d)) then Some(Ymd(y, m, d)) else None
  }

  /** Digits at positions `i .. i + n` of `t`, as a number. */
  function Field(t: string, i: nat, n: nat): int
    requires i + n <= |t| && AllDigits(t[i..i + n])
  {
    DigitsValue(t[i..i + n])
  }

  /** `datetime.strptime(t, "%Y-%m-%d")`. */
  function ParseIso(t: string): Option<Date> {
    if |t| == 10 && t[4] == '-' && t[7] == '-'
       && AllDigits(t[0..4]) && AllDigits(t[5..7]) && AllDigits(t[8..10])
    then MakeDate(Field(t, 0, 4), Field(t, 5, 2), Field(t, 8, 2))
    else None
  }

  /** The two slash-separated formats share a layout: two digits, '/', two
      digits, '/', four digits. */
  predicate SlashLayout(t: string) {
    && |t| == 10 && t[2] == '/' && t[5] == '/'
    && AllDigits(t[0..2]) && AllDigits(t[3..5]) && AllDigits(t[6..10])
  }

  /** `datetime.strptime(t, "%d/%m/%Y")`. */
  function ParseDmy(t: string): Option<Date> {
    if SlashLayout(t) then MakeDate(Field(t, 6, 4), Field(t, 3, 2), Field(t, 0, 2)) else None
  }

  /** `datetime.strptime(t, "%m/%d/%Y")`. */
  function ParseMdy(t: string): Option<Date> {
    if SlashLayout(t) then MakeDate(Field(t, 6, 4), Field(t, 0, 2), Field(t, 3, 2)) else None
  }

  /** `parse_date`: a missing value is read as "", the text is stripped, and
      the formats are tried in order; the first that yields a date wins. */
  function ParseDate(s: Option<string>): Option<Date> {
    TryFormats(Text.Strip(s.GetOr("")))
  }

  /** The three formats in order on stripped text. */
  function TryFormats(t: string): Option<Date> {
    var iso := ParseIso(t);
    if iso.Some? then iso
    else
      var dmy := ParseDmy(t);
      if dmy.Some? then dmy else ParseMdy(t)
  }

  // ----- reading back what was rendered -----

  lemma {:induction false} TwoDigitsValue(s: string)
    requires |s| == 2 && AllDigits(s)
    ensures DigitsValue(s) == DigitValue(s[0]) * 10 + DigitValue(s[1])
  {
    var p := s[..1];
    assert p[..0] == [];
    assert DigitsValue(p) == DigitsValue(p[..0]) * 10 + DigitValue(p[0]);
    assert DigitsValue(s) == DigitsValue(p) * 10 + DigitValue(s[1]);
  }

  lemma {:induction false} Pad2Value(n: int)
    requires 0 <= n < 100
    ensures DigitsValue(Pad2(n)) == n
  {
    TwoDigitsValue(Pad2(n));
  }

  lemma {:induction false} Pad4Value(n: int)
    requires 0 <= n < 10000
    ensures DigitsValue(Pad4(n)) == n
  {
    DigitsValueConcat(Pad2(n / 100), Pad2(n % 100));
    Pad2Value(n / 100);
    Pad2Value(n % 100);
  }

  lemma {:induction false} DigitsValueConcat(a: string, b: string)
    requires AllDigits(a) && AllDigits(b) && |b| == 2
    ensures AllDigits(a + b)
    ensures DigitsValue(a + b) == DigitsValue(a) * 100 + DigitsValue(b)
  {
    var s := a + b;
    var a' := a + [b[0]];
    assert s[..|s| - 1] == a';
    assert a'[..|a'| - 1] == a;
    assert DigitsValue(s) == DigitsValue(a') * 10 + DigitValue(b[1]);
    assert DigitsValue(a') == DigitsValue(a) * 10 + DigitValue(b[0]);
    TwoDigitsValue(b);
  }

  lemma DigitRoundTrip(c: char)
    requires IsDigit(c)
    ensures DigitChar(DigitValue(c)) == c
  {
  }

  /** Two digits are the rendering of their own value. */
  lemma {:induction false} Pad2OfDigits(s: string)
    requires |s| == 2 && AllDigits(s)
    ensures DigitsValue(s) < 100
    ensures Pad2(DigitsValue(s)) == s
  {
    TwoDigitsValue(s);
    DigitRoundTrip(s[0]);
    DigitRoundTrip(s[1]);
  }

  /** Four digits are the rendering of their own value. */
  lemma {:induction false} Pad4OfDigits(s: string)
    requires |s| == 4 && AllDigits(s)
    ensures DigitsValue(s) < 10000
    ensures Pad4(DigitsValue(s)) == s
  {
    var hi, lo := s[..2], s[2..];
    assert s == hi + lo;
    DigitsValueConcat(hi, lo);
    Pad2OfDigits(hi);
    Pad2OfDigits(lo);
    HundredsSplit(DigitsValue(hi), DigitsValue(lo));
  }

  lemma HundredsSplit(a: nat, b: nat)
    requires b < 100
    ensures (a * 100 + b) / 100 == a && (a * 100 + b) % 100 == b
  {
  }

  lemma {:induction false} IsoFields(d: Date)
    ensures var t := IsoText(d);
      && |t| == 10 && t[4] == '-' && t[7] == '-'
      && t[0..4] == Pad4(d.year) && t[5..7] == Pad2(d.month) && t[8..10] == Pad2(d.day)
  {
  }

  lemma {:induction false} DmyFields(d: Date)
    ensures var t := DmyText(d);
      && SlashLayout(t)
      && t[0..2] == Pad2(d.day) && t[3..5] == Pad2(d.month) && t[6..10] == Pad4(d.year)
  {
  }

  lemma {:induction false} MdyFields(d: Date)
    ensures var t := MdyText(d);
      && SlashLayout(t)
      && t[0..2] == Pad2(d.month) && t[3..5] == Pad2(d.day) && t[6..10] == Pad4(d.year)
  {
  }

  lemma {:induction false} RenderedIsStripped(t: string)
    requires |t| == 10 && Numbers.IsDigit(t[0]) && Numbers.IsDigit(t[9])
    ensures Text.Strip(t) == t
  {
    Text.StripOfTrimmed(t);
  }

  lemma {:induction false} IsoReadsIso(d: Date)
    ensures ParseIso(IsoText(d)) == Some(d)
  {
    IsoFields(d);
    Pad4Value(d.year);
    Pad2Value(d.month);
    Pad2Value(d.day);
  }

  lemma {:induction false} DmyReadsDmy(d: Date)
    ensures ParseIso(DmyText(d)) == None
    ensures ParseDmy(DmyText(d)) == Some(d)
  {
    DmyFields(d);
    Pad4Value(d.year);
    Pad2Value(d.month);
    Pad2Value(d.day);
  }

  lemma {:induction false} MdyReadings(d: Date)
    ensures ParseIso(MdyText(d)) == None
    ensures ParseDmy(MdyText(d)) == MakeDate(d.year, d.day, d.month)
    ensures ParseMdy(MdyText(d)) == Some(d)
  {
    MdyFields(d);
    Pad4Value(d.year);
    Pad2Value(d.month);
    Pad2Value(d.day);
  }

  /** An ISO date reads back as itself. */
  lemma {:induction false} ParseDateOfIso(d: Date)
    ensures ParseDate(Some(IsoText(d))) == Some(d)
  {
    IsoFields(d);
    RenderedIsStripped(IsoText(d));
    IsoReadsIso(d);
  }

  /** A day/month/year date reads back as itself: ISO never matches a slash
      layout, and day/month is the next format tried. */
  lemma {:induction false} ParseDateOfDmy(d: Date)
    ensures ParseDate(Some(DmyText(d))) == Some(d)
  {
    DmyFields(d);
    RenderedIsStripped(DmyText(d));
    DmyReadsDmy(d);
  }

  /** A month/day/year date is read day-first whenever its day could be a
      month: "02/01/2025" is 2 January, and only a day above 12 lets the
      month/day format be reached. */
  lemma {:induction false} ParseDateOfMdy(d: Date)
    ensures d.day <= 12 ==> ParseDate(Some(MdyText(d))) == Some(Ymd(d.year, d.day, d.month))
    ensures d.day > 12 ==> ParseDate(Some(MdyText(d))) == Some(d)
  {
    if d.day <= 12 {
      SwappedIsValid(d);
    }
    MdyFields(d);
    RenderedIsStripped(MdyText(d));
    MdyReadings(d);
  }

  /** Reading a date day-first when its day is at most 12 still gives a date. */
  lemma SwappedIsValid(d: Date)
    requires d.day <= 12
    ensures IsValid(Ymd(d.year, d.day, d.month))
  {
    assert DaysInMonth(d.year, d.day) >= 28;
  }

  lemma {:induction false} IsoSound(t: string, d: Date)
    requires ParseIso(t) == Some(d)
    ensures t == IsoText(d)
  {
    Pad4OfDigits(t[0..4]);
    Pad2OfDigits(t[5..7]);
    Pad2OfDigits(t[8..10]);
    IsoFields(d);
    assert t == t[0..4] + "-" + t[5..7] + "-" + t[8..10];
  }

  lemma {:induction false} DmySound(t: string, d: Date)
    requires ParseDmy(t) == Some(d)
    ensures t == DmyText(d)
  {
    Pad4OfDigits(t[6..10]);
    Pad2OfDigits(t[0..2]);
    Pad2OfDigits(t[3..5]);
    DmyFields(d);
    assert t == t[0..2] + "/" + t[3..5] + "/" + t[6..10];
  }

  lemma {:induction false} MdySound(t: string, d: Date)
    requires ParseMdy(t) == Some(d)
    ensures t == MdyText(d)
  {
    Pad4OfDigits(t[6..10]);
    Pad2OfDigits(t[0..2]);
    Pad2OfDigits(t[3..5]);
    MdyFields(d);
    assert t == t[0..2] + "/" + t[3..5] + "/" + t[6..10];
  }

  /** Every date `parse_date` returns was written in one of the three formats. */
  lemma {:induction false} ParseDateSound(s: Option<string>, d: Date)
    requires ParseDate(s) == Some(d)
    ensures var t := Text.Strip(s.GetOr(""));
      t == IsoText(d) || t == DmyText(d) || t == MdyText(d)
  {
    var t := Text.Strip(s.GetOr(""));
    if ParseIso(t).Some? {
      IsoSound(t, d);
    } else if ParseDmy(t).Some? {
      DmySound(t, d);
    } else {
      MdySound(t, d);
    }
  }

  /** "02/01/2025" is read day-first, as 2 January 2025. */
  lemma DayFirstExample()
    ensures ParseDate(Some("02/01/2025")) == Some(Ymd(2025, 1, 2))
  {
    assert DmyText(Ymd(2025, 1, 2)) == "02/01/2025";
    ParseDateOfDmy(Ymd(2025, 1, 2));
  }

  /** "02/13/2025" has no 13th month, so month/day is reached: 13 February. */
  lemma MonthFirstExample()
    ensures ParseDate(Some("02/13/2025")) == Some(Ymd(2025, 2, 13))
  {
    assert MdyText(Ymd(2025, 2, 13)) == "02/13/2025";
    ParseDateOfMdy(Ymd(2025, 2, 13));
  }

  lemma ImpossibleDateFields()
    ensures SlashLayout("31/02/2025")
    ensures Field("31/02/2025", 0, 2) == 31 && Field("31/02/2025", 3, 2) == 2
  {
    var t := "31/02/2025";
    assert t[0..2] == "31" && t[3..5] == "02";
    TwoDigitsValue("31");
    TwoDigitsValue("02");
  }

  /** "31/02/2025" is no date in either slash order. */
  lemma ImpossibleDateExample()
    ensures ParseDate(Some("31/02/2025")) == None
  {
    assert TryFormats("31/02/2025") == None by {
      assert ParseIso("31/02/2025") == None;
      ImpossibleDateFields();
    }
    Text.StripOfTrimmed("31/02/2025");
  }

  /** Text in no format gives None. */
  lemma ForeignTextExample()
    ensures ParseDate(Some("bad")) == None
  {
    assert TryFormats("bad") == None;
    Text.StripOfTrimmed("bad");
  }

  // ----- day numbers and weekdays -----

  function DaysBeforeYear(y: int): int
    requires y >= 1
  {
    var p := y - 1;
    365 * p + p / 4 - p / 100 + p / 400
  }

  function DaysBeforeMonth(y: int, m: int): int
    requires 1 <= m <= 12
  {
    if m == 1 then 0 else DaysBeforeMonth(y, m - 1) + DaysInMonth(y, m - 1)
  }

  /** `d.toordinal()`: 1 January of year 1 is day 1. */
  function Ordinal(d: Date): int {
    DaysBeforeYear(d.year) + DaysBeforeMonth(d.year, d.month) + d.day
  }

  /** `d.weekday()`: Monday is 0 and Sunday is 6. */
  function Weekday(d: Date): (w: int)
    ensures 0 <= w < 7
  {
    (Ordinal(d) + 6) % 7
  }

  const WeekOrder: seq<string> :=
    ["Monday", "Tuesday", "Wednesday", "Thursday", "Friday", "Saturday", "Sunday"]

  /** pandas' `day_name()`. */
  function DayName(d: Date): string {
    WeekOrder[Weekday(d)]
  }

  /** `d.strftime("%Y-%m")`, the text of a monthly period. */
  function MonthKey(d: Date): string {
    Pad4(d.year) + "-" + Pad2(d.month)
  }

  /** The calendar day after `d`. */
  function NextDay(d: Date): Date
    requires d != Ymd(9999, 12, 31)
  {
    if d.day < DaysInMonth(d.year, d.month) then Ymd(d.year, d.month, d.day + 1)
    else if d.month < 12 then Ymd(d.year, d.month + 1, 1)
    else Ymd(d.year + 1, 1, 1)
  }

  lemma StepDiv(p: int)
    requires p >= 0
    ensures (p + 1) / 4 - p / 4 == (if (p + 1) % 4 == 0 then 1 else 0)
    ensures (p + 1) / 100 - p / 100 == (if (p + 1) % 100 == 0 then 1 else 0)
    ensures (p + 1) / 400 - p / 400 == (if (p + 1) % 400 == 0 then 1 else 0)
  {
  }

  lemma {:induction false} YearLength(y: int)
    requires 1 <= y < 9999
    ensures DaysBeforeYear(y + 1) == DaysBeforeYear(y) + (if IsLeap(y) then 366 else 365)
  {
    StepDiv(y - 1);
  }

  lemma {:induction false} DecemberStart(y: int)
    ensures DaysBeforeMonth(y, 12) + 31 == (if IsLeap(y) then 366 else 365)
  {
    assert DaysBeforeMonth(y, 2) == 31;
    assert DaysBeforeMonth(y, 3) == 31 + DaysInMonth(y, 2);
    assert DaysBeforeMonth(y, 4) == DaysBeforeMonth(y, 3) + 31;
    assert DaysBeforeMonth(y, 5) == DaysBeforeMonth(y, 4) + 30;
    assert DaysBeforeMonth(y, 6) == DaysBeforeMonth(y, 5) + 31;
    assert DaysBeforeMonth(y, 7) == DaysBeforeMonth(y, 6) + 30;
    assert DaysBeforeMonth(y, 8) == DaysBeforeMonth(y, 7) + 31;
    assert DaysBeforeMonth(y, 9) == DaysBeforeMonth(y, 8) + 31;
    assert DaysBeforeMonth(y, 10) == DaysBeforeMonth(y, 9) + 30;
    assert DaysBeforeMonth(y, 11) == DaysBeforeMonth(y, 10) + 31;
    assert DaysBeforeMonth(y, 12) == DaysBeforeMonth(y, 11) + 30;
  }

  /** Day numbers count days: the next day is one more. */
  lemma {:induction false} OrdinalNextDay(d: Date)
    requires d != Ymd(9999, 12, 31)
    ensures Ordinal(NextDay(d)) == Ordinal(d) + 1
  {
    if d.day == DaysInMonth(d.year, d.month) && d.month == 12 {
      YearLength(d.year);
      DecemberStart(d.year);
    }
  }

  /** Weekdays cycle Monday to Sunday, one step per calendar day. */
  lemma {:induction false} WeekdayNextDay(d: Date)
    requires d != Ymd(9999, 12, 31)
    ensures Weekday(NextDay(d)) == (Weekday(d) + 1) % 7
  {
    OrdinalNextDay(d);
    WeekStep(Ordinal(d));
  }

  lemma WeekStep(o: int)
    ensures (o + 1 + 6) % 7 == ((o + 6) % 7 + 1) % 7
  {
  }

  /** 1 January 2025 was a Wednesday. */
  lemma NewYear2025()
    ensures DayName(Ymd(2025, 1, 1)) == "Wednesday"
  {
    assert DaysBeforeYear(2025) == 739251;
  }
}

=== FILE: frame.dfy ===
/**
 * The pandas walk-through w6_pandas_basics.py: the content files loaded into
 * one table (`load_content`) and the summaries its script prints from that
 * table: overall totals, one row per channel, and the five best posts by
 * views and by CTR among the rows with enough impressions. The calendar
 * summaries of the same script are in module Periods.
 *
 * `pd.to_datetime` is a parameter: its format inference belongs to the
 * library. A counter cell is read as content_report.py's `to_int` reads it.
 */
module Frame {
  import opened Wrappers
  import opened Text
  import opened Dates
  import opened Metrics
  import opened Ranking
  import Numbers
  import Records
  import Groups

  // ----- load_content -----

  /** One row of the loaded table, with its `ctr_pct` column. */
  datatype Entry = Entry(title: string, date: Date, channel: string, url: string, counts: Counters, ctrPct: int)

  /** `pd.to_datetime(..., errors="coerce")` on one cell's text; None is NaT. */
  type DateReader = string -> Option<Date>

  /** A blank date cell, or one `read_csv` takes for a missing value, is
      NaT, whatever the reader. */
  function ReadDate(cell: Option<string>, parse: DateReader): Option<Date> {
    match ReadCsv(cell)
    case None => None
    case Some(t) => parse(t)
  }

  /** What every loaded row looks like: title, channel and url without
      surrounding whitespace, and the row's own rate. */
  predicate Clean(e: Entry) {
    && Trimmed(e.title) && Trimmed(e.channel) && Trimmed(e.url)
    && e.ctrPct == CtrPct(e.counts)
  }

  /** `load_content` on one record. Each field is read as `read_csv` reads
      it; text cells then go through `astype(str)` (a blank cell reads "nan")
      and are stripped, the channel title-cased first; the counters are
      coerced, a blank one to 0. None is the row `dropna` removes. */
  function Load(r: Records.RawRow, parse: DateReader): (e: Option<Entry>)
    ensures e.None? <==> ReadDate(r.date, parse).None?
    ensures e.Some? ==> Some(e.value.date) == ReadDate(r.date, parse) && Clean(e.value)
    ensures e.Some? ==>
      e.value.title == Strip(AsText(ReadCsv(r.title))) && e.value.url == Strip(AsText(ReadCsv(r.url)))
    ensures e.Some? ==> e.value.channel == Title(Strip(AsText(ReadCsv(r.channel))))
    ensures e.Some? ==>
      e.value.counts == Counters(Numbers.ToInt(ReadCsv(r.views)), Numbers.ToInt(ReadCsv(r.clicks)),
        Numbers.ToInt(ReadCsv(r.impressions)))
  {
    var channel := AsText(ReadCsv(r.channel));
    TitleStripCommute(channel);
    match ReadDate(r.date, parse)
    case None => None
    case Some(d) =>
      var counts := Counters(Numbers.ToInt(ReadCsv(r.views)), Numbers.ToInt(ReadCsv(r.clicks)),
        Numbers.ToInt(ReadCsv(r.impressions)));
      Some(Entry(Strip(AsText(ReadCsv(r.title))), d, Strip(Title(channel)), Strip(AsText(ReadCsv(r.url))),
        counts, CtrPct(counts)))
  }

  /** A blank title does not drop the row here, although `normalize_row`
      drops it in content_report.py: an empty or absent field is read as a
      missing value and becomes "nan", and a field of whitespace only
      becomes "". */
  lemma BlankTitleKept(r: Records.RawRow, parse: DateReader)
    requires ReadDate(r.date, parse).Some?
    requires r.title.None? || Strip(r.title.value) == ""
    ensures Load(r, parse).Some?
    ensures Load(r, parse).value.title == if ReadCsv(r.title).None? then "nan" else ""
    ensures r.title.None? || r.title.value == "" ==> Load(r, parse).value.title == "nan"
    ensures Records.NormalizeRow(r).None?
  {
    if ReadCsv(r.title).None? {
      TitleOfMissing(r, parse);
    } else {
      TitleOfBlank(r, parse);
    }
    EmptyFieldIsMissing(r.title);
    BlankCellIsEmpty(r.title);
  }

  lemma TitleOfMissing(r: Records.RawRow, parse: DateReader)
    requires ReadDate(r.date, parse).Some? && ReadCsv(r.title).None?
    ensures Load(r, parse).Some? && Load(r, parse).value.title == "nan"
  {
    NanStrip();
  }

  lemma TitleOfBlank(r: Records.RawRow, parse: DateReader)
    requires ReadDate(r.date, parse).Some? && ReadCsv(r.title).Some? && Strip(r.title.value) == ""
    ensures Load(r, parse).Some? && Load(r, parse).value.title == ""
  {
  }

  /** An absent or empty field is a missing value to `read_csv`. */
  lemma EmptyFieldIsMissing(v: Option<string>)
    ensures v.None? || v.value == "" ==> ReadCsv(v).None?
  {
    assert NaText("");
  }

  /** A field that strips to nothing is an empty cell to `normalize_row`. */
  lemma BlankCellIsEmpty(v: Option<string>)
    requires v.None? || Strip(v.value) == ""
    ensures Records.Cell(v) == ""
  {
    StripOfTrimmed("");
  }

  /** Title-casing before stripping gives the channel content_report.py
      gets by stripping first, and it is in title case. The scripts differ
      only on a field `read_csv` takes for a missing value: pandas keeps the
      channel "Nan" there. */
  lemma ChannelAsReport(r: Records.RawRow, parse: DateReader)
    requires ReadDate(r.date, parse).Some?
    ensures Load(r, parse).Some?
    ensures ReadCsv(r.channel).Some? ==> Load(r, parse).value.channel == Records.NormalizeChannel(r.channel)
    ensures ReadCsv(r.channel).None? ==> Load(r, parse).value.channel == "Nan"
    ensures Title(Load(r, parse).value.channel) == Load(r, parse).value.channel
  {
    var c := Title(Strip(AsText(ReadCsv(r.channel))));
    assert Load(r, parse).value.channel == c;
    if ReadCsv(r.channel).None? {
      ChannelOfMissing(r.channel);
    } else {
      ChannelOfPresent(r.channel);
    }
  }

  /** A channel `read_csv` takes as missing is title-cased "nan". */
  lemma ChannelOfMissing(v: Option<string>)
    requires ReadCsv(v).None?
    ensures Title(Strip(AsText(ReadCsv(v)))) == "Nan"
    ensures Title("Nan") == "Nan"
  {
    NanStrip();
    NanTitle();
    TitleIdempotent("nan");
  }

  /** A channel `read_csv` keeps is cased as `normalize_row` cases it. */
  lemma ChannelOfPresent(v: Option<string>)
    requires ReadCsv(v).Some?
    ensures Title(Strip(AsText(ReadCsv(v)))) == Records.NormalizeChannel(v)
    ensures Title(Title(Strip(AsText(ReadCsv(v))))) == Title(Strip(AsText(ReadCsv(v))))
  {
    var t := v.value;
    TitleStripCommute(t);
    TitleIdempotent(Strip(t));
  }

  /** The channel text of a missing value. */
  lemma NanTitle()
    ensures Title("nan") == "Nan"
  {
  }

  /** A counter cell that is missing or holds no digit counts 0. */
  lemma UnreadableCountsZero(r: Records.RawRow, parse: DateReader)
    requires ReadDate(r.date, parse).Some?
    requires r.views.None? ||
      (Numbers.NoDigits(r.views.value) && Numbers.Ascii(r.views.value) && !Numbers.InfWord(r.views.value))
    ensures Load(r, parse).Some? && Load(r, parse).value.counts.views == 0
  {
    if ReadCsv(r.views).None? {
      Numbers.ToIntOfMissing();
    } else {
      Numbers.ToIntWithoutDigits(r.views.value);
    }
  }

  /** `load_content`: the records of all files in order, each loaded, the
      rows without a date left out. */
  function LoadContent(raws: seq<Records.RawRow>, parse: DateReader): (es: seq<Entry>)
    ensures |es| <= |raws|
    ensures forall e | e in es :: Clean(e) && exists r | r in raws :: Load(r, parse) == Some(e)
    ensures forall r | r in raws && Load(r, parse).Some? :: Load(r, parse).value in es
  {
    var ls := Records.Apply(raws, (r: Records.RawRow) => Load(r, parse));
    var es := Records.Present(ls);
    forall e | e in es ensures Clean(e) && exists r | r in raws :: Load(r, parse) == Some(e) {
      var i :| 0 <= i < |ls| && ls[i] == Some(e);
      assert raws[i] in raws;
    }
    forall r | r in raws && Load(r, parse).Some? ensures Load(r, parse).value in es {
      var i :| 0 <= i < |raws| && raws[i] == r;
      assert ls[i] in ls;
    }
    es
  }

  /** `pd.concat` of the files: loading them together is loading each. */
  lemma LoadConcat(a: seq<Records.RawRow>, b: seq<Records.RawRow>, parse: DateReader)
    ensures LoadContent(a + b, parse) == LoadContent(a, parse) + LoadContent(b, parse)
  {
    var f := (r: Records.RawRow) => Load(r, parse);
    Records.ApplyConcat(a, b, f);
    Records.PresentConcat(Records.Apply(a, f), Records.Apply(b, f));
  }

  /** Only a date that does not parse loses a row. */
  lemma DropsOnlyUndated(raws: seq<Records.RawRow>, parse: DateReader)
    ensures |LoadContent(raws, parse)| == |raws| <==> forall r | r in raws :: ReadDate(r.date, parse).Some?
  {
    var ls := Records.Apply(raws, (r: Records.RawRow) => Load(r, parse));
    PresentKeepsAll(ls);
    LoadedAll(raws, parse, ls);
  }

  lemma LoadedAll(raws: seq<Records.RawRow>, parse: DateReader, ls: seq<Option<Entry>>)
    requires |ls| == |raws| && forall i | 0 <= i < |raws| :: ls[i] == Load(raws[i], parse)
    ensures (forall o | o in ls :: o.Some?) <==> forall r | r in raws :: ReadDate(r.date, parse).Some?
  {
    if forall r | r in raws :: ReadDate(r.date, parse).Some? {
      forall o | o in ls ensures o.Some? {
        var i :| 0 <= i < |ls| && ls[i] == o;
        assert raws[i] in raws;
      }
    } else {
      var r :| r in raws && ReadDate(r.date, parse).None?;
      var i :| 0 <= i < |raws| && raws[i] == r;
      assert ls[i] in ls;
    }
  }

  lemma {:induction false} PresentKeepsAll<T>(xs: seq<Option<T>>)
    ensures |Records.Present(xs)| == |xs| <==> forall o | o in xs :: o.Some?
  {
    if |xs| > 0 {
      var init := xs[..|xs| - 1];
      PresentKeepsAll(init);
      assert xs == init + [xs[|xs| - 1]];
      assert forall o | o in init :: o in xs;
    }
  }

  // ----- overall -----

  /** The overall line: distinct urls, rows, the three sums and their rate. */
  datatype Overall = Overall(posts: nat, rows: nat, counts: Counters, ctrPct: int)

  /** Rows grouped by channel; the id whose distinct values count as posts
      is the url. */
  function ByChannel(): Groups.Facet<Entry, string> {
    Groups.Facet((e: Entry) => e.channel, (e: Entry) => e.url, (e: Entry) => e.counts)
  }

  function Urls(es: seq<Entry>): set<string> {
    set e | e in es :: e.url
  }

  /** The distinct ids of any facet on urls are the urls, and there are no
      more of them than rows. */
  lemma UrlsAreIds(es: seq<Entry>, f: Groups.Facet<Entry, string>)
    requires f.id == ByChannel().id
    ensures Groups.IdsOf(es, f) == Urls(es)
    ensures |Urls(es)| <= |es|
  {
    Groups.IdsOfImage(es, f);
    Groups.IdsAtMostItems(es, f);
    assert (set x | x in es :: f.id(x)) == Urls(es);
  }

  /** `overall`: `posts` counts distinct urls and `rows` counts rows, so a
      post that appears on several rows is one post. */
  function OverallOf(es: seq<Entry>): (o: Overall)
    ensures o.rows == |es| && o.posts == |Urls(es)|
    ensures o.posts <= o.rows
    ensures o.rows > 0 ==> o.posts > 0
    ensures o.counts == Groups.SumOf(es, ByChannel())
    ensures o.ctrPct == CtrPct(o.counts)
  {
    UrlsAreIds(es, ByChannel());
    assert |es| > 0 ==> es[0].url in Urls(es);
    var total := Groups.SumOf(es, ByChannel());
    Overall(|Groups.IdsOf(es, ByChannel())|, |es|, total, CtrPct(total))
  }

  /** The totals are the rows' sums: one row contributes its own
      counters... */
  lemma OverallOfOne(e: Entry)
    ensures OverallOf([e]).counts == e.counts
  {
    assert [e][..0] == [];
    assert Groups.SumOf([e], ByChannel()) == Zero.Plus(ByChannel().counts(e));
  }

  /** ...and the totals of two tables laid end to end add up. */
  lemma OverallConcat(a: seq<Entry>, b: seq<Entry>)
    ensures OverallOf(a + b).counts == OverallOf(a).counts.Plus(OverallOf(b).counts)
  {
    Groups.SumConcat(a, b, ByChannel());
  }

  // ----- channel summary -----

  /** The channel summary: one row per channel holding its distinct urls,
      sums and rate, most viewed first and ties by channel name. */
  function ChannelSummary(es: seq<Entry>): (r: seq<Groups.Summary>)
    ensures SortedBy(r, Groups.ViewsThenKey)
    ensures (set s | s in r :: s.key) == (set e | e in es :: e.channel)
    ensures forall i, j | 0 <= i < j < |r| :: r[i].key != r[j].key
    ensures forall s | s in r ::
      var m := Groups.Members(es, ByChannel(), s.key);
      && s.posts == |Urls(m)| && s.posts <= |m|
      && s.counts == Groups.SumOf(m, ByChannel()) && s.ctrPct == CtrPct(s.counts)
  {
    var r := Groups.RankedSummaries(es, ByChannel(), true);
    ChannelKeys(es);
    forall s | s in r
      ensures var m := Groups.Members(es, ByChannel(), s.key); s.posts == |Urls(m)| && s.posts <= |m|
    {
      var m := Groups.Members(es, ByChannel(), s.key);
      UrlsAreIds(m, ByChannel());
    }
    r
  }

  lemma ChannelKeys(es: seq<Entry>)
    ensures Groups.KeysOf(es, ByChannel()) == (set e | e in es :: e.channel)
  {
    Groups.KeysOfImage(es, ByChannel());
  }

  /** The channel rows add up to the overall sums. */
  lemma ChannelsAddUp(es: seq<Entry>)
    ensures Groups.SumSummaries(ChannelSummary(es)) == OverallOf(es).counts
  {
    Groups.SummariesAddUp(es, ByChannel(), true, Groups.ViewsThenKey);
  }

  // ----- top lists -----

  /** How many rows each top list keeps: `head(5)`. */
  const TopCount := 5

  /** The `(url, title, channel)` group key of the top lists. */
  datatype PostKey = PostKey(url: string, title: string, channel: string)

  /** One row of a top list: a post, its sums over the qualifying rows, and
      their rate. */
  datatype TopRow = TopRow(post: PostKey, counts: Counters, ctrPct: int)

  /** The rows with at least `MinImpressions` impressions, in order. */
  function Qualifying(es: seq<Entry>): (q: seq<Entry>)
    ensures |q| <= |es|
    ensures forall e | e in q :: e in es && e.counts.impressions >= MinImpressions
    ensures forall e | e in es && e.counts.impressions >= MinImpressions :: e in q
  {
    if |es| == 0 then []
    else
      var init := es[..|es| - 1];
      var last := es[|es| - 1];
      assert es == init + [last];
      Qualifying(init) + (if last.counts.impressions >= MinImpressions then [last] else [])
  }

  function ByPost(): Groups.Facet<Entry, PostKey> {
    Groups.Facet((e: Entry) => PostKey(e.url, e.title, e.channel), (e: Entry) => e.url, (e: Entry) => e.counts)
  }

  /** The qualifying rows grouped by post, one row per post. The rows are
      filtered before they are grouped, so a post's sums cover only its
      qualifying rows; every sum therefore has at least `MinImpressions`
      impressions and its rate never divides by zero. */
  function PostRows(es: seq<Entry>): (rows: seq<TopRow>)
    ensures (set t | t in rows :: t.post) == Groups.KeysOf(Qualifying(es), ByPost())
    ensures forall i, j | 0 <= i < j < |rows| :: rows[i].post != rows[j].post
    ensures forall t | t in rows ::
      && t.counts == Groups.SumOf(Groups.Members(Qualifying(es), ByPost(), t.post), ByPost())
      && t.counts.impressions >= MinImpressions
      && t.ctrPct == CtrPct(t.counts)
  {
    var q := Qualifying(es);
    var gs := Groups.GroupBy(q, ByPost());
    var rows := seq(|gs|, i requires 0 <= i < |gs| => RowOf(gs[i]));
    RowsFaithful(q, gs, rows);
    rows
  }

  function RowOf(g: Groups.Group<PostKey>): TopRow {
    TopRow(g.key, g.counts, CtrPct(g.counts))
  }

  lemma RowsFaithful(q: seq<Entry>, gs: seq<Groups.Group<PostKey>>, rows: seq<TopRow>)
    requires Groups.Summarises(gs, q, ByPost())
    requires forall e | e in q :: e.counts.impressions >= MinImpressions
    requires |rows| == |gs| && forall i | 0 <= i < |gs| :: rows[i] == RowOf(gs[i])
    ensures (set t | t in rows :: t.post) == Groups.KeysOf(q, ByPost())
    ensures forall i, j | 0 <= i < j < |rows| :: rows[i].post != rows[j].post
    ensures forall t | t in rows ::
      && t.counts == Groups.SumOf(Groups.Members(q, ByPost(), t.post), ByPost())
      && t.counts.impressions >= MinImpressions
      && t.ctrPct == CtrPct(t.counts)
  {
    forall t | t in rows
      ensures t.counts == Groups.SumOf(Groups.Members(q, ByPost(), t.post), ByPost())
      ensures t.counts.impressions >= MinImpressions
    {
      var i :| 0 <= i < |rows| && rows[i] == t;
      GroupFacts(q, gs, i);
    }
    RowKeys(gs, rows);
  }

  lemma RowKeys(gs: seq<Groups.Group<PostKey>>, rows: seq<TopRow>)
    requires |rows| == |gs| && forall i | 0 <= i < |gs| :: rows[i] == RowOf(gs[i])
    ensures (set t | t in rows :: t.post) == Groups.GroupKeys(gs)
  {
    forall g | g in gs ensures g.key in (set t | t in rows :: t.post) {
      var i :| 0 <= i < |gs| && gs[i] == g;
      assert rows[i] in rows;
    }
  }

  /** A group of qualifying rows holds the sums of its members, and they
      have enough impressions. */
  lemma GroupFacts(q: seq<Entry>, gs: seq<Groups.Group<PostKey>>, i: nat)
    requires Groups.Summarises(gs, q, ByPost()) && i < |gs|
    requires forall e | e in q :: e.counts.impressions >= MinImpressions
    ensures gs[i].counts == Groups.SumOf(Groups.Members(q, ByPost(), gs[i].key), ByPost())
    ensures gs[i].counts.impressions >= MinImpressions
  {
    assert gs[i].key in Groups.GroupKeys(gs);
    Groups.MembersOfPresentKey(q, ByPost(), gs[i].key);
    EnoughImpressions(Groups.Members(q, ByPost(), gs[i].key));
  }

  /** Any non-empty set of qualifying rows sums to enough impressions. */
  lemma {:induction false} EnoughImpressions(m: seq<Entry>)
    requires |m| > 0
    requires forall e | e in m :: e.counts.impressions >= MinImpressions
    ensures Groups.SumOf(m, ByPost()).impressions >= MinImpressions
  {
    var init := m[..|m| - 1];
    assert m[|m| - 1] in m;
    if |init| > 0 {
      assert forall e | e in init :: e in m;
      EnoughImpressions(init);
    }
  }

  /** A row below the threshold changes no top-list row, whatever post it
      belongs to. */
  lemma SmallRowIgnored(es: seq<Entry>, x: Entry)
    requires x.counts.impressions < MinImpressions
    ensures PostRows(es + [x]) == PostRows(es)
  {
    QualifyingSnoc(es, x);
    assert Qualifying(es + [x]) == Qualifying(es);
  }

  lemma QualifyingSnoc(es: seq<Entry>, x: Entry)
    ensures Qualifying(es + [x]) == Qualifying(es) + (if x.counts.impressions >= MinImpressions then [x] else [])
  {
    assert (es + [x])[..|es|] == es;
  }

  /** `(-views, title)`. */
  function ViewsKey(t: TopRow): seq<int> {
    [-t.counts.views] + Codes(t.post.title)
  }

  /** `(-ctr_pct, -impressions, title)`. */
  function CtrKey(t: TopRow): seq<int> {
    [-t.ctrPct, -t.counts.impressions] + Codes(t.post.title)
  }

  /** The first `TopCount` posts in `key` order. */
  function TopBy(es: seq<Entry>, key: TopRow -> seq<int>): (r: seq<TopRow>)
    ensures |r| == if |PostRows(es)| < TopCount then |PostRows(es)| else TopCount
    ensures forall t | t in r :: t in PostRows(es)
    ensures SortedBy(r, key)
    ensures r == SortBy(PostRows(es), key)[..|r|]
    ensures multiset(r) <= multiset(PostRows(es))
  {
    var s := SortBy(PostRows(es), key);
    var r := Take(s, TopCount);
    SortedPrefix(s, key, |r|);
    PrefixMultiset(s, |r|);
    assert forall t | t in r :: t in multiset(s);
    r
  }

  /** The top list is the head of any sorted arrangement of the post rows
      that keeps tied rows in their first-appearance order. */
  lemma TopByOfStableOrder(es: seq<Entry>, key: TopRow -> seq<int>, s: seq<TopRow>)
    requires SortedBy(s, key)
    requires forall k :: Ties(s, key, k) == Ties(PostRows(es), key, k)
    ensures TopBy(es, key) == Take(s, TopCount)
  {
    IsStableSort(PostRows(es), s, key);
  }

  /** `top_by_views`. */
  function TopByViews(es: seq<Entry>): seq<TopRow> {
    TopBy(es, ViewsKey)
  }

  /** `top_by_ctr`. */
  function TopByCtr(es: seq<Entry>): seq<TopRow> {
    TopBy(es, CtrKey)
  }

  /** No post left out of a top list ranks above one in it. */
  lemma TopIsBest(es: seq<Entry>, key: TopRow -> seq<int>)
    ensures var r := TopBy(es, key);
      forall x, y | x in PostRows(es) && x !in r && y in r :: !Lt(key(x), key(y))
  {
    var s := SortBy(PostRows(es), key);
    var r := TopBy(es, key);
    assert r == s[..|r|];
    forall x, y | x in PostRows(es) && x !in r && y in r
      ensures !Lt(key(x), key(y))
    {
      assert x in multiset(s);
      PrefixIsBest(s, key, |r|, x, y);
    }
  }
}

=== FILE: groups.dfy ===
/**
 * The one grouping operation behind every summary in the reports: partition
 * the items by a key, sum the three counters of each part, count its items
 * and the distinct ids (urls) among them.
 *
 * content_report.py does this with a dictionary of running totals
 * (`channel_summary`); the pandas scripts with a group-by that sums the
 * counters and counts distinct urls. A `Facet` names what the caller groups on: the key, the id
 * whose distinct values are counted, and the counters.
 */
module Groups {
  import opened Metrics
  import opened Ranking

  datatype Facet<!T, K> = Facet(key: T -> K, id: T -> string, counts: T -> Counters)

  /** One part of the partition: its key, how many items fell in it, the
      distinct ids among them and their summed counters. */
  datatype Group<K> = Group(key: K, rows: nat, ids: set<string>, counts: Counters)

  // ----- reference definitions -----

  /** The items whose key is `k`, in input order. */
  function Members<T, K(==)>(items: seq<T>, f: Facet<T, K>, k: K): (m: seq<T>)
    ensures |m| <= |items|
    ensures forall x | x in m :: x in items && f.key(x) == k
  {
    if |items| == 0 then []
    else
      var last := items[|items| - 1];
      Members(items[..|items| - 1], f, k) + (if f.key(last) == k then [last] else [])
  }

  /** The counters of `items`, summed. */
  function SumOf<T, K>(items: seq<T>, f: Facet<T, K>): Counters {
    if |items| == 0 then Zero
    else SumOf(items[..|items| - 1], f).Plus(f.counts(items[|items| - 1]))
  }

  /** The distinct ids of `items`. */
  function IdsOf<T, K>(items: seq<T>, f: Facet<T, K>): set<string> {
    if |items| == 0 then {} else IdsOf(items[..|items| - 1], f) + {f.id(items[|items| - 1])}
  }

  /** The keys that occur in `items`. */
  function KeysOf<T, K>(items: seq<T>, f: Facet<T, K>): set<K> {
    if |items| == 0 then {} else KeysOf(items[..|items| - 1], f) + {f.key(items[|items| - 1])}
  }

  /** The keys of `items` are the image of `f.key`. */
  lemma {:induction false} KeysOfImage<T, K>(items: seq<T>, f: Facet<T, K>)
    ensures KeysOf(items, f) == set x | x in items :: f.key(x)
  {
    if |items| > 0 {
      var init := items[..|items| - 1];
      var x := items[|items| - 1];
      KeysOfImage(init, f);
      assert items == init + [x];
      assert (set y | y in items :: f.key(y)) == (set y | y in init :: f.key(y)) + {f.key(x)};
    }
  }

  /** The distinct ids of `items` are the image of `f.id`. */
  lemma {:induction false} IdsOfImage<T, K>(items: seq<T>, f: Facet<T, K>)
    ensures IdsOf(items, f) == set x | x in items :: f.id(x)
  {
    if |items| > 0 {
      var init := items[..|items| - 1];
      var x := items[|items| - 1];
      IdsOfImage(init, f);
      assert items == init + [x];
      assert (set y | y in items :: f.id(y)) == (set y | y in init :: f.id(y)) + {f.id(x)};
    }
  }

  /** There are never more distinct ids than items. */
  lemma {:induction false} IdsAtMostItems<T, K>(items: seq<T>, f: Facet<T, K>)
    ensures |IdsOf(items, f)| <= |items|
  {
    if |items| > 0 {
      var init := items[..|items| - 1];
      IdsAtMostItems(init, f);
      var x := f.id(items[|items| - 1]);
      if x !in IdsOf(init, f) {
        assert |IdsOf(init, f) + {x}| == |IdsOf(init, f)| + 1;
      } else {
        assert IdsOf(init, f) + {x} == IdsOf(init, f);
      }
    }
  }

  /** A key that occurs has at least one member. */
  lemma {:induction false} MembersOfPresentKey<T, K>(items: seq<T>, f: Facet<T, K>, k: K)
    requires k in KeysOf(items, f)
    ensures |Members(items, f, k)| > 0
  {
    var init := items[..|items| - 1];
    if f.key(items[|items| - 1]) != k {
      MembersOfPresentKey(init, f, k);
    }
  }

  /** What the group with key `k` must hold. */
  function Expected<T, K(==)>(items: seq<T>, f: Facet<T, K>, k: K): Group<K> {
    var m := Members(items, f, k);
    Group(k, |m|, IdsOf(m, f), SumOf(m, f))
  }

  predicate DistinctKeys<K(==)>(gs: seq<Group<K>>) {
    forall i, j | 0 <= i < j < |gs| :: gs[i].key != gs[j].key
  }

  function GroupKeys<K>(gs: seq<Group<K>>): set<K> {
    set g | g in gs :: g.key
  }

  /** `gs` has exactly one group per key of `items`, and each is `Expected`. */
  ghost predicate Summarises<T, K>(gs: seq<Group<K>>, items: seq<T>, f: Facet<T, K>) {
    && DistinctKeys(gs)
    && GroupKeys(gs) == KeysOf(items, f)
    && forall i | 0 <= i < |gs| :: gs[i] == Expected(items, f, gs[i].key)
  }

  // ----- the single pass -----

  function Start<T, K>(x: T, f: Facet<T, K>): Group<K> {
    Group(f.key(x), 1, {f.id(x)}, f.counts(x))
  }

  function Absorb<T, K>(g: Group<K>, x: T, f: Facet<T, K>): Group<K> {
    Group(g.key, g.rows + 1, g.ids + {f.id(x)}, g.counts.Plus(f.counts(x)))
  }

  /** Where the group with key `k` sits, or -1. */
  function IndexOfKey<K(==)>(gs: seq<Group<K>>, k: K): (i: int)
    ensures -1 <= i < |gs|
    ensures i >= 0 ==> gs[i].key == k
    ensures i == -1 ==> forall j | 0 <= j < |gs| :: gs[j].key != k
  {
    if |gs| == 0 then -1
    else if gs[|gs| - 1].key == k then |gs| - 1
    else IndexOfKey(gs[..|gs| - 1], k)
  }

  /** One step of the accumulation: the item's group gains it, or a new group
      is opened for it at the end. */
  function Add<T, K(==)>(gs: seq<Group<K>>, x: T, f: Facet<T, K>): seq<Group<K>> {
    var i := IndexOfKey(gs, f.key(x));
    if i < 0 then gs + [Start(x, f)] else gs[i := Absorb(gs[i], x, f)]
  }

  /** Groups `items` by `f.key`, in order of first appearance. */
  function GroupBy<T, K(==)>(items: seq<T>, f: Facet<T, K>): (gs: seq<Group<K>>)
    ensures Summarises(gs, items, f)
  {
    if |items| == 0 then []
    else
      var prefix := items[..|items| - 1];
      var x := items[|items| - 1];
      assert items == prefix + [x];
      var prev := GroupBy(prefix, f);
      AddStep(prev, prefix, x, f);
      Add(prev, x, f)
  }

  lemma MembersSnoc<T, K>(items: seq<T>, x: T, f: Facet<T, K>, k: K)
    ensures Members(items + [x], f, k) == Members(items, f, k) + (if f.key(x) == k then [x] else [])
  {
    assert (items + [x])[..|items|] == items;
  }

  lemma SumSnoc<T, K>(items: seq<T>, x: T, f: Facet<T, K>)
    ensures SumOf(items + [x], f) == SumOf(items, f).Plus(f.counts(x))
  {
    assert (items + [x])[..|items|] == items;
  }

  /** Sums add over concatenation. */
  lemma {:induction false} SumConcat<T, K>(a: seq<T>, b: seq<T>, f: Facet<T, K>)
    ensures SumOf(a + b, f) == SumOf(a, f).Plus(SumOf(b, f))
    decreases |b|
  {
    if |b| == 0 {
      assert a + b == a;
    } else {
      var init := b[..|b| - 1];
      assert a + b == (a + init) + [b[|b| - 1]];
      SumSnoc(a + init, b[|b| - 1], f);
      SumConcat(a, init, f);
      assert b == init + [b[|b| - 1]];
      SumSnoc(init, b[|b| - 1], f);
    }
  }

  /** The sums and keys of three items, spelled out. */
  lemma ThreeItems<T, K>(a: T, b: T, c: T, f: Facet<T, K>)
    ensures SumOf([a, b, c], f) == Zero.Plus(f.counts(a)).Plus(f.counts(b)).Plus(f.counts(c))
    ensures KeysOf([a, b, c], f) == {f.key(a), f.key(b), f.key(c)}
  {
    assert [a, b, c][..2] == [a, b];
    assert [a, b][..1] == [a];
    assert [a][..0] == [];
    assert SumOf([a], f) == Zero.Plus(f.counts(a));
    assert SumOf([a, b], f) == SumOf([a], f).Plus(f.counts(b));
    assert KeysOf([a], f) == {f.key(a)};
    assert KeysOf([a, b], f) == KeysOf([a], f) + {f.key(b)};
  }

  lemma IdsSnoc<T, K>(items: seq<T>, x: T, f: Facet<T, K>)
    ensures IdsOf(items + [x], f) == IdsOf(items, f) + {f.id(x)}
    ensures KeysOf(items + [x], f) == KeysOf(items, f) + {f.key(x)}
  {
    assert (items + [x])[..|items|] == items;
  }

  lemma {:induction false} MembersOfAbsentKey<T, K>(items: seq<T>, f: Facet<T, K>, k: K)
    requires k !in KeysOf(items, f)
    ensures Members(items, f, k) == []
  {
    if |items| > 0 {
      MembersOfAbsentKey(items[..|items| - 1], f, k);
    }
  }

  lemma AddStep<T, K>(gs: seq<Group<K>>, items: seq<T>, x: T, f: Facet<T, K>)
    requires Summarises(gs, items, f)
    ensures Summarises(Add(gs, x, f), items + [x], f)
  {
    IdsSnoc(items, x, f);
    if IndexOfKey(gs, f.key(x)) >= 0 {
      AddToExisting(gs, items, x, f);
    } else {
      AddAsNew(gs, items, x, f);
    }
  }

  /** The group the item joins gains exactly that item. */
  lemma AbsorbIsExpected<T, K>(g: Group<K>, items: seq<T>, x: T, f: Facet<T, K>)
    requires g == Expected(items, f, f.key(x))
    ensures Absorb(g, x, f) == Expected(items + [x], f, f.key(x))
  {
    var m := Members(items, f, f.key(x));
    MembersSnoc(items, x, f, f.key(x));
    SumSnoc(m, x, f);
    IdsSnoc(m, x, f);
  }

  /** A group the item does not join is unchanged. */
  lemma OtherIsExpected<T, K>(g: Group<K>, items: seq<T>, x: T, f: Facet<T, K>)
    requires g == Expected(items, f, g.key) && g.key != f.key(x)
    ensures g == Expected(items + [x], f, g.key)
  {
    MembersSnoc(items, x, f, g.key);
    assert Members(items + [x], f, g.key) == Members(items, f, g.key);
  }

  lemma AddToExisting<T, K>(gs: seq<Group<K>>, items: seq<T>, x: T, f: Facet<T, K>)
    requires Summarises(gs, items, f)
    requires IndexOfKey(gs, f.key(x)) >= 0
    requires KeysOf(items + [x], f) == KeysOf(items, f) + {f.key(x)}
    ensures Summarises(Add(gs, x, f), items + [x], f)
  {
    var i := IndexOfKey(gs, f.key(x));
    var g := Absorb(gs[i], x, f);
    var gs' := gs[i := g];
    assert Add(gs, x, f) == gs';
    assert f.key(x) in GroupKeys(gs) by { assert gs[i] in gs; }
    ReplaceKeepsKeys(gs, i, g);
    forall j | 0 <= j < |gs'|
      ensures gs'[j] == Expected(items + [x], f, gs'[j].key)
    {
      if j == i {
        AbsorbIsExpected(gs[i], items, x, f);
      } else {
        OtherIsExpected(gs[j], items, x, f);
      }
    }
  }

  /** Replacing a group by one with the same key keeps the keys. */
  lemma ReplaceKeepsKeys<K>(gs: seq<Group<K>>, i: nat, g: Group<K>)
    requires i < |gs| && g.key == gs[i].key && DistinctKeys(gs)
    ensures GroupKeys(gs[i := g]) == GroupKeys(gs)
    ensures DistinctKeys(gs[i := g])
  {
    var gs' := gs[i := g];
    forall h | h in gs' ensures h.key in GroupKeys(gs) {
      var j :| 0 <= j < |gs'| && gs'[j] == h;
      assert gs[j].key == h.key && gs[j] in gs;
    }
    forall h | h in gs ensures h.key in GroupKeys(gs') {
      var j :| 0 <= j < |gs| && gs[j] == h;
      assert gs'[j].key == h.key && gs'[j] in gs';
    }
  }

  lemma AddAsNew<T, K>(gs: seq<Group<K>>, items: seq<T>, x: T, f: Facet<T, K>)
    requires Summarises(gs, items, f)
    requires IndexOfKey(gs, f.key(x)) < 0
    requires KeysOf(items + [x], f) == KeysOf(items, f) + {f.key(x)}
    ensures Summarises(Add(gs, x, f), items + [x], f)
  {
    var g := Start(x, f);
    var gs' := gs + [g];
    assert Add(gs, x, f) == gs';
    assert f.key(x) !in KeysOf(items, f) by {
      assert forall h | h in gs :: h.key != f.key(x);
    }
    StartIsExpected(items, x, f);
    OthersUnchanged(gs, items, x, f);
    AppendKeys(gs, g);
    AppendExpected(gs, g, items + [x], f);
  }

  /** Appending an expected group keeps every group expected. */
  lemma AppendExpected<T, K>(gs: seq<Group<K>>, g: Group<K>, items: seq<T>, f: Facet<T, K>)
    requires forall j | 0 <= j < |gs| :: gs[j] == Expected(items, f, gs[j].key)
    requires g == Expected(items, f, g.key)
    ensures forall j | 0 <= j < |gs + [g]| :: (gs + [g])[j] == Expected(items, f, (gs + [g])[j].key)
  {
    var gs' := gs + [g];
    forall j | 0 <= j < |gs'|
      ensures gs'[j] == Expected(items, f, gs'[j].key)
    {
      if j < |gs| { assert gs'[j] == gs[j]; }
    }
  }

  /** Appending a group with a new key adds that key and keeps keys distinct. */
  lemma AppendKeys<K>(gs: seq<Group<K>>, g: Group<K>)
    requires DistinctKeys(gs)
    requires forall j | 0 <= j < |gs| :: gs[j].key != g.key
    ensures GroupKeys(gs + [g]) == GroupKeys(gs) + {g.key}
    ensures DistinctKeys(gs + [g])
  {
    var gs' := gs + [g];
    assert g in gs';
    forall h | h in gs' ensures h.key in GroupKeys(gs) + {g.key} {
      var j :| 0 <= j < |gs'| && gs'[j] == h;
      if j < |gs| { assert gs[j] == h; }
    }
    forall a, b | 0 <= a < b < |gs'| ensures gs'[a].key != gs'[b].key {
      if b < |gs| { assert gs'[a] == gs[a] && gs'[b] == gs[b]; }
      else { assert gs'[a] == gs[a]; }
    }
  }

  lemma OthersUnchanged<T, K>(gs: seq<Group<K>>, items: seq<T>, x: T, f: Facet<T, K>)
    requires forall j | 0 <= j < |gs| :: gs[j] == Expected(items, f, gs[j].key)
    requires forall j | 0 <= j < |gs| :: gs[j].key != f.key(x)
    ensures forall j | 0 <= j < |gs| :: gs[j] == Expected(items + [x], f, gs[j].key)
  {
    forall j | 0 <= j < |gs|
      ensures gs[j] == Expected(items + [x], f, gs[j].key)
    {
      OtherIsExpected(gs[j], items, x, f);
    }
  }

  /** An item whose key is new opens a group holding just that item. */
  lemma StartIsExpected<T, K>(items: seq<T>, x: T, f: Facet<T, K>)
    requires f.key(x) !in KeysOf(items, f)
    ensures Start(x, f) == Expected(items + [x], f, f.key(x))
  {
    var k := f.key(x);
    MembersOfAbsentKey(items, f, k);
    MembersSnoc(items, x, f, k);
    assert Members(items + [x], f, k) == [x];
    SumSnoc([], x, f);
    IdsSnoc([], x, f);
  }

  // ----- totals -----

  function SumGroups<K>(gs: seq<Group<K>>): Counters {
    if |gs| == 0 then Zero else SumGroups(gs[..|gs| - 1]).Plus(gs[|gs| - 1].counts)
  }

  function RowsOf<K>(gs: seq<Group<K>>): nat {
    if |gs| == 0 then 0 else RowsOf(gs[..|gs| - 1]) + gs[|gs| - 1].rows
  }

  lemma {:induction false} AbsorbTotals<T, K>(gs: seq<Group<K>>, i: nat, x: T, f: Facet<T, K>)
    requires i < |gs|
    ensures SumGroups(gs[i := Absorb(gs[i], x, f)]) == SumGroups(gs).Plus(f.counts(x))
    ensures RowsOf(gs[i := Absorb(gs[i], x, f)]) == RowsOf(gs) + 1
  {
    var gs' := gs[i := Absorb(gs[i], x, f)];
    if i < |gs| - 1 {
      assert gs'[..|gs| - 1] == gs[..|gs| - 1][i := Absorb(gs[i], x, f)];
      AbsorbTotals(gs[..|gs| - 1], i, x, f);
    } else {
      assert gs'[..|gs| - 1] == gs[..|gs| - 1];
    }
  }

  /** Grouping loses nothing: the groups' counters add up to the items'
      counters, and their item counts to the number of items. */
  lemma {:induction false} GroupByTotals<T, K>(items: seq<T>, f: Facet<T, K>)
    ensures SumGroups(GroupBy(items, f)) == SumOf(items, f)
    ensures RowsOf(GroupBy(items, f)) == |items|
  {
    if |items| > 0 {
      var prefix := items[..|items| - 1];
      var x := items[|items| - 1];
      var prev := GroupBy(prefix, f);
      GroupByTotals(prefix, f);
      var i := IndexOfKey(prev, f.key(x));
      if i >= 0 {
        AbsorbTotals(prev, i, x, f);
      } else {
        assert (prev + [Start(x, f)])[..|prev|] == prev;
      }
    }
  }

  // ----- summary rows -----

  /** A summary row as the reports print it: the key, a post count, the
      counters and the rate. */
  datatype Summary = Summary(key: string, posts: nat, counts: Counters, ctrPct: int)

  /** `posts` counts the items: `channel_summary`'s `c["posts"] += 1`. */
  function CountingRows(g: Group<string>): Summary {
    Summary(g.key, g.rows, g.counts, CtrPct(g.counts))
  }

  /** `posts` counts distinct ids: pandas' `("url", "nunique")`. */
  function CountingIds(g: Group<string>): Summary {
    Summary(g.key, |g.ids|, g.counts, CtrPct(g.counts))
  }

  /** The sort key `(-views, key)`. */
  function ViewsThenKey(s: Summary): seq<int> {
    [-s.counts.views] + Codes(s.key)
  }

  /** One summary row per group, in group order. */
  function SummaryRows(gs: seq<Group<string>>, distinctIds: bool): (rows: seq<Summary>)
    ensures |rows| == |gs|
    ensures forall i | 0 <= i < |gs| ::
      rows[i] == if distinctIds then CountingIds(gs[i]) else CountingRows(gs[i])
  {
    seq(|gs|, i requires 0 <= i < |gs| => if distinctIds then CountingIds(gs[i]) else CountingRows(gs[i]))
  }

  /** Summary rows in the order of `order`, one row per key of `items`,
      each with that key's counters and count. */
  function SummariesBy<T>(items: seq<T>, f: Facet<T, string>, distinctIds: bool, order: Summary -> seq<int>): (r: seq<Summary>)
    ensures SortedBy(r, order)
    ensures (set s | s in r :: s.key) == KeysOf(items, f)
    ensures forall i, j | 0 <= i < j < |r| :: r[i].key != r[j].key
    ensures forall s | s in r ::
      var m := Members(items, f, s.key);
      && s.counts == SumOf(m, f)
      && s.posts == (if distinctIds then |IdsOf(m, f)| else |m|)
      && s.ctrPct == CtrPct(s.counts)
  {
    var gs := GroupBy(items, f);
    var rows := SummaryRows(gs, distinctIds);
    var r := SortBy(rows, order);
    RowsFaithful(items, f, gs, distinctIds, rows);
    SameElements(rows, r);
    DistinctAfterSort(rows, r);
    r
  }

  /** Summary rows, most viewed first and ties by key. */
  function RankedSummaries<T>(items: seq<T>, f: Facet<T, string>, distinctIds: bool): (r: seq<Summary>)
    ensures SortedBy(r, ViewsThenKey)
    ensures (set s | s in r :: s.key) == KeysOf(items, f)
    ensures forall i, j | 0 <= i < j < |r| :: r[i].key != r[j].key
    ensures forall s | s in r ::
      var m := Members(items, f, s.key);
      && s.counts == SumOf(m, f)
      && s.posts == (if distinctIds then |IdsOf(m, f)| else |m|)
      && s.ctrPct == CtrPct(s.counts)
  {
    SummariesBy(items, f, distinctIds, ViewsThenKey)
  }

  lemma RowsFaithful<T>(items: seq<T>, f: Facet<T, string>, gs: seq<Group<string>>, distinctIds: bool, rows: seq<Summary>)
    requires Summarises(gs, items, f) && rows == SummaryRows(gs, distinctIds)
    ensures (set s | s in rows :: s.key) == KeysOf(items, f)
    ensures forall i, j | 0 <= i < j < |rows| :: rows[i].key != rows[j].key
    ensures forall s | s in rows ::
      var m := Members(items, f, s.key);
      && s.counts == SumOf(m, f)
      && s.posts == (if distinctIds then |IdsOf(m, f)| else |m|)
      && s.ctrPct == CtrPct(s.counts)
  {
    assert forall i | 0 <= i < |rows| :: rows[i].key == gs[i].key;
    assert (set s | s in rows :: s.key) == GroupKeys(gs) by {
      forall g | g in gs ensures g.key in (set s | s in rows :: s.key) {
        var i :| 0 <= i < |gs| && gs[i] == g;
        assert rows[i] in rows;
      }
    }
  }

  /** A reordering keeps the set of elements. */
  lemma SameElements(rows: seq<Summary>, r: seq<Summary>)
    requires multiset(r) == multiset(rows)
    ensures forall s :: s in r <==> s in rows
  {
    forall s ensures s in r <==> s in rows {
      assert s in r <==> s in multiset(r);
    }
  }

  lemma DistinctAfterSort(rows: seq<Summary>, r: seq<Summary>)
    requires forall i, j | 0 <= i < j < |rows| :: rows[i].key != rows[j].key
    requires multiset(r) == multiset(rows)
    ensures forall i, j | 0 <= i < j < |r| :: r[i].key != r[j].key
  {
    forall i, j | 0 <= i < j < |r|
      ensures r[i].key != r[j].key
    {
      if r[i].key == r[j].key {
        assert r[i] in multiset(rows) && r[j] in multiset(rows);
        var a :| 0 <= a < |rows| && rows[a] == r[i];
        var b :| 0 <= b < |rows| && rows[b] == r[j];
        assert a == b;
        CountAtLeastTwo(r, i, j);
        CountOne(rows, a);
      }
    }
  }

  lemma CountAtLeastTwo(r: seq<Summary>, i: nat, j: nat)
    requires i < j < |r| && r[i] == r[j]
    ensures multiset(r)[r[j]] >= 2
  {
    assert r == r[..j] + [r[j]] + r[j + 1..];
    assert r[..j][i] == r[j];
    assert multiset(r[..j])[r[j]] >= 1;
  }

  lemma CountOne(rows: seq<Summary>, a: nat)
    requires a < |rows|
    requires forall i, j | 0 <= i < j < |rows| :: rows[i].key != rows[j].key
    ensures multiset(rows)[rows[a]] == 1
  {
    var v := rows[a];
    assert rows == rows[..a] + [v] + rows[a + 1..];
    assert v !in rows[..a] by {
      forall t | 0 <= t < a ensures rows[..a][t] != v { assert rows[t].key != rows[a].key; }
    }
    var tail := rows[a + 1..];
    assert v !in tail by {
      forall t | 0 <= t < |tail| ensures tail[t] != v { assert tail[t] == rows[a + 1 + t]; }
    }
  }

  /** With distinct keys the ranking fixes the order completely: any sorted
      arrangement of the same rows is this one. */
  lemma RankingIsDeterminate(r: seq<Summary>, other: seq<Summary>)
    requires SortedBy(r, ViewsThenKey) && SortedBy(other, ViewsThenKey)
    requires forall i, j | 0 <= i < j < |r| :: r[i].key != r[j].key
    requires multiset(other) == multiset(r)
    ensures other == r
  {
    forall x, y | x in r && y in r && ViewsThenKey(x) == ViewsThenKey(y)
      ensures x == y
    {
      var i :| 0 <= i < |r| && r[i] == x;
      var j :| 0 <= j < |r| && r[j] == y;
      assert Codes(x.key) == ViewsThenKey(x)[1..] == ViewsThenKey(y)[1..] == Codes(y.key);
      CodesInjective(x.key, y.key);
    }
    SortedUnique(r, other, ViewsThenKey);
  }
  function SumSummaries(ss: seq<Summary>): Counters {
    if |ss| == 0 then Zero else SumSummaries(ss[..|ss| - 1]).Plus(ss[|ss| - 1].counts)
  }

  function PostsOf(ss: seq<Summary>): nat {
    if |ss| == 0 then 0 else PostsOf(ss[..|ss| - 1]) + ss[|ss| - 1].posts
  }

  /** The summary rows add up to the totals of the items: every item is
      counted in exactly one row. */
  lemma SummariesAddUp<T>(items: seq<T>, f: Facet<T, string>, distinctIds: bool, order: Summary -> seq<int>)
    ensures SumSummaries(SummariesBy(items, f, distinctIds, order)) == SumOf(items, f)
    ensures !distinctIds ==> PostsOf(SummariesBy(items, f, distinctIds, order)) == |items|
  {
    var gs := GroupBy(items, f);
    var rows := SummaryRows(gs, distinctIds);
    GroupByTotals(items, f);
    RowsAddUp(gs, rows, distinctIds);
    SumsOfPermutation(rows, SortBy(rows, order));
  }

  lemma {:induction false} RowsAddUp(gs: seq<Group<string>>, rows: seq<Summary>, distinctIds: bool)
    requires rows == SummaryRows(gs, distinctIds)
    ensures SumSummaries(rows) == SumGroups(gs)
    ensures !distinctIds ==> PostsOf(rows) == RowsOf(gs)
  {
    if |gs| > 0 {
      var init := gs[..|gs| - 1];
      RowsAddUp(init, SummaryRows(init, distinctIds), distinctIds);
      assert rows[..|rows| - 1] == SummaryRows(init, distinctIds);
    }
  }

  /** Sums do not depend on the order of the rows. */
  lemma {:induction false} SumsOfPermutation(a: seq<Summary>, b: seq<Summary>)
    requires multiset(a) == multiset(b)
    ensures SumSummaries(a) == SumSummaries(b)
    ensures PostsOf(a) == PostsOf(b)
    decreases |a|
  {
    assert |a| == |multiset(a)| == |b|;
    if |a| > 0 {
      var x := a[|a| - 1];
      var a' := a[..|a| - 1];
      assert multiset(a') == multiset(a) - multiset{x} by {
        assert a == a' + [x];
      }
      assert x in multiset(b);
      var j :| 0 <= j < |b| && b[j] == x;
      var b' := b[..j] + b[j + 1..];
      MultisetWithout(b, j);
      SumsOfPermutation(a', b');
      RemoveAt(b, j);
    }
  }

  lemma MultisetWithout<T>(b: seq<T>, j: nat)
    requires j < |b|
    ensures multiset(b[..j] + b[j + 1..]) == multiset(b) - multiset{b[j]}
  {
    assert b == b[..j] + [b[j]] + b[j + 1..];
  }

  lemma {:induction false} RemoveAt(b: seq<Summary>, j: nat)
    requires j < |b|
    ensures SumSummaries(b) == SumSummaries(b[..j] + b[j + 1..]).Plus(b[j].counts)
    ensures PostsOf(b) == PostsOf(b[..j] + b[j + 1..]) + b[j].posts
  {
    var n := |b|;
    if j == n - 1 {
      assert b[..j] + b[j + 1..] == b[..n - 1];
    } else {
      var init := b[..n - 1];
      RemoveAt(init, j);
      assert (b[..j] + b[j + 1..])[..n - 2] == init[..j] + init[j + 1..];
      assert (b[..j] + b[j + 1..])[n - 2] == b[n - 1];
    }
  }

}

=== FILE: metrics.dfy ===
/**
 * The three counters every report carries, and the click-through rate
 * derived from them: `round(clicks / impressions * 100, 2)` when impressions
 * are positive, and 0 otherwise.
 *
 * A rate is kept as a whole number of hundredths of a percent: the exact
 * quotient rounded to the nearest hundredth, halves to the even neighbour as
 * Python's `round` does.
 */
module Metrics {

  datatype Counters = Counters(views: int, clicks: int, impressions: int) {

    /** Field-wise sum: what `+=` on each counter does. */
    function Plus(o: Counters): Counters {
      Counters(views + o.views, clicks + o.clicks, impressions + o.impressions)
    }
  }

  const Zero := Counters(0, 0, 0)

  /** `MIN_IMPR`: the impressions a post needs to enter a top list of the
      pandas scripts. */
  const MinImpressions := 100

  /** `n / d` rounded to the nearest integer, halves to even. */
  function RoundHalfEven(n: int, d: int): (q: int)
    requires d > 0
    ensures -d <= 2 * (n - q * d) <= d
    ensures 2 * (n - q * d) == d || 2 * (n - q * d) == -d ==> q % 2 == 0
  {
    var f := n / d;
    var r := n % d;
    assert n - f * d == r;
    assert n - (f + 1) * d == r - d by {
      assert (f + 1) * d == f * d + d;
    }
    if 2 * r < d then f
    else if 2 * r > d then f + 1
    else if f % 2 == 0 then f
    else f + 1
  }

  /** `ctr_pct`, in hundredths of a percent. */
  function CtrPct(c: Counters): (r: int)
    ensures c.impressions <= 0 ==> r == 0
    ensures c.impressions > 0 ==>
      -c.impressions <= 2 * (10000 * c.clicks - r * c.impressions) <= c.impressions
    ensures 0 <= c.clicks <= c.impressions ==> 0 <= r <= 10000
  {
    if c.impressions > 0 then
      var r := RoundHalfEven(10000 * c.clicks, c.impressions);
      if 0 <= c.clicks <= c.impressions then
        PercentBounds(c.clicks, c.impressions, r);
        r
      else r
    else 0
  }

  /** A rate nearest to clicks/impressions lies in 0..100 percent when the
      clicks do not exceed the impressions. */
  lemma PercentBounds(c: int, i: int, r: int)
    requires 0 <= c <= i && i > 0
    requires -i <= 2 * (10000 * c - r * i) <= i
    ensures 0 <= r <= 10000
  {
    if r < 0 {
      assert r * i <= -i by { MulAtMost(r, -1, i); }
    }
    if r > 10000 {
      assert r * i >= 10001 * i by { MulAtMost(10001, r, i); }
    }
  }

  lemma MulAtMost(a: int, b: int, i: int)
    requires a <= b && i > 0
    ensures a * i <= b * i
  {
  }

  /** 19 clicks on 900 impressions is 2.11 percent. */
  lemma CtrExample()
    ensures CtrPct(Counters(230, 19, 900)) == 211
  {
  }
}

=== FILE: numbers.dfy ===
/**
 * Counter parsing: `to_int` in content_report.py, which reads a cell with
 * `int(float(str(s).strip()))` and turns every parse failure into 0.
 *
 * The float grammar is the plain decimal one: an optional sign, digits, and an
 * optional fraction, with at least one digit in all. Converting that float to
 * int truncates toward zero, which for such a numeral is the signed value of
 * its integer digits.
 */
module Numbers {
  import opened Wrappers
  import Text

  predicate IsDigit(c: char) { '0' <= c <= '9' }

  predicate AllDigits(s: string) {
    forall k | 0 <= k < |s| :: IsDigit(s[k])
  }

  function DigitValue(c: char): nat
    requires IsDigit(c)
  {
    c as int - '0' as int
  }

  function DigitChar(d: nat): (c: char)
    requires d < 10
    ensures IsDigit(c) && DigitValue(c) == d
  {
    ('0' as int + d) as char
  }

  /** The value of a run of decimal digits, most significant first. */
  function DigitsValue(s: string): nat
    requires AllDigits(s)
  {
    if |s| == 0 then 0 else DigitsValue(s[..|s| - 1]) * 10 + DigitValue(s[|s| - 1])
  }

  /** Python's `str(n)` for a natural number. */
  function NatText(n: nat): (s: string)
    ensures |s| > 0 && AllDigits(s)
  {
    if n < 10 then [DigitChar(n)] else NatText(n / 10) + [DigitChar(n % 10)]
  }

  /** Python's `str(n)` for any integer. */
  function IntText(n: int): string {
    if n < 0 then "-" + NatText(-n) else NatText(n)
  }

  /** `int(float(t))` for an unsigned decimal numeral: the value of its
      integer digits, or None when `t` is not one. */
  function UnsignedTruncated(t: string): (r: Option<nat>)
    ensures r.Some? ==> |t| > 0
  {
    var dot := Text.Find(t, '.');
    var whole := if dot < 0 then t else t[..dot];
    var frac := if dot < 0 then "" else t[dot + 1..];
    if AllDigits(whole) && AllDigits(frac) && |whole| + |frac| > 0 then
      Some(DigitsValue(whole))
    else
      None
  }

  /** `int(float(t))` for the decimal grammar: the signed value of the integer
      digits, or None when `t` is not a decimal numeral. */
  function ParseTruncated(t: string): (r: Option<int>)
    ensures r.Some? ==> |t| > 0
  {
    if |t| > 0 && (t[0] == '-' || t[0] == '+') then
      match UnsignedTruncated(t[1..])
      case None => None
      case Some(v) => Some(if t[0] == '-' then -(v as int) else v)
    else
      match UnsignedTruncated(t)
      case None => None
      case Some(v) => Some(v)
  }

  /** Python's `str(x)` of a cell that may be missing: `str(None)` is "None". */
  function CellText(s: Option<string>): string {
    s.GetOr("None")
  }

  /** `to_int`: anything that is not a numeral gives 0. */
  function ToInt(s: Option<string>): int {
    ParseTruncated(Text.Strip(CellText(s))).GetOr(0)
  }

  /** The integers a binary64 float holds exactly, with every integer
      between them: |n| <= 2^53. */
  predicate FloatExact(n: int) {
    -0x20_0000_0000_0000 <= n <= 0x20_0000_0000_0000
  }

  predicate Ascii(t: string) {
    forall k | 0 <= k < |t| :: t[k] as int < 128
  }

  /** The stripped text without one leading sign, lower-cased: how `float`
      compares text against its special spellings. */
  function SpecialWord(t: string): string {
    var u := Text.Strip(t);
    Text.Lower(if |u| > 0 && (u[0] == '+' || u[0] == '-') then u[1..] else u)
  }

  /** A spelling of infinity that `float` accepts in any case: `int` of
      the result raises `OverflowError`, which `to_int` does not catch. */
  predicate InfWord(t: string) {
    SpecialWord(t) == "inf" || SpecialWord(t) == "infinity"
  }

  /** A spelling of NaN that `float` accepts: `int` of the result raises
      `ValueError`, which `to_int` turns into 0. */
  predicate NanWord(t: string) {
    SpecialWord(t) == "nan"
  }

  lemma {:induction false} NatTextValue(n: nat)
    ensures DigitsValue(NatText(n)) == n
  {
    var s := NatText(n);
    if n >= 10 {
      NatTextValue(n / 10);
      assert s[..|s| - 1] == NatText(n / 10);
    }
  }

  lemma NatTextHasNoDot(n: nat)
    ensures '.' !in NatText(n)
  {
    var s := NatText(n);
    assert forall k | 0 <= k < |s| :: s[k] != '.' by {
      forall k | 0 <= k < |s|
        ensures s[k] != '.'
      {
        assert IsDigit(s[k]);
      }
    }
  }

  /** A missing cell reads as 0. */
  lemma ToIntOfMissing()
    ensures ToInt(None) == 0
  {
    assert Text.Trimmed("None") && NoDigits("None");
    WordlessReadsZero(None, "None");
  }

  lemma WordlessReadsZero(s: Option<string>, t: string)
    requires CellText(s) == t && Text.Trimmed(t) && NoDigits(t)
    ensures ToInt(s) == 0
  {
    Text.StripOfTrimmed(t);
    SignedNeedsDigit(t);
  }

  /** The numeral of a natural number parses back to it. */
  lemma {:induction false} UnsignedOfNatText(m: nat)
    ensures UnsignedTruncated(NatText(m)) == Some(m)
  {
    NatTextValue(m);
    NatTextHasNoDot(m);
    assert Text.Find(NatText(m), '.') == -1;
  }

  lemma {:induction false} ParseIntText(n: int)
    ensures ParseTruncated(IntText(n)) == Some(n)
  {
    var t := IntText(n);
    if n < 0 {
      var d := NatText(-n);
      UnsignedOfNatText(-n);
      assert t[0] == '-' && t[1..] == d;
      NegativeStep(t, d, -n);
    } else {
      UnsignedOfNatText(n);
      UnsignedStep(t, n);
    }
  }

  /** A leading '-' negates the unsigned reading of the rest. */
  lemma NegativeStep(t: string, u: string, v: nat)
    requires |t| > 0 && t[0] == '-' && t[1..] == u
    requires UnsignedTruncated(u) == Some(v)
    ensures ParseTruncated(t) == Some(-(v as int))
  {
  }

  /** Text that starts with a digit is read unsigned. */
  lemma UnsignedStep(t: string, v: nat)
    requires |t| > 0 && IsDigit(t[0])
    requires UnsignedTruncated(t) == Some(v)
    ensures ParseTruncated(t) == Some(v)
  {
  }

  /** Reading back the text of an integer that a float holds exactly,
      negative ones included, gives that integer: to_int does not reject
      negative counters. */
  lemma {:induction false} ToIntOfIntText(n: int)
    requires FloatExact(n)
    ensures ToInt(Some(IntText(n))) == n
  {
    Text.StripOfTrimmed(IntText(n));
    ParseIntText(n);
  }

  /** A numeral with a fraction parses to its integer digits. */
  lemma {:induction false} UnsignedOfFraction(m: nat, frac: string)
    requires AllDigits(frac)
    ensures UnsignedTruncated(NatText(m) + "." + frac) == Some(m)
  {
    var digits := NatText(m);
    var body := digits + "." + frac;
    NatTextValue(m);
    NatTextHasNoDot(m);
    var dot := |digits|;
    assert body[..dot] == digits;
    assert body[dot] == '.';
    assert Text.Find(body, '.') == dot;
    assert body[dot + 1..] == frac;
  }

  /** "-" before a numeral with a fraction negates its integer digits. */
  lemma NegativeFraction(m: nat, frac: string)
    requires AllDigits(frac)
    ensures ParseTruncated("-" + NatText(m) + "." + frac) == Some(-(m as int))
  {
    var u := NatText(m) + "." + frac;
    var t := "-" + NatText(m) + "." + frac;
    UnsignedOfFraction(m, frac);
    SignedShape(NatText(m), frac);
    NegativeStep(t, u, m);
  }

  lemma SignedShape(d: string, frac: string)
    ensures var t := "-" + d + "." + frac; t[0] == '-' && t[1..] == d + "." + frac
  {
  }

  /** A numeral with a fraction is read as its integer digits. */
  lemma PositiveFraction(m: nat, frac: string)
    requires AllDigits(frac)
    ensures ParseTruncated(NatText(m) + "." + frac) == Some(m)
  {
    var t := NatText(m) + "." + frac;
    UnsignedOfFraction(m, frac);
    assert t[0] == NatText(m)[0];
    UnsignedStep(t, m);
  }

  /** Text without surrounding whitespace is read as it stands. */
  lemma ToIntOfUnspaced(t: string, v: int)
    requires |t| > 0 && !Text.IsSpace(t[0]) && !Text.IsSpace(t[|t| - 1])
    requires ParseTruncated(t) == Some(v)
    ensures ToInt(Some(t)) == v
  {
    Text.StripOfTrimmed(t);
  }

  /** A fractional part is cut off, toward zero: "2.7" reads as 2 and "-2.7"
      as -2. The bounds keep the nearest float below m + 1: below 2^32 a
      float is finer than 2^-21, and six fraction digits stay 10^-6 short. */
  lemma {:induction false} ToIntTruncates(m: nat, frac: string)
    requires m < 0x1_0000_0000 && |frac| <= 6 && AllDigits(frac)
    ensures ToInt(Some(NatText(m) + "." + frac)) == m
    ensures ToInt(Some("-" + (NatText(m) + "." + frac))) == -(m as int)
  {
    PositiveTruncates(m, frac);
    NegativeTruncates(m, frac);
  }

  lemma PositiveTruncates(m: nat, frac: string)
    requires AllDigits(frac)
    ensures ToInt(Some(NatText(m) + "." + frac)) == m
  {
    var t := NatText(m) + "." + frac;
    PositiveFraction(m, frac);
    assert !Text.IsSpace(t[0]) && !Text.IsSpace(t[|t| - 1]) by {
      FractionEnds(NatText(m), frac);
    }
    ToIntOfUnspaced(t, m);
  }

  lemma NegativeTruncates(m: nat, frac: string)
    requires AllDigits(frac)
    ensures ToInt(Some("-" + (NatText(m) + "." + frac))) == -(m as int)
  {
    var w := NatText(m) + "." + frac;
    UnsignedOfFraction(m, frac);
    assert !Text.IsSpace(w[|w| - 1]) by {
      FractionEnds(NatText(m), frac);
    }
    NegatedReading(w, m);
  }

  /** "-" before any text that reads as an unsigned number, and does not
      end in whitespace, reads as its negation. */
  lemma NegatedReading(w: string, v: nat)
    requires |w| > 0 && !Text.IsSpace(w[|w| - 1])
    requires UnsignedTruncated(w) == Some(v)
    ensures ToInt(Some("-" + w)) == -(v as int)
  {
    var u := "-" + w;
    assert u[0] == '-' && u[1..] == w;
    NegativeStep(u, w, v);
    assert u[|u| - 1] == w[|w| - 1];
    ToIntOfUnspaced(u, -(v as int));
  }

  /** `p + "." + frac` starts where `p` does and ends with the last digit of
      the fraction, or with the point. */
  lemma FractionEnds(p: string, frac: string)
    requires |p| > 0 && AllDigits(frac)
    ensures var t := p + "." + frac;
      t[0] == p[0] && (IsDigit(t[|t| - 1]) || t[|t| - 1] == '.')
  {
    var t := p + "." + frac;
    assert t[|t| - 1] == '.' || t[|t| - 1] == frac[|frac| - 1];
  }

  predicate NoDigits(t: string) {
    forall k | 0 <= k < |t| :: !IsDigit(t[k])
  }

  lemma StripKeepsNoDigits(t: string)
    requires NoDigits(t)
    ensures NoDigits(Text.Strip(t))
  {
    var l := Text.LStrip(t);
    assert Text.Strip(t) == Text.RStrip(l);
    NoDigitsSuffix(t, |t| - |l|);
    NoDigitsPrefix(l, |Text.RStrip(l)|);
  }

  lemma NoDigitsSuffix(t: string, i: nat)
    requires NoDigits(t) && i <= |t|
    ensures NoDigits(t[i..])
  {
    assert forall k | 0 <= k < |t| - i :: t[i..][k] == t[i + k];
  }

  lemma NoDigitsPrefix(t: string, n: nat)
    requires NoDigits(t) && n <= |t|
    ensures NoDigits(t[..n])
  {
  }

  lemma NoDigitsSlice(t: string, i: nat, j: nat)
    requires NoDigits(t) && i <= j <= |t|
    ensures NoDigits(t[i..j])
  {
    assert forall k | 0 <= k < j - i :: t[i..j][k] == t[i + k];
  }

  /** ASCII text with no digit at all (empty, "n/a", "None", "nan", ...)
      reads as 0, unless it spells infinity. */
  lemma ToIntWithoutDigits(t: string)
    requires NoDigits(t) && Ascii(t) && !InfWord(t)
    ensures ToInt(Some(t)) == 0
  {
    StripKeepsNoDigits(t);
    SignedNeedsDigit(Text.Strip(t));
  }

  /** A numeral has at least one digit, before or after the point. */
  lemma UnsignedNeedsDigit(t: string)
    requires NoDigits(t)
    ensures UnsignedTruncated(t) == None
  {
    var dot := Text.Find(t, '.');
    if dot >= 0 {
      assert |t[..dot]| > 0 ==> t[..dot][0] == t[0];
      assert |t[dot + 1..]| > 0 ==> t[dot + 1..][0] == t[dot + 1];
    } else {
      assert |t| > 0 ==> !IsDigit(t[0]);
    }
  }

  /** `float` refuses ASCII text without a digit unless it spells
      infinity or NaN. */
  lemma ParseNeedsDigit(t: string)
    requires NoDigits(t) && Ascii(t) && !InfWord(t) && !NanWord(t)
    ensures ParseTruncated(t) == None
  {
    SignedNeedsDigit(t);
  }

  lemma SignedNeedsDigit(t: string)
    requires NoDigits(t)
    ensures ParseTruncated(t) == None
  {
    UnsignedNeedsDigit(t);
    if |t| > 0 {
      NoDigitsSlice(t, 1, |t|);
      UnsignedNeedsDigit(t[1..]);
    }
  }
}

=== FILE: periods.dfy ===
/**
 * The calendar summaries of w6_pandas_basics.py: one row per `YYYY-MM`
 * month in ascending order, one row per day of the week in Monday-to-Sunday
 * order, and the month by channel table of summed views.
 */
module Periods {
  import opened Dates
  import opened Metrics
  import opened Ranking
  import opened Frame
  import Numbers
  import Groups

  /** Sorting on the key text itself. */
  function KeyOrder(s: Groups.Summary): seq<int> {
    Codes(s.key)
  }

  function SummaryKeys(r: seq<Groups.Summary>): set<string> {
    set s | s in r :: s.key
  }

  function DayNames(es: seq<Entry>): set<string> {
    set e | e in es :: DayName(e.date)
  }

  function ChannelNames(es: seq<Entry>): set<string> {
    set e | e in es :: e.channel
  }

  /** Sorted rows with distinct keys are in strictly ascending key order. */
  lemma Ascending(r: seq<Groups.Summary>)
    requires SortedBy(r, KeyOrder)
    requires forall i, j | 0 <= i < j < |r| :: r[i].key != r[j].key
    ensures forall i, j {:trigger Lt(Codes(r[i].key), Codes(r[j].key))} | 0 <= i < j < |r| :: Lt(Codes(r[i].key), Codes(r[j].key))
  {
    forall i, j | 0 <= i < j < |r|
      ensures Lt(Codes(r[i].key), Codes(r[j].key))
    {
      assert !Lt(KeyOrder(r[j]), KeyOrder(r[i]));
      LtTotal(Codes(r[i].key), Codes(r[j].key));
      if Codes(r[i].key) == Codes(r[j].key) {
        CodesInjective(r[i].key, r[j].key);
      }
    }
  }

  // ----- monthly summary -----

  function ByMonth(): Groups.Facet<Entry, string> {
    Groups.Facet((e: Entry) => MonthKey(e.date), (e: Entry) => e.url, (e: Entry) => e.counts)
  }

  /** The monthly summary: one row per month that has rows, holding its
      distinct urls, sums and rate, in ascending order of the month text. */
  function Monthly(es: seq<Entry>): (r: seq<Groups.Summary>)
    ensures forall i, j {:trigger Lt(Codes(r[i].key), Codes(r[j].key))} | 0 <= i < j < |r| :: Lt(Codes(r[i].key), Codes(r[j].key))
    ensures (set s | s in r :: s.key) == (set e | e in es :: MonthKey(e.date))
    ensures forall s | s in r ::
      var m := Groups.Members(es, ByMonth(), s.key);
      && s.posts == |Urls(m)|
      && s.counts == Groups.SumOf(m, ByMonth()) && s.ctrPct == CtrPct(s.counts)
  {
    var r := Groups.SummariesBy(es, ByMonth(), true, KeyOrder);
    Groups.KeysOfImage(es, ByMonth());
    Ascending(r);
    forall s | s in r ensures s.posts == |Urls(Groups.Members(es, ByMonth(), s.key))| {
      UrlsAreIds(Groups.Members(es, ByMonth(), s.key), ByMonth());
    }
    r
  }

  /** Ascending month text is chronological order: `YYYY-MM` compares as
      the (year, month) pair. */
  lemma MonthOrder(a: Date, b: Date)
    ensures Lt(Codes(MonthKey(a)), Codes(MonthKey(b))) <==>
      a.year < b.year || (a.year == b.year && a.month < b.month)
  {
    Pad4Value(a.year);
    Pad4Value(b.year);
    Pad2Value(a.month);
    Pad2Value(b.month);
    FieldsOrder(Pad4(a.year), Pad2(a.month), Pad4(b.year), Pad2(b.month));
  }

  /** The order of `y + "-" + m` for fixed-width digit fields. */
  lemma FieldsOrder(ya: string, ma: string, yb: string, mb: string)
    requires Numbers.AllDigits(ya) && Numbers.AllDigits(yb) && |ya| == |yb|
    requires Numbers.AllDigits(ma) && Numbers.AllDigits(mb) && |ma| == |mb|
    ensures Lt(Codes(ya + "-" + ma), Codes(yb + "-" + mb)) <==>
      || Numbers.DigitsValue(ya) < Numbers.DigitsValue(yb)
      || (Numbers.DigitsValue(ya) == Numbers.DigitsValue(yb) && Numbers.DigitsValue(ma) < Numbers.DigitsValue(mb))
  {
    ConcatOrder(ya, ma, yb, mb);
    assert ya == yb <==> Numbers.DigitsValue(ya) == Numbers.DigitsValue(yb) by {
      SameDigits(ya, yb);
      LtTotal(Codes(ya), Codes(yb));
      DigitsOrder(ya, yb);
      DigitsOrder(yb, ya);
    }
    DigitsOrder(ya, yb);
    DigitsOrder(ma, mb);
  }

  /** `y + "-" + m` with `y` of fixed width compares on `y`, then on `m`. */
  lemma ConcatOrder(ya: string, ma: string, yb: string, mb: string)
    requires |ya| == |yb|
    ensures Lt(Codes(ya + "-" + ma), Codes(yb + "-" + mb)) <==>
      Lt(Codes(ya), Codes(yb)) || (ya == yb && Lt(Codes(ma), Codes(mb)))
  {
    var a, b := Codes(ya), Codes(yb);
    var x, y := Codes("-" + ma), Codes("-" + mb);
    assert Codes(ya + "-" + ma) == a + x by { CodesConcat(ya, "-" + ma); assert ya + "-" + ma == ya + ("-" + ma); }
    assert Codes(yb + "-" + mb) == b + y by { CodesConcat(yb, "-" + mb); assert yb + "-" + mb == yb + ("-" + mb); }
    assert Lt(x, y) <==> Lt(Codes(ma), Codes(mb)) by {
      CodesConcat("-", ma);
      CodesConcat("-", mb);
      LtCons('-' as int, Codes(ma), '-' as int, Codes(mb));
    }
    SameDigits(ya, yb);
    LtAppend(a, b, x, y);
  }

  lemma CodesConcat(s: string, t: string)
    ensures Codes(s + t) == Codes(s) + Codes(t)
  {
  }

  /** Keys that agree on a prefix of equal length compare on the rest. */
  lemma {:induction false} LtAppend(u: seq<int>, v: seq<int>, x: seq<int>, y: seq<int>)
    requires |u| == |v|
    ensures Lt(u + x, v + y) <==> Lt(u, v) || (u == v && Lt(x, y))
  {
    if |u| > 0 {
      assert (u + x)[1..] == u[1..] + x;
      assert (v + y)[1..] == v[1..] + y;
      LtAppend(u[1..], v[1..], x, y);
      assert u == [u[0]] + u[1..] && v == [v[0]] + v[1..];
    } else {
      assert u + x == x && v + y == y;
    }
  }

  /** Digit strings of one width compare as their values. */
  lemma {:induction false} DigitsOrder(s: string, t: string)
    requires Numbers.AllDigits(s) && Numbers.AllDigits(t) && |s| == |t|
    ensures Lt(Codes(s), Codes(t)) <==> Numbers.DigitsValue(s) < Numbers.DigitsValue(t)
    decreases |s|
  {
    if |s| > 0 {
      var p, q := s[..|s| - 1], t[..|t| - 1];
      var a, b := s[|s| - 1], t[|t| - 1];
      assert Codes(s) == Codes(p) + [a as int];
      assert Codes(t) == Codes(q) + [b as int];
      LtAppend(Codes(p), Codes(q), [a as int], [b as int]);
      DigitsOrder(p, q);
      DigitsOrder(q, p);
      SameDigits(p, q);
      LtTotal(Codes(p), Codes(q));
      var vp, vq := Numbers.DigitsValue(p), Numbers.DigitsValue(q);
      assert Numbers.DigitsValue(s) == vp * 10 + Numbers.DigitValue(a);
      assert Numbers.DigitsValue(t) == vq * 10 + Numbers.DigitValue(b);
    }
  }

  /** Digit strings of one width are equal exactly when their codes are. */
  lemma SameDigits(s: string, t: string)
    ensures Codes(s) == Codes(t) <==> s == t
  {
    if Codes(s) == Codes(t) {
      CodesInjective(s, t);
    }
  }

  /** The months of the summary come in calendar order. */
  lemma MonthlyIsChronological(es: seq<Entry>)
    ensures var r := Monthly(es);
      forall i, j, a, b | 0 <= i < j < |r| && a in es && b in es
        && MonthKey(a.date) == r[i].key && MonthKey(b.date) == r[j].key ::
        a.date.year < b.date.year || (a.date.year == b.date.year && a.date.month < b.date.month)
  {
    var r := Monthly(es);
    forall i, j, a, b | 0 <= i < j < |r| && a in es && b in es
        && MonthKey(a.date) == r[i].key && MonthKey(b.date) == r[j].key
      ensures a.date.year < b.date.year || (a.date.year == b.date.year && a.date.month < b.date.month)
    {
      MonthOrder(a.date, b.date);
    }
  }

  // ----- day-of-week summary -----

  /** The place of a day name in `order`; 7 for any other text. */
  function DayIndex(name: string): (i: nat)
    ensures i <= 7
    ensures i < 7 ==> WeekOrder[i] == name
    ensures i == 7 ==> name !in WeekOrder
  {
    if name == "Monday" then 0
    else if name == "Tuesday" then 1
    else if name == "Wednesday" then 2
    else if name == "Thursday" then 3
    else if name == "Friday" then 4
    else if name == "Saturday" then 5
    else if name == "Sunday" then 6
    else 7
  }

  /** A date's day name sits at its weekday in the week order. */
  lemma DayIndexOfName(d: Date)
    ensures DayIndex(DayName(d)) == Weekday(d)
  {
    var w := Weekday(d);
    assert DayName(d) == WeekOrder[w];
  }

  function ByDay(): Groups.Facet<Entry, string> {
    Groups.Facet((e: Entry) => DayName(e.date), (e: Entry) => e.url, (e: Entry) => e.counts)
  }

  /** The categorical sort key: the day's place in the week. */
  function DayOrder(s: Groups.Summary): seq<int> {
    [DayIndex(s.key)]
  }

  /** The day-of-week summary: one row per day that has rows (a day without
      rows is absent, not zero), Monday first and Sunday last. */
  function DayOfWeek(es: seq<Entry>): (r: seq<Groups.Summary>)
    ensures forall s | s in r :: s.key in WeekOrder
    ensures forall i, j | 0 <= i < j < |r| :: DayIndex(r[i].key) < DayIndex(r[j].key)
    ensures |r| <= 7
    ensures (set s | s in r :: s.key) == (set e | e in es :: DayName(e.date))
    ensures forall s | s in r ::
      var m := Groups.Members(es, ByDay(), s.key);
      && s.posts == |Urls(m)|
      && s.counts == Groups.SumOf(m, ByDay()) && s.ctrPct == CtrPct(s.counts)
  {
    var r := Groups.SummariesBy(es, ByDay(), true, DayOrder);
    Groups.KeysOfImage(es, ByDay());
    WeekOrdered(r, es);
    forall s | s in r ensures s.posts == |Urls(Groups.Members(es, ByDay(), s.key))| {
      UrlsAreIds(Groups.Members(es, ByDay(), s.key), ByDay());
    }
    r
  }

  /** Sorted rows keyed by day names follow the week strictly, and there
      are at most seven of them. */
  lemma WeekOrdered(r: seq<Groups.Summary>, es: seq<Entry>)
    requires SortedBy(r, DayOrder)
    requires forall i, j | 0 <= i < j < |r| :: r[i].key != r[j].key
    requires (set s | s in r :: s.key) == (set e | e in es :: DayName(e.date))
    ensures forall s | s in r :: s.key in WeekOrder
    ensures forall i, j | 0 <= i < j < |r| :: DayIndex(r[i].key) < DayIndex(r[j].key)
    ensures |r| <= 7
  {
    DaysInWeek(r, es);
    forall i, j | 0 <= i < j < |r|
      ensures DayIndex(r[i].key) < DayIndex(r[j].key)
    {
      assert !Lt(DayOrder(r[j]), DayOrder(r[i]));
      LtCons(DayIndex(r[j].key), [], DayIndex(r[i].key), []);
      assert r[i] in r && r[j] in r;
    }
    if |r| > 0 {
      var xs := seq(|r|, i requires 0 <= i < |r| => DayIndex(r[i].key));
      IncreasingBound(xs);
      assert r[|r| - 1] in r;
      assert xs[|r| - 1] < 7;
    }
  }

  lemma DaysInWeek(r: seq<Groups.Summary>, es: seq<Entry>)
    requires SummaryKeys(r) == DayNames(es)
    ensures forall s | s in r :: s.key in WeekOrder
  {
    forall s | s in r ensures s.key in WeekOrder {
      assert s.key in SummaryKeys(r);
      var e :| e in es && DayName(e.date) == s.key;
      assert DayName(e.date) == WeekOrder[Weekday(e.date)];
    }
  }

  /** Strictly increasing naturals are at least their positions. */
  lemma {:induction false} IncreasingBound(xs: seq<int>)
    requires forall i | 0 <= i < |xs| :: xs[i] >= 0
    requires forall i, j | 0 <= i < j < |xs| :: xs[i] < xs[j]
    ensures forall i | 0 <= i < |xs| :: xs[i] >= i
  {
    if |xs| > 0 {
      var init := xs[..|xs| - 1];
      IncreasingBound(init);
      forall i | 0 <= i < |xs| ensures xs[i] >= i {
        if i > 0 {
          assert init[i - 1] == xs[i - 1];
        }
      }
    }
  }

  // ----- month x channel pivot -----

  /** The month-by-channel pivot of summed views, 0 where a month has no
      row of a channel: rows and columns in ascending order, `views[i][j]`
      the cell of `months[i]` and `channels[j]`. */
  datatype Pivot = Pivot(months: seq<string>, channels: seq<string>, views: seq<seq<int>>)

  /** The key column of summary rows. */
  function Keys(r: seq<Groups.Summary>): (ks: seq<string>)
    ensures |ks| == |r| && forall i | 0 <= i < |r| :: ks[i] == r[i].key
    ensures (set k | k in ks) == (set s | s in r :: s.key)
  {
    var ks := seq(|r|, i requires 0 <= i < |r| => r[i].key);
    forall s | s in r ensures s.key in ks {
      var i :| 0 <= i < |r| && r[i] == s;
      assert ks[i] == s.key;
    }
    ks
  }

  /** The views of the rows of month `m` on channel `c`. */
  function CellViews(es: seq<Entry>, m: string, c: string): int {
    if |es| == 0 then 0
    else
      var x := es[|es| - 1];
      CellViews(es[..|es| - 1], m, c) + (if MonthKey(x.date) == m && x.channel == c then x.counts.views else 0)
  }

  /** The views of the rows of month `m`. */
  function MonthViews(es: seq<Entry>, m: string): int {
    if |es| == 0 then 0
    else
      var x := es[|es| - 1];
      MonthViews(es[..|es| - 1], m) + (if MonthKey(x.date) == m then x.counts.views else 0)
  }

  /** One row of the pivot: the cells of month `m` across `cs`. */
  function Row(es: seq<Entry>, m: string, cs: seq<string>): (row: seq<int>)
    ensures |row| == |cs|
    ensures forall j | 0 <= j < |cs| :: row[j] == CellViews(es, m, cs[j])
  {
    if |cs| == 0 then []
    else Row(es, m, cs[..|cs| - 1]) + [CellViews(es, m, cs[|cs| - 1])]
  }

  /** The channels seen, in ascending order. */
  function Channels(es: seq<Entry>): (cs: seq<string>)
    ensures forall i, j {:trigger Lt(Codes(cs[i]), Codes(cs[j]))} | 0 <= i < j < |cs| :: Lt(Codes(cs[i]), Codes(cs[j]))
    ensures (set c | c in cs) == (set e | e in es :: e.channel)
    ensures forall e | e in es :: e.channel in cs
  {
    var r := Groups.SummariesBy(es, Frame.ByChannel(), true, KeyOrder);
    ChannelKeys(es);
    Ascending(r);
    ChannelsCovered(es, r);
    Keys(r)
  }

  lemma ChannelsCovered(es: seq<Entry>, r: seq<Groups.Summary>)
    requires SummaryKeys(r) == ChannelNames(es)
    ensures forall e | e in es :: e.channel in Keys(r)
  {
    var cs := Keys(r);
    forall e | e in es ensures e.channel in cs {
      assert e.channel in ChannelNames(es);
      var s :| s in r && s.key == e.channel;
      var i :| 0 <= i < |r| && r[i] == s;
      assert cs[i] == e.channel;
    }
  }

  /** The pivot: a row per month and a column per channel seen, each cell
      the summed views of that month on that channel. */
  function PivotOf(es: seq<Entry>): (p: Pivot)
    ensures forall i, j {:trigger Lt(Codes(p.months[i]), Codes(p.months[j]))} | 0 <= i < j < |p.months| :: Lt(Codes(p.months[i]), Codes(p.months[j]))
    ensures (set m | m in p.months) == (set e | e in es :: MonthKey(e.date))
    ensures forall i, j {:trigger Lt(Codes(p.channels[i]), Codes(p.channels[j]))} | 0 <= i < j < |p.channels| :: Lt(Codes(p.channels[i]), Codes(p.channels[j]))
    ensures (set c | c in p.channels) == (set e | e in es :: e.channel)
    ensures |p.views| == |p.months|
    ensures forall i | 0 <= i < |p.months| ::
      |p.views[i]| == |p.channels| &&
      forall j | 0 <= j < |p.channels| :: p.views[i][j] == CellViews(es, p.months[i], p.channels[j])
  {
    Table(es, Months(es), Channels(es))
  }

  /** The months seen, in ascending order: the key column of the monthly
      summary. */
  function Months(es: seq<Entry>): (ms: seq<string>)
    ensures ms == Keys(Monthly(es))
    ensures forall i, j {:trigger Lt(Codes(ms[i]), Codes(ms[j]))} | 0 <= i < j < |ms| :: Lt(Codes(ms[i]), Codes(ms[j]))
    ensures (set m | m in ms) == (set e | e in es :: MonthKey(e.date))
  {
    var r := Monthly(es);
    Keys(r)
  }

  /** The table of `es` over the given months and channels. */
  function Table(es: seq<Entry>, months: seq<string>, cs: seq<string>): (p: Pivot)
    ensures p.months == months && p.channels == cs && |p.views| == |months|
    ensures forall i | 0 <= i < |months| :: p.views[i] == Row(es, months[i], cs)
    ensures forall i | 0 <= i < |months| ::
      |p.views[i]| == |cs| &&
      forall j | 0 <= j < |cs| :: p.views[i][j] == CellViews(es, months[i], cs[j])
  {
    Pivot(months, cs, seq(|months|, i requires 0 <= i < |months| => Row(es, months[i], cs)))
  }

  /** `fill_value=0`: a month and channel with no row in common hold 0. */
  lemma {:induction false} AbsentCellIsZero(es: seq<Entry>, m: string, c: string)
    requires forall e | e in es :: MonthKey(e.date) != m || e.channel != c
    ensures CellViews(es, m, c) == 0
  {
    if |es| > 0 {
      assert es[|es| - 1] in es;
      assert forall e | e in es[..|es| - 1] :: e in es;
      AbsentCellIsZero(es[..|es| - 1], m, c);
    }
  }

  function Total(xs: seq<int>): int {
    if |xs| == 0 then 0 else Total(xs[..|xs| - 1]) + xs[|xs| - 1]
  }

  /** Each pivot row adds up to the views of its month in the monthly
      summary: every row of that month lands in exactly one column. */
  lemma PivotRowAddsUp(es: seq<Entry>, i: nat)
    requires i < |PivotOf(es).months|
    ensures |Monthly(es)| == |PivotOf(es).months|
    ensures Total(PivotOf(es).views[i]) == Monthly(es)[i].counts.views
  {
    var r := Monthly(es);
    var cs := Channels(es);
    var m := r[i].key;
    assert PivotOf(es) == Table(es, Keys(r), cs);
    AscendingDistinct(cs);
    RowAddsUp(es, m, cs);
    MonthViewsOfMembers(es, m);
    assert r[i] in r;
  }

  lemma AscendingDistinct(cs: seq<string>)
    requires forall i, j {:trigger Lt(Codes(cs[i]), Codes(cs[j]))} | 0 <= i < j < |cs| :: Lt(Codes(cs[i]), Codes(cs[j]))
    ensures forall i, j | 0 <= i < j < |cs| :: cs[i] != cs[j]
  {
    forall i, j | 0 <= i < j < |cs| ensures cs[i] != cs[j] {
      LtIrreflexive(Codes(cs[i]));
    }
  }

  /** A row over distinct columns that hold every channel adds up to the
      month's views. */
  lemma {:induction false} RowAddsUp(es: seq<Entry>, m: string, cs: seq<string>)
    requires forall i, j | 0 <= i < j < |cs| :: cs[i] != cs[j]
    requires forall e | e in es :: e.channel in cs
    ensures Total(Row(es, m, cs)) == MonthViews(es, m)
  {
    if |es| == 0 {
      EmptyRow(m, cs);
    } else {
      var init, x := es[..|es| - 1], es[|es| - 1];
      assert es == init + [x];
      InitCovered(es, cs);
      RowAddsUp(init, m, cs);
      RowStep(init, x, m, cs);
    }
  }

  lemma InitCovered(es: seq<Entry>, cs: seq<string>)
    requires |es| > 0
    requires forall e | e in es :: e.channel in cs
    ensures es[|es| - 1].channel in cs
    ensures forall e | e in es[..|es| - 1] :: e.channel in cs
  {
    assert es[|es| - 1] in es;
    assert forall e | e in es[..|es| - 1] :: e in es;
  }

  lemma {:induction false} EmptyRow(m: string, cs: seq<string>)
    ensures Total(Row([], m, cs)) == 0
  {
    if |cs| > 0 {
      EmptyRow(m, cs[..|cs| - 1]);
      TotalSnoc(Row([], m, cs[..|cs| - 1]), CellViews([], m, cs[|cs| - 1]));
    }
  }

  lemma TotalSnoc(xs: seq<int>, v: int)
    ensures Total(xs + [v]) == Total(xs) + v
  {
    assert (xs + [v])[..|xs|] == xs;
  }

  lemma CellSnoc(es: seq<Entry>, x: Entry, m: string, c: string)
    ensures CellViews(es + [x], m, c) ==
      CellViews(es, m, c) + (if MonthKey(x.date) == m && x.channel == c then x.counts.views else 0)
  {
    assert (es + [x])[..|es|] == es;
  }

  /** One more entry adds its views to the row once, in its own column. */
  lemma {:induction false} RowStep(es: seq<Entry>, x: Entry, m: string, cs: seq<string>)
    requires forall i, j | 0 <= i < j < |cs| :: cs[i] != cs[j]
    ensures Total(Row(es + [x], m, cs)) ==
      Total(Row(es, m, cs)) + (if MonthKey(x.date) == m && x.channel in cs then x.counts.views else 0)
  {
    if |cs| > 0 {
      var init, c := cs[..|cs| - 1], cs[|cs| - 1];
      assert cs == init + [c];
      RowStep(es, x, m, init);
      TotalSnoc(Row(es + [x], m, init), CellViews(es + [x], m, c));
      TotalSnoc(Row(es, m, init), CellViews(es, m, c));
      CellSnoc(es, x, m, c);
      assert c !in init by {
        forall k | 0 <= k < |init| ensures init[k] != c {
          assert cs[k] != cs[|cs| - 1];
        }
      }
    }
  }

  /** The month's views are the views of its members in the summary. */
  lemma {:induction false} MonthViewsOfMembers(es: seq<Entry>, m: string)
    ensures MonthViews(es, m) == Groups.SumOf(Groups.Members(es, ByMonth(), m), ByMonth()).views
  {
    if |es| > 0 {
      var init, x := es[..|es| - 1], es[|es| - 1];
      assert es == init + [x];
      MonthViewsOfMembers(init, m);
      Groups.MembersSnoc(init, x, ByMonth(), m);
      assert ByMonth().key(x) == MonthKey(x.date);
      var before := Groups.Members(init, ByMonth(), m);
      if MonthKey(x.date) == m {
        Groups.SumSnoc(before, x, ByMonth());
        assert ByMonth().counts(x) == x.counts;
      } else {
        assert Groups.Members(es, ByMonth(), m) == before + [] == before;
      }
    }
  }
}

=== FILE: ranking.dfy ===
/**
 * Ordering as the reports use it: `sorted(xs, key=...)`, `list.sort(key=...)`
 * and pandas `sort_values`, followed by `[:n]` or `head(n)`.
 *
 * A sort key is a sequence of integers compared lexicographically. Every key
 * in the reports is a tuple of numbers followed by at most one string, and
 * that string is always the last component; writing the string as its code
 * points therefore orders keys exactly as Python orders the tuples.
 * A descending numeric column is the negated number.
 */
module Ranking {

  /** Lexicographic `<` on keys; a proper prefix comes first. */
  predicate Lt(a: seq<int>, b: seq<int>) {
    if |a| == 0 then |b| > 0
    else if |b| == 0 then false
    else a[0] < b[0] || (a[0] == b[0] && Lt(a[1..], b[1..]))
  }

  lemma {:induction false} LtIrreflexive(a: seq<int>)
    ensures !Lt(a, a)
  {
    if |a| > 0 {
      LtIrreflexive(a[1..]);
    }
  }

  lemma {:induction false} LtTransitive(a: seq<int>, b: seq<int>, c: seq<int>)
    requires Lt(a, b) && Lt(b, c)
    ensures Lt(a, c)
  {
    if |a| > 0 && |b| > 0 && |c| > 0 && a[0] == b[0] == c[0] {
      LtTransitive(a[1..], b[1..], c[1..]);
    }
  }

  lemma {:induction false} LtTotal(a: seq<int>, b: seq<int>)
    ensures a == b || Lt(a, b) || Lt(b, a)
  {
    if |a| > 0 && |b| > 0 && a[0] == b[0] {
      LtTotal(a[1..], b[1..]);
      if a[1..] == b[1..] {
        assert a == [a[0]] + a[1..] && b == [b[0]] + b[1..];
      }
    }
  }

  lemma LtAsymmetric(a: seq<int>, b: seq<int>)
    requires Lt(a, b)
    ensures !Lt(b, a)
  {
    if Lt(b, a) {
      LtTransitive(a, b, a);
      LtIrreflexive(a);
    }
  }

  /** A key led by a number compares on that number first. */
  lemma LtCons(x: int, a: seq<int>, y: int, b: seq<int>)
    ensures Lt([x] + a, [y] + b) <==> x < y || (x == y && Lt(a, b))
  {
    assert ([x] + a)[1..] == a && ([y] + b)[1..] == b;
  }

  /** The code points of a string: Python compares strings by these. */
  function Codes(s: string): (r: seq<int>)
    ensures |r| == |s|
    ensures forall k | 0 <= k < |s| :: r[k] == s[k] as int
  {
    seq(|s|, k requires 0 <= k < |s| => s[k] as int)
  }

  lemma CodesInjective(a: string, b: string)
    requires Codes(a) == Codes(b)
    ensures a == b
  {
    assert |a| == |Codes(a)|;
    forall k | 0 <= k < |a|
      ensures a[k] == b[k]
    {
      assert Codes(a)[k] == Codes(b)[k];
    }
  }

  /** `s` is in ascending key order: no element's key is below an earlier one. */
  ghost predicate SortedBy<T>(s: seq<T>, key: T -> seq<int>) {
    forall i, j | 0 <= i < j < |s| :: !Lt(key(s[j]), key(s[i]))
  }

  /** Places `x` after every element whose key is not above its own: the
      step of a stable insertion sort. */
  function Insert<T>(x: T, s: seq<T>, key: T -> seq<int>): (r: seq<T>)
    requires SortedBy(s, key)
    ensures multiset(r) == multiset(s) + multiset{x}
    ensures |r| == |s| + 1
    ensures SortedBy(r, key)
  {
    if |s| == 0 then [x]
    else if Lt(key(x), key(s[0])) then
      InsertFrontSorted(x, s, key);
      [x] + s
    else
      var rest := Insert(x, s[1..], key);
      assert multiset(s) == multiset{s[0]} + multiset(s[1..]) by {
        assert s == [s[0]] + s[1..];
      }
      InsertBehindSorted(x, s, rest, key);
      [s[0]] + rest
  }

  lemma InsertFrontSorted<T>(x: T, s: seq<T>, key: T -> seq<int>)
    requires |s| > 0 && SortedBy(s, key) && Lt(key(x), key(s[0]))
    ensures SortedBy([x] + s, key)
  {
    var r := [x] + s;
    forall i, j | 0 <= i < j < |r|
      ensures !Lt(key(r[j]), key(r[i]))
    {
      if i == 0 {
        if j == 1 {
          LtAsymmetric(key(x), key(s[0]));
        } else if Lt(key(r[j]), key(x)) {
          LtTransitive(key(r[j]), key(x), key(s[0]));
        }
      }
    }
  }

  lemma InsertBehindSorted<T>(x: T, s: seq<T>, rest: seq<T>, key: T -> seq<int>)
    requires |s| > 0 && SortedBy(s, key) && !Lt(key(x), key(s[0]))
    requires SortedBy(rest, key)
    requires multiset(rest) == multiset(s[1..]) + multiset{x}
    ensures SortedBy([s[0]] + rest, key)
  {
    var r := [s[0]] + rest;
    forall i, j | 0 <= i < j < |r|
      ensures !Lt(key(r[j]), key(r[i]))
    {
      if i == 0 {
        assert r[j] in multiset(rest);
        var y := r[j];
        if y != x {
          assert y in multiset(s[1..]);
          var k :| 0 <= k < |s[1..]| && s[1..][k] == y;
          assert s[k + 1] == y;
        }
      }
    }
  }

  /** The elements of `s` whose key is `k`, in the order of `s`: a stable
      sort must leave each such run as it found it. */
  function Ties<T>(s: seq<T>, key: T -> seq<int>, k: seq<int>): (r: seq<T>)
    ensures |r| <= |s|
  {
    if |s| == 0 then []
    else (if key(s[0]) == k then [s[0]] else []) + Ties(s[1..], key, k)
  }

  /** The run of `k` holds exactly the elements of `s` with key `k`. */
  lemma {:induction false} TiesMembers<T>(s: seq<T>, key: T -> seq<int>, k: seq<int>, x: T)
    ensures x in Ties(s, key, k) <==> x in s && key(x) == k
    decreases |s|
  {
    if |s| > 0 {
      TiesMembers(s[1..], key, k, x);
      assert s == [s[0]] + s[1..];
    }
  }

  lemma {:induction false} TiesConcat<T>(a: seq<T>, b: seq<T>, key: T -> seq<int>, k: seq<int>)
    ensures Ties(a + b, key, k) == Ties(a, key, k) + Ties(b, key, k)
    decreases |a|
  {
    if |a| == 0 {
      assert a + b == b;
    } else {
      var h := if key(a[0]) == k then [a[0]] else [];
      assert (a + b)[0] == a[0] && (a + b)[1..] == a[1..] + b;
      assert Ties(a + b, key, k) == h + Ties(a[1..] + b, key, k);
      TiesConcat(a[1..], b, key, k);
      assert h + (Ties(a[1..], key, k) + Ties(b, key, k)) == (h + Ties(a[1..], key, k)) + Ties(b, key, k);
    }
  }

  /** Appending one element extends exactly the run of its own key. */
  lemma TiesSnoc<T>(s: seq<T>, x: T, key: T -> seq<int>)
    ensures forall k :: Ties(s + [x], key, k) == Ties(s, key, k) + (if key(x) == k then [x] else [])
  {
    forall k
      ensures Ties(s + [x], key, k) == Ties(s, key, k) + (if key(x) == k then [x] else [])
    {
      TiesConcat(s, [x], key, k);
    }
  }

  /** Nothing in a sorted sequence has a key below that of its head. */
  lemma TiesBelowHead<T>(s: seq<T>, key: T -> seq<int>, k: seq<int>)
    requires SortedBy(s, key) && |s| > 0 && Lt(k, key(s[0]))
    ensures Ties(s, key, k) == []
  {
    forall i | 0 <= i < |s|
      ensures key(s[i]) != k
    {
      if i > 0 {
        assert !Lt(key(s[i]), key(s[0]));
      } else {
        LtIrreflexive(k);
      }
    }
    var t := Ties(s, key, k);
    if |t| > 0 {
      TiesMembers(s, key, k, t[0]);
      assert false;
    }
  }

  /** The run of `k` in a sequence with one element in front. */
  lemma TiesCons<T>(a: T, t: seq<T>, key: T -> seq<int>, k: seq<int>)
    ensures Ties([a] + t, key, k) == (if key(a) == k then [a] else []) + Ties(t, key, k)
  {
    assert ([a] + t)[0] == a && ([a] + t)[1..] == t;
  }

  lemma {:induction false} InsertTies<T>(x: T, s: seq<T>, key: T -> seq<int>, k: seq<int>)
    requires SortedBy(s, key)
    ensures Ties(Insert(x, s, key), key, k) == Ties(s, key, k) + (if key(x) == k then [x] else [])
    decreases |s|
  {
    if |s| == 0 {
      assert Insert(x, s, key) == [x];
      TiesCons(x, [], key, k);
    } else if Lt(key(x), key(s[0])) {
      InsertTiesFront(x, s, key, k);
    } else {
      TailSorted(s, key);
      InsertTies(x, s[1..], key, k);
      InsertTiesBehind(x, s, key, k);
    }
  }

  lemma InsertTiesFront<T>(x: T, s: seq<T>, key: T -> seq<int>, k: seq<int>)
    requires SortedBy(s, key) && |s| > 0 && Lt(key(x), key(s[0]))
    ensures Ties(Insert(x, s, key), key, k) == Ties(s, key, k) + (if key(x) == k then [x] else [])
  {
    assert Insert(x, s, key) == [x] + s;
    TiesCons(x, s, key, k);
    if key(x) == k {
      TiesBelowHead(s, key, k);
    }
  }

  lemma InsertTiesBehind<T>(x: T, s: seq<T>, key: T -> seq<int>, k: seq<int>)
    requires SortedBy(s, key) && |s| > 0 && !Lt(key(x), key(s[0])) && SortedBy(s[1..], key)
    requires Ties(Insert(x, s[1..], key), key, k) == Ties(s[1..], key, k) + (if key(x) == k then [x] else [])
    ensures Ties(Insert(x, s, key), key, k) == Ties(s, key, k) + (if key(x) == k then [x] else [])
  {
    InsertBehind(x, s, key);
    TiesConsStep(s[0], Insert(x, s[1..], key), s[1..], key, k, if key(x) == k then [x] else []);
    assert [s[0]] + s[1..] == s;
  }

  /** Putting the same element in front of two sequences keeps a relation
      between their runs. */
  lemma TiesConsStep<T>(a: T, t: seq<T>, u: seq<T>, key: T -> seq<int>, k: seq<int>, e: seq<T>)
    requires Ties(t, key, k) == Ties(u, key, k) + e
    ensures Ties([a] + t, key, k) == Ties([a] + u, key, k) + e
  {
    TiesCons(a, t, key, k);
    TiesCons(a, u, key, k);
  }

  lemma InsertBehind<T>(x: T, s: seq<T>, key: T -> seq<int>)
    requires SortedBy(s, key) && |s| > 0 && !Lt(key(x), key(s[0])) && SortedBy(s[1..], key)
    ensures Insert(x, s, key) == [s[0]] + Insert(x, s[1..], key)
  {
  }

  lemma TailSorted<T>(s: seq<T>, key: T -> seq<int>)
    requires |s| > 0 && SortedBy(s, key)
    ensures SortedBy(s[1..], key)
  {
    assert forall i | 0 <= i < |s| - 1 :: s[1..][i] == s[i + 1];
  }

  /** Inserting keeps every run of equal keys in order and puts `x` last in
      its own. */
  lemma InsertStable<T>(x: T, s: seq<T>, key: T -> seq<int>)
    requires SortedBy(s, key)
    ensures forall k :: Ties(Insert(x, s, key), key, k) == Ties(s, key, k) + (if key(x) == k then [x] else [])
  {
    forall k
      ensures Ties(Insert(x, s, key), key, k) == Ties(s, key, k) + (if key(x) == k then [x] else [])
    {
      InsertTies(x, s, key, k);
    }
  }

  /** `sorted(s, key=key)`: a permutation of `s` in ascending key order in
      which elements with equal keys keep their order from `s`, as Python's
      stable sort keeps them. */
  function SortBy<T>(s: seq<T>, key: T -> seq<int>): (r: seq<T>)
    ensures multiset(r) == multiset(s)
    ensures |r| == |s|
    ensures SortedBy(r, key)
    ensures forall k :: Ties(r, key, k) == Ties(s, key, k)
  {
    if |s| == 0 then []
    else
      var init := s[..|s| - 1];
      var t := SortBy(init, key);
      assert s == init + [s[|s| - 1]];
      InsertStable(s[|s| - 1], t, key);
      TiesSnoc(init, s[|s| - 1], key);
      Insert(s[|s| - 1], t, key)
  }

  /** The head of a non-empty sequence is in the run of its own key. */
  lemma HeadTie<T>(s: seq<T>, key: T -> seq<int>)
    requires |s| > 0
    ensures Ties(s, key, key(s[0])) == [s[0]] + Ties(s[1..], key, key(s[0]))
  {
  }

  /** A stable sort has one possible result: two sorted sequences whose runs
      of equal keys agree are equal. */
  lemma {:induction false} StableSortUnique<T>(a: seq<T>, b: seq<T>, key: T -> seq<int>)
    requires SortedBy(a, key) && SortedBy(b, key)
    requires forall k :: Ties(a, key, k) == Ties(b, key, k)
    ensures a == b
    decreases |a|
  {
    assert |a| > 0 ==> |b| > 0 by {
      if |a| > 0 {
        HeadTie(a, key);
        assert |Ties(b, key, key(a[0]))| > 0;
      }
    }
    assert |b| > 0 ==> |a| > 0 by {
      if |b| > 0 {
        HeadTie(b, key);
        assert |Ties(a, key, key(b[0]))| > 0;
      }
    }
    if |a| > 0 {
      var k0 := key(a[0]);
      HeadTie(a, key);
      TiesMembers(a, key, k0, a[0]);
      TiesMembers(b, key, k0, a[0]);
      TiesMembers(b, key, key(b[0]), b[0]);
      TiesMembers(a, key, key(b[0]), b[0]);
      var i :| 0 <= i < |b| && b[i] == a[0];
      var j :| 0 <= j < |a| && a[j] == b[0];
      assert !Lt(key(a[0]), key(b[0])) by {
        if i > 0 { assert !Lt(key(b[i]), key(b[0])); } else { LtIrreflexive(k0); }
      }
      assert !Lt(key(b[0]), key(a[0])) by {
        if j > 0 { assert !Lt(key(a[j]), key(a[0])); } else { LtIrreflexive(k0); }
      }
      LtTotal(key(a[0]), key(b[0]));
      HeadTie(b, key);
      assert a[0] == b[0] by {
        assert Ties(a, key, k0)[0] == Ties(b, key, k0)[0];
      }
      forall k
        ensures Ties(a[1..], key, k) == Ties(b[1..], key, k)
      {
        var h := if key(a[0]) == k then [a[0]] else [];
        assert Ties(a, key, k) == h + Ties(a[1..], key, k);
        assert Ties(b, key, k) == h + Ties(b[1..], key, k);
        assert (h + Ties(a[1..], key, k))[|h|..] == Ties(a[1..], key, k);
        assert (h + Ties(b[1..], key, k))[|h|..] == Ties(b[1..], key, k);
      }
      TailSorted(a, key);
      TailSorted(b, key);
      StableSortUnique(a[1..], b[1..], key);
      assert a == [a[0]] + a[1..] && b == [b[0]] + b[1..];
    }
  }

  /** `SortBy` is the stable sort: any sorted arrangement of `s` that keeps
      each run of equal keys in the order of `s` is `SortBy(s, key)`. */
  lemma IsStableSort<T>(s: seq<T>, r: seq<T>, key: T -> seq<int>)
    requires SortedBy(r, key)
    requires forall k :: Ties(r, key, k) == Ties(s, key, k)
    ensures r == SortBy(s, key)
  {
    StableSortUnique(r, SortBy(s, key), key);
  }

  /** A prefix of a sequence holds no element more often than the sequence. */
  lemma PrefixMultiset<T>(s: seq<T>, m: nat)
    requires m <= |s|
    ensures multiset(s[..m]) <= multiset(s)
  {
    assert s == s[..m] + s[m..];
  }

  /** Two orderings of the same elements that are both sorted agree, as soon
      as no two distinct elements share a key: the tie-breaks then fix the
      order completely. */
  lemma {:induction false} SortedUnique<T>(a: seq<T>, b: seq<T>, key: T -> seq<int>)
    requires SortedBy(a, key) && SortedBy(b, key)
    requires multiset(a) == multiset(b)
    requires forall x, y | x in a && y in a && key(x) == key(y) :: x == y
    ensures a == b
    decreases |a|
  {
    assert |a| == |multiset(a)| == |b|;
    if |a| > 0 {
      SortedHeadsAgree(a, b, key);
      assert a[0] == b[0];
      DropHead(a, b);
      assert forall x | x in a[1..] :: x in a;
      SortedUnique(a[1..], b[1..], key);
      assert a == [a[0]] + a[1..] && b == [b[0]] + b[1..];
    }
  }

  lemma SortedHeadsAgree<T>(a: seq<T>, b: seq<T>, key: T -> seq<int>)
    requires SortedBy(a, key) && SortedBy(b, key)
    requires multiset(a) == multiset(b) && |a| > 0
    requires forall x, y | x in a && y in a && key(x) == key(y) :: x == y
    ensures |b| > 0 && a[0] == b[0]
  {
    assert a[0] in multiset(b) && b[0] in multiset(a);
    var i :| 0 <= i < |b| && b[i] == a[0];
    var j :| 0 <= j < |a| && a[j] == b[0];
    assert !Lt(key(a[0]), key(b[0])) by {
      if i > 0 { assert !Lt(key(b[i]), key(b[0])); }
      else { LtIrreflexive(key(a[0])); }
    }
    assert !Lt(key(b[0]), key(a[0])) by {
      if j > 0 { assert !Lt(key(a[j]), key(a[0])); }
      else { LtIrreflexive(key(b[0])); }
    }
    LtTotal(key(a[0]), key(b[0]));
    assert b[0] in a && a[0] in a;
  }

  lemma DropHead<T>(a: seq<T>, b: seq<T>)
    requires |a| > 0 && |b| > 0 && a[0] == b[0] && multiset(a) == multiset(b)
    ensures multiset(a[1..]) == multiset(b[1..])
  {
    assert a == [a[0]] + a[1..] && b == [b[0]] + b[1..];
    assert multiset(a[1..]) == multiset(a) - multiset{a[0]};
    assert multiset(b[1..]) == multiset(b) - multiset{b[0]};
  }

  /** Python's slice `s[:n]`: the first `n` elements, and for a negative `n`
      all but the last `-n`. */
  function Take<T>(s: seq<T>, n: int): (r: seq<T>)
    ensures n >= 0 ==> |r| == if n < |s| then n else |s|
    ensures n < 0 ==> |r| == if |s| + n > 0 then |s| + n else 0
    ensures r == s[..|r|]
    ensures forall x | x in r :: x in s
  {
    if n >= 0 then (if n < |s| then s[..n] else s)
    else (if |s| + n > 0 then s[..|s| + n] else [])
  }

  /** A prefix of a sorted sequence is sorted. */
  lemma SortedPrefix<T>(s: seq<T>, key: T -> seq<int>, m: nat)
    requires SortedBy(s, key) && m <= |s|
    ensures SortedBy(s[..m], key)
  {
    assert forall k | 0 <= k < m :: s[..m][k] == s[k];
  }

  /** In a sorted sequence, nothing outside a prefix ranks above anything
      inside it. */
  lemma PrefixIsBest<T>(s: seq<T>, key: T -> seq<int>, m: nat, x: T, y: T)
    requires SortedBy(s, key) && m <= |s|
    requires x in s && x !in s[..m] && y in s[..m]
    ensures !Lt(key(x), key(y))
  {
    var i :| 0 <= i < |s| && s[i] == x;
    var j :| 0 <= j < m && s[..m][j] == y;
    assert forall k | 0 <= k < m :: s[..m][k] == s[k];
    assert j < m <= i;
  }
}

=== FILE: records.dfy ===
/**
 * The row layer of content_report.py: `normalize_row` turns one CSV record
 * into a clean row or rejects it, the folder reader keeps the clean rows in
 * file order, and `filter_rows` keeps the rows inside an inclusive date range
 * and, optionally, one channel.
 */
module Records {
  import opened Wrappers
  import opened Text
  import opened Dates
  import opened Metrics
  import Numbers

  /** A CSV record as it stands in the file: each field's text, and None for
      an absent column. `csv.DictReader` gives the text as it is, an empty
      field as ""; pandas reads the same fields through `Text.ReadCsv`. */
  datatype RawRow = RawRow(
    title: Option<string>, date: Option<string>, channel: Option<string>,
    views: Option<string>, clicks: Option<string>, impressions: Option<string>,
    url: Option<string>)

  /** A clean row. */
  datatype Row = Row(title: string, date: Date, channel: string, counts: Counters, url: string)

  /** `(r.get(k) or "").strip()`. */
  function Cell(s: Option<string>): string {
    Strip(s.GetOr(""))
  }

  /** `(r.get("channel") or "").strip().title()`. */
  function NormalizeChannel(s: Option<string>): string {
    Title(Cell(s))
  }

  /** What every clean row looks like: a non-empty title without surrounding
      whitespace, a channel in title case without surrounding whitespace, and
      a stripped url. */
  predicate Normalized(w: Row) {
    && w.title != "" && Trimmed(w.title)
    && Trimmed(w.channel) && Title(w.channel) == w.channel
    && Trimmed(w.url)
  }

  /** `normalize_row`: None exactly when the stripped title is empty or the
      date is in none of the three formats. */
  function NormalizeRow(r: RawRow): (n: Option<Row>)
    ensures n.None? <==> Cell(r.title) == "" || ParseDate(r.date).None?
    ensures n.Some? ==> Normalized(n.value)
    ensures n.Some? ==> Some(n.value.date) == ParseDate(r.date)
    ensures n.Some? ==> n.value.title == Cell(r.title) && n.value.url == Cell(r.url)
    ensures n.Some? ==> n.value.channel == NormalizeChannel(r.channel)
    ensures n.Some? ==>
      n.value.counts == Counters(Numbers.ToInt(r.views), Numbers.ToInt(r.clicks), Numbers.ToInt(r.impressions))
  {
    var title := Cell(r.title);
    match ParseDate(r.date)
    case None => None
    case Some(d) =>
      if title == "" then None
      else
        var w := Row(title, d, NormalizeChannel(r.channel),
          Counters(Numbers.ToInt(r.views), Numbers.ToInt(r.clicks), Numbers.ToInt(r.impressions)),
          Cell(r.url));
        CleanFields(r);
        Some(w)
  }

  lemma CleanFields(r: RawRow)
    ensures Trimmed(Cell(r.title)) && Trimmed(Cell(r.url))
    ensures Trimmed(NormalizeChannel(r.channel))
    ensures Title(NormalizeChannel(r.channel)) == NormalizeChannel(r.channel)
  {
    var c := Cell(r.channel);
    assert NormalizeChannel(r.channel) == Title(c);
    CleanChannel(c);
  }

  lemma CleanChannel(t: string)
    requires Trimmed(t)
    ensures Trimmed(Title(t)) && Title(Title(t)) == Title(t)
  {
    TitleOfTrimmed(t);
    TitleIdempotent(t);
  }

  /** Counters that survive `int(float(...))` unchanged. */
  predicate ExactCounters(c: Counters) {
    Numbers.FloatExact(c.views) && Numbers.FloatExact(c.clicks) && Numbers.FloatExact(c.impressions)
  }

  /** A clean row written back out as CSV text: dates in ISO form, counters
      as Python prints integers. */
  function Render(w: Row): RawRow {
    RawRow(Some(w.title), Some(IsoText(w.date)), Some(w.channel),
      Some(Numbers.IntText(w.counts.views)), Some(Numbers.IntText(w.counts.clicks)),
      Some(Numbers.IntText(w.counts.impressions)), Some(w.url))
  }

  /** Normalising is a left inverse of writing a clean row out: nothing of a
      clean row is lost or altered by a round trip through its text. */
  lemma NormalizeRender(w: Row)
    requires Normalized(w) && ExactCounters(w.counts)
    ensures NormalizeRow(Render(w)) == Some(w)
  {
    var r := Render(w);
    assert Cell(r.title) == w.title by { StripOfTrimmed(w.title); }
    assert NormalizeChannel(r.channel) == w.channel by { StripOfTrimmed(w.channel); }
    assert Cell(r.url) == w.url by { StripOfTrimmed(w.url); }
    assert ParseDate(r.date) == Some(w.date) by { ParseDateOfIso(w.date); }
    assert Counters(Numbers.ToInt(r.views), Numbers.ToInt(r.clicks), Numbers.ToInt(r.impressions)) == w.counts by {
      Numbers.ToIntOfIntText(w.counts.views);
      Numbers.ToIntOfIntText(w.counts.clicks);
      Numbers.ToIntOfIntText(w.counts.impressions);
    }
    NormalizeRowOf(r, w.date);
  }

  /** The clean row built from a record whose title is present and whose date
      reads as `d`. */
  lemma NormalizeRowOf(r: RawRow, d: Date)
    requires Cell(r.title) != "" && ParseDate(r.date) == Some(d)
    ensures NormalizeRow(r) == Some(Row(Cell(r.title), d, NormalizeChannel(r.channel),
      Counters(Numbers.ToInt(r.views), Numbers.ToInt(r.clicks), Numbers.ToInt(r.impressions)),
      Cell(r.url)))
  {
  }

  /** Normalising a clean row's text twice changes nothing more. */
  lemma NormalizeIdempotent(r: RawRow)
    requires NormalizeRow(r).Some? && ExactCounters(NormalizeRow(r).value.counts)
    ensures NormalizeRow(Render(NormalizeRow(r).value)) == NormalizeRow(r)
  {
    NormalizeRender(NormalizeRow(r).value);
  }

  /** A record without a title is dropped whatever else it holds. */
  lemma MissingTitleDropped(r: RawRow)
    requires r.title.None? || r.title == Some("")
    ensures NormalizeRow(r).None?
  {
  }

  /** The values present in `xs`, in order. */
  function Present<T>(xs: seq<Option<T>>): (r: seq<T>)
    ensures |r| <= |xs|
    ensures forall x | x in r :: Some(x) in xs
    ensures forall o | o in xs && o.Some? :: o.value in r
  {
    if |xs| == 0 then []
    else
      var init := xs[..|xs| - 1];
      var last := xs[|xs| - 1];
      assert xs == init + [last];
      Present(init) + (if last.Some? then [last.value] else [])
  }

  lemma {:induction false} PresentConcat<T>(a: seq<Option<T>>, b: seq<Option<T>>)
    ensures Present(a + b) == Present(a) + Present(b)
  {
    if |b| > 0 {
      var b' := b[..|b| - 1];
      assert (a + b)[..|a + b| - 1] == a + b';
      PresentConcat(a, b');
    } else {
      assert a + b == a;
    }
  }

  /** `f` applied to each element. */
  function Apply<A, B>(xs: seq<A>, f: A -> B): (ys: seq<B>)
    ensures |ys| == |xs|
    ensures forall i | 0 <= i < |xs| :: ys[i] == f(xs[i])
  {
    seq(|xs|, i requires 0 <= i < |xs| => f(xs[i]))
  }

  lemma ApplyConcat<A, B>(a: seq<A>, b: seq<A>, f: A -> B)
    ensures Apply(a + b, f) == Apply(a, f) + Apply(b, f)
  {
    assert forall i | 0 <= i < |a| :: (a + b)[i] == a[i];
    assert forall i | |a| <= i < |a + b| :: (a + b)[i] == b[i - |a|];
  }

  /** The reader's loop: the clean rows, in input order. */
  function CleanRows(raws: seq<RawRow>): (rows: seq<Row>)
    ensures |rows| <= |raws|
    ensures forall w | w in rows :: Normalized(w)
    ensures forall w | w in rows :: exists r | r in raws :: NormalizeRow(r) == Some(w)
    ensures forall r | r in raws && NormalizeRow(r).Some? :: NormalizeRow(r).value in rows
  {
    var ns := Apply(raws, NormalizeRow);
    var rows := Present(ns);
    forall w | w in rows ensures Normalized(w) && exists r | r in raws :: NormalizeRow(r) == Some(w) {
      var i :| 0 <= i < |ns| && ns[i] == Some(w);
      assert raws[i] in raws;
    }
    forall r | r in raws && NormalizeRow(r).Some? ensures NormalizeRow(r).value in rows {
      var i :| 0 <= i < |raws| && raws[i] == r;
      assert ns[i] in ns;
    }
    rows
  }

  /** Reading files one after another is reading their concatenation. */
  lemma CleanRowsConcat(a: seq<RawRow>, b: seq<RawRow>)
    ensures CleanRows(a + b) == CleanRows(a) + CleanRows(b)
  {
    ApplyConcat(a, b, NormalizeRow);
    PresentConcat(Apply(a, NormalizeRow), Apply(b, NormalizeRow));
  }

  // ----- filter_rows -----

  /** The channel argument as `filter_rows` reads it: title-cased, then
      stripped; an absent, empty or all-blank argument filters nothing. */
  function ChannelFilter(channel: Option<string>): (r: Option<string>)
    ensures r.Some? ==> r.value != "" && Trimmed(r.value)
  {
    match channel
    case None => None
    case Some(c) =>
      if c == "" then None
      else
        var t := Strip(Title(c));
        StripIdempotent(Title(c));
        if t == "" then None else Some(t)
  }

  /** The three tests of `filter_rows`; both date bounds are inclusive. */
  predicate Keep(w: Row, start: Option<Date>, end: Option<Date>, chan: Option<string>) {
    && (start.None? || !Before(w.date, start.value))
    && (end.None? || !Before(end.value, w.date))
    && (chan.None? || w.channel == chan.value)
  }

  /** `filter_rows`: exactly the rows that pass all three tests, in order. */
  function FilterRows(rows: seq<Row>, start: Option<Date>, end: Option<Date>, channel: Option<string>): (r: seq<Row>)
    ensures |r| <= |rows|
    ensures forall w | w in r :: w in rows && Keep(w, start, end, ChannelFilter(channel))
    ensures forall w | w in rows && Keep(w, start, end, ChannelFilter(channel)) :: w in r
  {
    Select(rows, start, end, ChannelFilter(channel))
  }

  /** The loop of `filter_rows`, once the channel argument is normalised. */
  function Select(rows: seq<Row>, start: Option<Date>, end: Option<Date>, chan: Option<string>): (r: seq<Row>)
    ensures |r| <= |rows|
    ensures forall w | w in r :: w in rows && Keep(w, start, end, chan)
    ensures forall w | w in rows && Keep(w, start, end, chan) :: w in r
  {
    if |rows| == 0 then []
    else
      var init := rows[..|rows| - 1];
      var last := rows[|rows| - 1];
      assert rows == init + [last];
      Select(init, start, end, chan) + Kept(last, start, end, chan)
  }

  function Kept(w: Row, start: Option<Date>, end: Option<Date>, chan: Option<string>): seq<Row> {
    if Keep(w, start, end, chan) then [w] else []
  }

  /** Filtering commutes with concatenation: each row is judged on its own. */
  lemma FilterConcat(a: seq<Row>, b: seq<Row>, start: Option<Date>, end: Option<Date>, channel: Option<string>)
    ensures FilterRows(a + b, start, end, channel) == FilterRows(a, start, end, channel) + FilterRows(b, start, end, channel)
  {
    SelectConcat(a, b, start, end, ChannelFilter(channel));
  }

  lemma {:induction false} SelectConcat(a: seq<Row>, b: seq<Row>, start: Option<Date>, end: Option<Date>, chan: Option<string>)
    ensures Select(a + b, start, end, chan) == Select(a, start, end, chan) + Select(b, start, end, chan)
  {
    if |b| > 0 {
      var b', last := b[..|b| - 1], b[|b| - 1];
      assert (a + b)[..|a + b| - 1] == a + b';
      assert (a + b)[|a + b| - 1] == last;
      SelectConcat(a, b', start, end, chan);
    } else {
      assert a + b == a;
    }
  }

  /** A second pass with the same arguments removes nothing more. */
  lemma FilterIdempotent(rows: seq<Row>, start: Option<Date>, end: Option<Date>, channel: Option<string>)
    ensures FilterRows(FilterRows(rows, start, end, channel), start, end, channel) == FilterRows(rows, start, end, channel)
  {
    SelectIdempotent(rows, start, end, ChannelFilter(channel));
  }

  lemma {:induction false} SelectIdempotent(rows: seq<Row>, start: Option<Date>, end: Option<Date>, chan: Option<string>)
    ensures Select(Select(rows, start, end, chan), start, end, chan) == Select(rows, start, end, chan)
  {
    if |rows| > 0 {
      var init := rows[..|rows| - 1];
      var tail := Kept(rows[|rows| - 1], start, end, chan);
      SelectIdempotent(init, start, end, chan);
      SelectConcat(Select(init, start, end, chan), tail, start, end, chan);
      assert Select(tail, start, end, chan) == tail by {
        if |tail| == 1 { assert tail[..0] == []; }
      }
    }
  }

  /** A channel argument with any non-blank text selects the rows whose own
      channel cell normalised to the same text. */
  lemma ChannelFilterMatchesRows(c: string)
    requires Strip(c) != ""
    ensures ChannelFilter(Some(c)) == Some(NormalizeChannel(Some(c)))
  {
    TitleStripCommute(c);
  }

  /** A blank channel argument filters nothing. */
  lemma BlankChannelFiltersNothing(c: string)
    requires Strip(c) == ""
    ensures ChannelFilter(Some(c)) == None
  {
    TitleStripCommute(c);
  }

  /** The channel argument is case-insensitive. */
  lemma ChannelFilterIgnoresCase(a: string, b: string)
    requires Lower(a) == Lower(b)
    ensures ChannelFilter(Some(a)) == ChannelFilter(Some(b))
  {
    TitleIgnoresCase(a, b);
  }

  /** The command line's `--start`/`--end`: empty means no bound, and so does
      text that is no date. */
  function DateBound(arg: string): (r: Option<Date>)
    ensures r.Some? ==> arg != "" && ParseDate(Some(arg)) == r
    ensures arg != "" && ParseDate(Some(arg)).Some? ==> r.Some?
  {
    if arg == "" then None else ParseDate(Some(arg))
  }

  /** A mistyped bound ("31/02/2025") silently filters nothing. */
  lemma MistypedBoundIgnored(rows: seq<Row>, end: Option<Date>, channel: Option<string>)
    ensures FilterRows(rows, DateBound("31/02/2025"), end, channel) == FilterRows(rows, None, end, channel)
  {
    ImpossibleDateExample();
  }
}

=== FILE: report.dfy ===
/**
 * The report content_report.py prints from the rolled-up posts: overall
 * totals, a per-channel summary, and the top posts by views or by CTR,
 * together with the pipeline of `main` that feeds them (read, filter, roll
 * up), with the file and console I/O left out.
 */
module Report {
  import opened Wrappers
  import opened Metrics
  import opened Ranking
  import opened Records
  import opened Rollup
  import Dates
  import Groups

  // ----- overall_metrics -----

  datatype Overall = Overall(posts: nat, counts: Counters, ctrPct: int)

  /** `overall_metrics`: the number of posts, the three sums and the rate of
      the sums. */
  function OverallMetrics(posts: seq<Post>): Overall {
    var total := SumPosts(posts);
    Overall(|posts|, total, CtrPct(total))
  }

  /** The totals of the rolled-up posts are the totals of the rows they came
      from, and there is one post per distinct row key. */
  lemma OverallOfRows(rows: seq<Row>)
    ensures OverallMetrics(RollupByUrl(rows)).counts == Groups.SumOf(rows, ByKey())
    ensures OverallMetrics(RollupByUrl(rows)).posts == |Groups.KeysOf(rows, ByKey())|
  {
    RollupKeepsTotals(rows);
    RollupCount(rows);
  }

  /** Two rows of one url and one of another. */
  function ExampleRows(): seq<Row> {
    [Row("A", Dates.Ymd(2025, 1, 1), "Linkedin", Counters(100, 10, 400), "u1"),
     Row("A", Dates.Ymd(2025, 1, 15), "Linkedin", Counters(50, 5, 200), "u1"),
     Row("B", Dates.Ymd(2025, 1, 2), "Medium", Counters(80, 4, 300), "u2")]
  }

  /** The three example rows roll up into two posts whose totals are the
      sums of all three rows, at a rate of 2.11%. */
  lemma TwoPostsExample()
    ensures OverallMetrics(RollupByUrl(ExampleRows())) == Overall(2, Counters(230, 19, 900), 211)
  {
    OverallOfRows(ExampleRows());
    ExampleTotals();
    ExampleKeys();
    CtrExample();
  }

  lemma ExampleTotals()
    ensures Groups.SumOf(ExampleRows(), ByKey()) == Counters(230, 19, 900)
  {
    var rows := ExampleRows();
    Groups.ThreeItems(rows[0], rows[1], rows[2], ByKey());
  }

  lemma ExampleKeys()
    ensures |Groups.KeysOf(ExampleRows(), ByKey())| == 2
  {
    var rows := ExampleRows();
    Groups.ThreeItems(rows[0], rows[1], rows[2], ByKey());
    assert RowKey(rows[0]) == "u1" && RowKey(rows[1]) == "u1" && RowKey(rows[2]) == "u2";
    assert "u1" != "u2" by {
      assert "u1"[1] != "u2"[1];
    }
  }

  // ----- channel_summary -----

  /** Posts grouped by channel; `posts` counts posts, not distinct urls. */
  function ByChannel(): Groups.Facet<Post, string> {
    Groups.Facet((p: Post) => p.channel, (p: Post) => p.url, (p: Post) => p.counts)
  }

  /** `channel_summary`: one row per channel with its post count, sums and
      rate, most viewed channel first and ties by channel name. */
  function ChannelSummary(posts: seq<Post>): (r: seq<Groups.Summary>)
    ensures SortedBy(r, Groups.ViewsThenKey)
    ensures (set s | s in r :: s.key) == (set p | p in posts :: p.channel)
    ensures forall i, j | 0 <= i < j < |r| :: r[i].key != r[j].key
    ensures forall s | s in r ::
      var m := Groups.Members(posts, ByChannel(), s.key);
      s.posts == |m| && s.counts == SumPosts(m) && s.ctrPct == CtrPct(s.counts)
  {
    var r := Groups.RankedSummaries(posts, ByChannel(), false);
    ChannelKeys(posts);
    forall s | s in r ensures Groups.SumOf(Groups.Members(posts, ByChannel(), s.key), ByChannel()) == SumPosts(Groups.Members(posts, ByChannel(), s.key)) {
      ChannelSums(Groups.Members(posts, ByChannel(), s.key));
    }
    r
  }

  lemma ChannelKeys(posts: seq<Post>)
    ensures Groups.KeysOf(posts, ByChannel()) == (set p | p in posts :: p.channel)
  {
    Groups.KeysOfImage(posts, ByChannel());
  }

  lemma {:induction false} ChannelSums(posts: seq<Post>)
    ensures Groups.SumOf(posts, ByChannel()) == SumPosts(posts)
  {
    if |posts| > 0 {
      ChannelSums(posts[..|posts| - 1]);
    }
  }

  /** The channel rows add up to the overall totals: every post is counted
      in exactly one channel. */
  lemma ChannelsAddUp(posts: seq<Post>)
    ensures Groups.SumSummaries(ChannelSummary(posts)) == OverallMetrics(posts).counts
    ensures Groups.PostsOf(ChannelSummary(posts)) == OverallMetrics(posts).posts
  {
    Groups.SummariesAddUp(posts, ByChannel(), false, Groups.ViewsThenKey);
    ChannelSums(posts);
  }

  // ----- add_post_ctr / top_posts -----

  /** A post with its `ctr_pct` attached. */
  datatype RankedPost = RankedPost(post: Post, ctrPct: int)

  /** `add_post_ctr`: every post gains its own rate and nothing else changes. */
  function AddPostCtr(posts: seq<Post>): (r: seq<RankedPost>)
    ensures |r| == |posts|
    ensures forall i | 0 <= i < |posts| :: r[i].post == posts[i]
    ensures forall i | 0 <= i < |posts| :: r[i].ctrPct == CtrPct(posts[i].counts)
    ensures forall i | 0 <= i < |posts| ::
      0 <= posts[i].counts.clicks <= posts[i].counts.impressions ==> 0 <= r[i].ctrPct <= 10000
  {
    seq(|posts|, i requires 0 <= i < |posts| => RankedPost(posts[i], CtrPct(posts[i].counts)))
  }

  /** The posts with at least `minImpr` impressions, in order. */
  function Eligible(ranked: seq<RankedPost>, minImpr: int): (r: seq<RankedPost>)
    ensures |r| <= |ranked|
    ensures forall x | x in r :: x in ranked && x.post.counts.impressions >= minImpr
    ensures forall x | x in ranked && x.post.counts.impressions >= minImpr :: x in r
  {
    if |ranked| == 0 then []
    else
      var init := ranked[..|ranked| - 1];
      var last := ranked[|ranked| - 1];
      assert ranked == init + [last];
      Eligible(init, minImpr) + (if last.post.counts.impressions >= minImpr then [last] else [])
  }

  /** Each post is judged on its own: filtering a concatenation filters the
      parts, so order and repeats are kept. */
  lemma {:induction false} EligibleConcat(a: seq<RankedPost>, b: seq<RankedPost>, minImpr: int)
    ensures Eligible(a + b, minImpr) == Eligible(a, minImpr) + Eligible(b, minImpr)
    decreases |b|
  {
    if |b| == 0 {
      assert a + b == a;
    } else {
      var init := b[..|b| - 1];
      var last := b[|b| - 1];
      var e := if last.post.counts.impressions >= minImpr then [last] else [];
      assert (a + b)[..|a + b| - 1] == a + init;
      assert (a + b)[|a + b| - 1] == last;
      EligibleConcat(a, init, minImpr);
      assert Eligible(a + b, minImpr) == Eligible(a + init, minImpr) + e;
      assert Eligible(b, minImpr) == Eligible(init, minImpr) + e;
    }
  }

  /** `(-views, title)`. */
  function ViewsKey(x: RankedPost): seq<int> {
    [-x.post.counts.views] + Codes(x.post.title)
  }

  /** `(-ctr_pct, -impressions, title)`. */
  function CtrKey(x: RankedPost): seq<int> {
    [-x.ctrPct, -x.post.counts.impressions] + Codes(x.post.title)
  }

  /** Any `sort_by` other than "views" ranks by CTR. */
  function TopKey(sortBy: string): RankedPost -> seq<int> {
    if sortBy == "views" then ViewsKey else CtrKey
  }

  function RankedEligible(posts: seq<Post>, sortBy: string, minImpr: int): (s: seq<RankedPost>)
    ensures multiset(s) == multiset(Eligible(AddPostCtr(posts), minImpr))
    ensures SortedBy(s, TopKey(sortBy))
    ensures forall k :: Ties(s, TopKey(sortBy), k) == Ties(Eligible(AddPostCtr(posts), minImpr), TopKey(sortBy), k)
  {
    SortBy(Eligible(AddPostCtr(posts), minImpr), TopKey(sortBy))
  }

  /** `top_posts`: the first `n` eligible posts in key order (a negative `n`
      drops that many from the end, as a slice does). */
  function TopPosts(posts: seq<Post>, n: int, sortBy: string, minImpr: int): (r: seq<RankedPost>)
    ensures forall x | x in r ::
      x.post in posts && x.post.counts.impressions >= minImpr && x.ctrPct == CtrPct(x.post.counts)
    ensures |r| <= |Eligible(AddPostCtr(posts), minImpr)|
    ensures n >= 0 ==> |r| == if n < |Eligible(AddPostCtr(posts), minImpr)| then n else |Eligible(AddPostCtr(posts), minImpr)|
    ensures SortedBy(r, TopKey(sortBy))
    ensures r == RankedEligible(posts, sortBy, minImpr)[..|r|]
    ensures multiset(r) <= multiset(Eligible(AddPostCtr(posts), minImpr))
  {
    var s := RankedEligible(posts, sortBy, minImpr);
    EligibleFacts(posts, minImpr, s);
    var r := Take(s, n);
    Ranking.SortedPrefix(s, TopKey(sortBy), |r|);
    Ranking.PrefixMultiset(s, |r|);
    r
  }

  /** The top list does not depend on how the stable sort is carried out:
      slicing any sorted arrangement of the eligible posts that keeps tied
      posts in input order gives the same list. */
  lemma TopPostsOfStableOrder(posts: seq<Post>, n: int, sortBy: string, minImpr: int, s: seq<RankedPost>)
    requires SortedBy(s, TopKey(sortBy))
    requires forall k :: Ties(s, TopKey(sortBy), k) == Ties(Eligible(AddPostCtr(posts), minImpr), TopKey(sortBy), k)
    ensures TopPosts(posts, n, sortBy, minImpr) == Take(s, n)
  {
    Ranking.IsStableSort(Eligible(AddPostCtr(posts), minImpr), s, TopKey(sortBy));
  }

  /** Anything with the same elements as the eligible posts is made of the
      input posts, each with its own rate and enough impressions. */
  lemma EligibleFacts(posts: seq<Post>, minImpr: int, s: seq<RankedPost>)
    requires multiset(s) == multiset(Eligible(AddPostCtr(posts), minImpr))
    ensures |s| == |Eligible(AddPostCtr(posts), minImpr)|
    ensures forall x | x in s ::
      x.post in posts && x.post.counts.impressions >= minImpr && x.ctrPct == CtrPct(x.post.counts)
  {
    var ranked := AddPostCtr(posts);
    forall x | x in s
      ensures x.post in posts && x.post.counts.impressions >= minImpr && x.ctrPct == CtrPct(x.post.counts)
    {
      assert x in multiset(Eligible(ranked, minImpr));
      var i :| 0 <= i < |ranked| && ranked[i] == x;
    }
    assert |s| == |multiset(s)|;
  }

  /** No post left out of the top list beats one in it. */
  lemma TopPostsAreBest(posts: seq<Post>, n: int, sortBy: string, minImpr: int)
    ensures var r := TopPosts(posts, n, sortBy, minImpr);
      forall x, y | x in Eligible(AddPostCtr(posts), minImpr) && x !in r && y in r ::
        !Lt(TopKey(sortBy)(x), TopKey(sortBy)(y))
  {
    var s := RankedEligible(posts, sortBy, minImpr);
    var r := TopPosts(posts, n, sortBy, minImpr);
    assert r == s[..|r|];
    forall x, y | x in Eligible(AddPostCtr(posts), minImpr) && x !in r && y in r
      ensures !Lt(TopKey(sortBy)(x), TopKey(sortBy)(y))
    {
      assert x in multiset(s);
      PrefixIsBest(s, TopKey(sortBy), |r|, x, y);
    }
  }

  /** The CTR ranking: higher rate first, then more impressions, then title. */
  lemma CtrOrder(a: RankedPost, b: RankedPost)
    ensures Lt(CtrKey(a), CtrKey(b)) <==>
      || a.ctrPct > b.ctrPct
      || (a.ctrPct == b.ctrPct && a.post.counts.impressions > b.post.counts.impressions)
      || (a.ctrPct == b.ctrPct && a.post.counts.impressions == b.post.counts.impressions
          && Lt(Codes(a.post.title), Codes(b.post.title)))
  {
    var ta := [-a.post.counts.impressions] + Codes(a.post.title);
    var tb := [-b.post.counts.impressions] + Codes(b.post.title);
    assert CtrKey(a) == [-a.ctrPct] + ta;
    assert CtrKey(b) == [-b.ctrPct] + tb;
    LtCons(-a.ctrPct, ta, -b.ctrPct, tb);
    LtCons(-a.post.counts.impressions, Codes(a.post.title), -b.post.counts.impressions, Codes(b.post.title));
  }

  /** The views ranking: more views first, then title. */
  lemma ViewsOrder(a: RankedPost, b: RankedPost)
    ensures Lt(ViewsKey(a), ViewsKey(b)) <==>
      || a.post.counts.views > b.post.counts.views
      || (a.post.counts.views == b.post.counts.views && Lt(Codes(a.post.title), Codes(b.post.title)))
  {
    LtCons(-a.post.counts.views, Codes(a.post.title), -b.post.counts.views, Codes(b.post.title));
  }

  // ----- main -----

  /** Everything `main` prints. */
  datatype Outcome = Outcome(overall: Overall, channels: seq<Groups.Summary>, topByViews: seq<RankedPost>, topByCtr: seq<RankedPost>)

  /** The rows `main` reports on: the clean rows inside the bounds and
      channel given on the command line. */
  function SelectedRows(raws: seq<RawRow>, startArg: string, endArg: string, channelArg: string): seq<Row> {
    FilterRows(CleanRows(raws), DateBound(startArg), DateBound(endArg), if channelArg == "" then None else Some(channelArg))
  }

  lemma NoCleanRows(raws: seq<RawRow>)
    ensures CleanRows(raws) == [] <==> forall x | x in raws :: NormalizeRow(x).None?
  {
    if CleanRows(raws) != [] {
      var w := CleanRows(raws)[0];
      assert w in CleanRows(raws);
    }
  }

  lemma TopWithinPosts(posts: seq<Post>, n: int, sortBy: string, minImpr: int)
    ensures |TopPosts(posts, n, sortBy, minImpr)| <= |posts|
  {
  }

  /** `main` without the printing: None when no row survives reading ("No
      rows found."); a filter that removes everything still gives a report. */
  function BuildReport(raws: seq<RawRow>, startArg: string, endArg: string, channelArg: string, top: int, minImpr: int): (r: Option<Outcome>)
    ensures r.None? <==> forall x | x in raws :: NormalizeRow(x).None?
    ensures r.Some? ==> r.value.overall.counts == Groups.SumOf(SelectedRows(raws, startArg, endArg, channelArg), ByKey())
    ensures r.Some? ==> |r.value.topByViews| <= r.value.overall.posts && |r.value.topByCtr| <= r.value.overall.posts
  {
    NoCleanRows(raws);
    if CleanRows(raws) == [] then
      None
    else
      var selected := SelectedRows(raws, startArg, endArg, channelArg);
      var posts := RollupByUrl(selected);
      OverallOfRows(selected);
      TopWithinPosts(posts, top, "views", minImpr);
      TopWithinPosts(posts, top, "ctr", minImpr);
      Some(Outcome(OverallMetrics(posts), ChannelSummary(posts),
        TopPosts(posts, top, "views", minImpr), TopPosts(posts, top, "ctr", minImpr)))
  }
}

=== FILE: rollup.dfy ===
/**
 * `rollup_by_url` in content_report.py: rows that share a key are combined
 * into one post. The key is the url, or `title|channel` when the url is
 * empty. The first row seen fixes the post's url, title and channel; the
 * counters are summed and the dates give the earliest and latest day. Posts
 * come out in the order their keys were first seen, as a dict keeps them.
 */
module Rollup {
  import opened Dates
  import opened Metrics
  import opened Records
  import Groups

  /** `url or f"{title}|{channel}"`. */
  function KeyOf(url: string, title: string, channel: string): string {
    if url != "" then url else title + "|" + channel
  }

  function RowKey(w: Row): string {
    KeyOf(w.url, w.title, w.channel)
  }

  /** Rows grouped by their key; the id counted is the url. */
  function ByKey(): Groups.Facet<Row, string> {
    Groups.Facet(RowKey, (w: Row) => w.url, (w: Row) => w.counts)
  }

  datatype Post = Post(url: string, title: string, channel: string, counts: Counters, firstDate: Date, lastDate: Date)

  /** A post's key: the key of the row that opened it. */
  function PostKey(p: Post): string {
    KeyOf(p.url, p.title, p.channel)
  }

  // ----- reference definitions -----

  /** The earliest date among `m`. */
  function Earliest(m: seq<Row>): (d: Date)
    requires |m| > 0
    ensures exists i | 0 <= i < |m| :: m[i].date == d
    ensures forall i | 0 <= i < |m| :: NotAfter(d, m[i].date)
  {
    if |m| == 1 then m[0].date
    else
      var prev := Earliest(m[..|m| - 1]);
      ExtremeStep(m, m[..|m| - 1], prev, Earlier(prev, m[|m| - 1].date), true);
      Earlier(prev, m[|m| - 1].date)
  }

  /** The latest date among `m`. */
  function Latest(m: seq<Row>): (d: Date)
    requires |m| > 0
    ensures exists i | 0 <= i < |m| :: m[i].date == d
    ensures forall i | 0 <= i < |m| :: NotAfter(m[i].date, d)
  {
    if |m| == 1 then m[0].date
    else
      var prev := Latest(m[..|m| - 1]);
      ExtremeStep(m, m[..|m| - 1], prev, Later(prev, m[|m| - 1].date), false);
      Later(prev, m[|m| - 1].date)
  }

  /** Extending the minimum (or maximum) of a prefix by one more date. */
  lemma ExtremeStep(m: seq<Row>, init: seq<Row>, prev: Date, d: Date, lowest: bool)
    requires |m| > 1 && init == m[..|m| - 1]
    requires exists i | 0 <= i < |init| :: init[i].date == prev
    requires lowest ==> forall i | 0 <= i < |init| :: NotAfter(prev, init[i].date)
    requires !lowest ==> forall i | 0 <= i < |init| :: NotAfter(init[i].date, prev)
    requires d == prev || d == m[|m| - 1].date
    requires lowest ==> NotAfter(d, prev) && NotAfter(d, m[|m| - 1].date)
    requires !lowest ==> NotAfter(prev, d) && NotAfter(m[|m| - 1].date, d)
    ensures exists i | 0 <= i < |m| :: m[i].date == d
    ensures lowest ==> forall i | 0 <= i < |m| :: NotAfter(d, m[i].date)
    ensures !lowest ==> forall i | 0 <= i < |m| :: NotAfter(m[i].date, d)
  {
    forall i | 0 <= i < |m| - 1
      ensures lowest ==> NotAfter(d, m[i].date)
      ensures !lowest ==> NotAfter(m[i].date, d)
    {
      assert init[i] == m[i];
      if lowest {
        NotAfterTransitive(d, prev, m[i].date);
      } else {
        NotAfterTransitive(m[i].date, prev, d);
      }
    }
    if d == m[|m| - 1].date {
      assert m[|m| - 1].date == d;
    } else {
      var i :| 0 <= i < |init| && init[i].date == prev;
      assert m[i].date == d;
    }
  }

  /** The post that key `k` must produce: named after its first row, with
      the summed counters and the date range of all its rows. */
  function Expected(rows: seq<Row>, k: string): Post
    requires k in Groups.KeysOf(rows, ByKey())
  {
    var m := Groups.Members(rows, ByKey(), k);
    MembersOfPresentKey(rows, k);
    Post(m[0].url, m[0].title, m[0].channel, Groups.SumOf(m, ByKey()), Earliest(m), Latest(m))
  }

  lemma {:induction false} MembersOfPresentKey(rows: seq<Row>, k: string)
    requires k in Groups.KeysOf(rows, ByKey())
    ensures |Groups.Members(rows, ByKey(), k)| > 0
  {
    var init := rows[..|rows| - 1];
    if k in Groups.KeysOf(init, ByKey()) {
      MembersOfPresentKey(init, k);
    }
  }

  predicate DistinctPostKeys(ps: seq<Post>) {
    forall i, j | 0 <= i < j < |ps| :: PostKey(ps[i]) != PostKey(ps[j])
  }

  function PostKeys(ps: seq<Post>): set<string> {
    set p | p in ps :: PostKey(p)
  }

  /** `p` is the post its key must produce from `rows`. */
  ghost predicate Faithful(p: Post, rows: seq<Row>) {
    PostKey(p) in Groups.KeysOf(rows, ByKey()) && p == Expected(rows, PostKey(p))
  }

  /** One post per key of `rows`, each the `Expected` one. */
  ghost predicate RollsUp(ps: seq<Post>, rows: seq<Row>) {
    && DistinctPostKeys(ps)
    && PostKeys(ps) == Groups.KeysOf(rows, ByKey())
    && forall i {:trigger Faithful(ps[i], rows)} | 0 <= i < |ps| :: Faithful(ps[i], rows)
  }

  // ----- the single pass -----

  /** A new bucket: the row's names, zero counters plus the row's, and the
      row's date at both ends. */
  function Seed(w: Row): Post {
    Post(w.url, w.title, w.channel, Zero.Plus(w.counts), w.date, w.date)
  }

  function Merge(p: Post, w: Row): Post {
    p.(counts := p.counts.Plus(w.counts), firstDate := Earlier(p.firstDate, w.date), lastDate := Later(p.lastDate, w.date))
  }

  function IndexOfPost(ps: seq<Post>, k: string): (i: int)
    ensures -1 <= i < |ps|
    ensures i >= 0 ==> PostKey(ps[i]) == k
    ensures i == -1 ==> forall j | 0 <= j < |ps| :: PostKey(ps[j]) != k
  {
    if |ps| == 0 then -1
    else if PostKey(ps[|ps| - 1]) == k then |ps| - 1
    else IndexOfPost(ps[..|ps| - 1], k)
  }

  function Bucket(ps: seq<Post>, w: Row): seq<Post> {
    var i := IndexOfPost(ps, RowKey(w));
    if i < 0 then ps + [Seed(w)] else ps[i := Merge(ps[i], w)]
  }

  /** `rollup_by_url`. */
  function RollupByUrl(rows: seq<Row>): (ps: seq<Post>)
    ensures RollsUp(ps, rows)
  {
    if |rows| == 0 then []
    else
      var init := rows[..|rows| - 1];
      var w := rows[|rows| - 1];
      assert rows == init + [w];
      var prev := RollupByUrl(init);
      BucketStep(prev, init, w);
      Bucket(prev, w)
  }

  lemma BucketStep(ps: seq<Post>, rows: seq<Row>, w: Row)
    requires RollsUp(ps, rows)
    ensures RollsUp(Bucket(ps, w), rows + [w])
  {
    Groups.IdsSnoc(rows, w, ByKey());
    if IndexOfPost(ps, RowKey(w)) >= 0 {
      BucketExisting(ps, rows, w);
    } else {
      BucketNew(ps, rows, w);
    }
  }

  lemma MergeIsExpected(p: Post, rows: seq<Row>, w: Row)
    requires RowKey(w) in Groups.KeysOf(rows, ByKey())
    requires p == Expected(rows, RowKey(w))
    ensures RowKey(w) in Groups.KeysOf(rows + [w], ByKey())
    ensures Merge(p, w) == Expected(rows + [w], RowKey(w))
  {
    var k := RowKey(w);
    Groups.IdsSnoc(rows, w, ByKey());
    var m := Groups.Members(rows, ByKey(), k);
    MembersOfPresentKey(rows, k);
    Groups.MembersSnoc(rows, w, ByKey(), k);
    var m' := m + [w];
    assert Groups.Members(rows + [w], ByKey(), k) == m';
    assert m'[0] == m[0];
    Groups.SumSnoc(m, w, ByKey());
    assert m'[..|m'| - 1] == m;
  }

  lemma OtherPostIsExpected(p: Post, rows: seq<Row>, w: Row)
    requires PostKey(p) in Groups.KeysOf(rows, ByKey()) && PostKey(p) != RowKey(w)
    requires p == Expected(rows, PostKey(p))
    ensures PostKey(p) in Groups.KeysOf(rows + [w], ByKey())
    ensures p == Expected(rows + [w], PostKey(p))
  {
    Groups.IdsSnoc(rows, w, ByKey());
    Groups.MembersSnoc(rows, w, ByKey(), PostKey(p));
    assert Groups.Members(rows + [w], ByKey(), PostKey(p)) == Groups.Members(rows, ByKey(), PostKey(p));
  }

  lemma SeedIsExpected(rows: seq<Row>, w: Row)
    requires RowKey(w) !in Groups.KeysOf(rows, ByKey())
    ensures RowKey(w) in Groups.KeysOf(rows + [w], ByKey())
    ensures Seed(w) == Expected(rows + [w], RowKey(w))
  {
    var k := RowKey(w);
    Groups.IdsSnoc(rows, w, ByKey());
    Groups.MembersOfAbsentKey(rows, ByKey(), k);
    Groups.MembersSnoc(rows, w, ByKey(), k);
    assert Groups.Members(rows + [w], ByKey(), k) == [w];
    Groups.SumSnoc([], w, ByKey());
  }

  lemma BucketExisting(ps: seq<Post>, rows: seq<Row>, w: Row)
    requires RollsUp(ps, rows)
    requires IndexOfPost(ps, RowKey(w)) >= 0
    requires Groups.KeysOf(rows + [w], ByKey()) == Groups.KeysOf(rows, ByKey()) + {RowKey(w)}
    ensures RollsUp(Bucket(ps, w), rows + [w])
  {
    var i := IndexOfPost(ps, RowKey(w));
    var ps' := ps[i := Merge(ps[i], w)];
    assert Bucket(ps, w) == ps';
    MergedRollsUp(ps, ps', rows, w, i);
  }

  lemma MergedRollsUp(ps: seq<Post>, ps': seq<Post>, rows: seq<Row>, w: Row, i: nat)
    requires RollsUp(ps, rows)
    requires i < |ps| && PostKey(ps[i]) == RowKey(w) && ps' == ps[i := Merge(ps[i], w)]
    requires Groups.KeysOf(rows + [w], ByKey()) == Groups.KeysOf(rows, ByKey()) + {RowKey(w)}
    ensures RollsUp(ps', rows + [w])
  {
    MergedFaithful(ps, ps', rows, w, i);
    SameKeysAfterMerge(ps, ps', i, w);
    assert PostKey(ps[i]) in PostKeys(ps) by { assert ps[i] in ps; }
  }

  lemma MergedFaithful(ps: seq<Post>, ps': seq<Post>, rows: seq<Row>, w: Row, i: nat)
    requires i < |ps| && PostKey(ps[i]) == RowKey(w) && ps' == ps[i := Merge(ps[i], w)]
    requires DistinctPostKeys(ps)
    requires forall j {:trigger Faithful(ps[j], rows)} | 0 <= j < |ps| :: Faithful(ps[j], rows)
    ensures forall j {:trigger Faithful(ps'[j], rows + [w])} | 0 <= j < |ps'| :: Faithful(ps'[j], rows + [w])
  {
    forall j | 0 <= j < |ps'|
      ensures Faithful(ps'[j], rows + [w])
    {
      if j == i {
        assert Faithful(ps[i], rows);
        MergeIsExpected(ps[i], rows, w);
      } else {
        assert ps'[j] == ps[j] && Faithful(ps[j], rows);
        OtherPostIsExpected(ps[j], rows, w);
      }
    }
  }

  lemma SameKeysAfterMerge(ps: seq<Post>, ps': seq<Post>, i: nat, w: Row)
    requires i < |ps| && ps' == ps[i := Merge(ps[i], w)]
    ensures |ps'| == |ps|
    ensures forall j | 0 <= j < |ps| :: PostKey(ps'[j]) == PostKey(ps[j])
    ensures PostKeys(ps') == PostKeys(ps)
  {
    forall p | p in ps' ensures PostKey(p) in PostKeys(ps) {
      var j :| 0 <= j < |ps'| && ps'[j] == p;
      assert PostKey(ps[j]) == PostKey(p) && ps[j] in ps;
    }
    forall p | p in ps ensures PostKey(p) in PostKeys(ps') {
      var j :| 0 <= j < |ps| && ps[j] == p;
      assert PostKey(ps'[j]) == PostKey(p) && ps'[j] in ps';
    }
  }

  lemma BucketNew(ps: seq<Post>, rows: seq<Row>, w: Row)
    requires RollsUp(ps, rows)
    requires IndexOfPost(ps, RowKey(w)) < 0
    requires Groups.KeysOf(rows + [w], ByKey()) == Groups.KeysOf(rows, ByKey()) + {RowKey(w)}
    ensures RollsUp(Bucket(ps, w), rows + [w])
  {
    var ps' := ps + [Seed(w)];
    assert Bucket(ps, w) == ps';
    AppendFaithful(ps, rows, w);
    AppendDistinct(ps, Seed(w));
    KeysAfterAppend(ps, Seed(w));
  }

  lemma AppendFaithful(ps: seq<Post>, rows: seq<Row>, w: Row)
    requires forall i {:trigger Faithful(ps[i], rows)} | 0 <= i < |ps| :: Faithful(ps[i], rows)
    requires forall i | 0 <= i < |ps| :: PostKey(ps[i]) != RowKey(w)
    requires RowKey(w) !in Groups.KeysOf(rows, ByKey())
    ensures forall j {:trigger Faithful((ps + [Seed(w)])[j], rows + [w])} | 0 <= j < |ps| + 1 ::
      Faithful((ps + [Seed(w)])[j], rows + [w])
  {
    var ps' := ps + [Seed(w)];
    SeedIsExpected(rows, w);
    forall j | 0 <= j < |ps'|
      ensures Faithful(ps'[j], rows + [w])
    {
      if j < |ps| {
        assert ps'[j] == ps[j] && Faithful(ps[j], rows);
        OtherPostIsExpected(ps[j], rows, w);
      }
    }
  }

  lemma AppendDistinct(ps: seq<Post>, p: Post)
    requires DistinctPostKeys(ps)
    requires forall i | 0 <= i < |ps| :: PostKey(ps[i]) != PostKey(p)
    ensures DistinctPostKeys(ps + [p])
  {
    var ps' := ps + [p];
    forall a, b | 0 <= a < b < |ps'| ensures PostKey(ps'[a]) != PostKey(ps'[b]) {
      if b == |ps| { assert ps'[a] == ps[a]; }
    }
  }

  lemma KeysAfterAppend(ps: seq<Post>, p: Post)
    ensures PostKeys(ps + [p]) == PostKeys(ps) + {PostKey(p)}
  {
    forall q | q in ps + [p] ensures PostKey(q) in PostKeys(ps) + {PostKey(p)} {
      if q != p { assert q in ps; }
    }
  }

  // ----- properties -----

  /** Each post spans its rows: the first date is on or before the last, and
      every row of the post falls between them. */
  lemma PostSpansItsRows(rows: seq<Row>, w: Row)
    requires w in rows
    ensures exists p | p in RollupByUrl(rows) :: PostKey(p) == RowKey(w)
    ensures forall p | p in RollupByUrl(rows) && PostKey(p) == RowKey(w) ::
      NotAfter(p.firstDate, w.date) && NotAfter(w.date, p.lastDate) && NotAfter(p.firstDate, p.lastDate)
  {
    var ps := RollupByUrl(rows);
    KeyOfMember(rows, w);
    assert RowKey(w) in PostKeys(ps);
    forall p | p in ps && PostKey(p) == RowKey(w)
      ensures NotAfter(p.firstDate, w.date) && NotAfter(w.date, p.lastDate) && NotAfter(p.firstDate, p.lastDate)
    {
      var j :| 0 <= j < |ps| && ps[j] == p;
      FaithfulSpans(p, rows, w);
    }
  }

  lemma FaithfulSpans(p: Post, rows: seq<Row>, w: Row)
    requires Faithful(p, rows) && w in rows && PostKey(p) == RowKey(w)
    ensures NotAfter(p.firstDate, w.date) && NotAfter(w.date, p.lastDate) && NotAfter(p.firstDate, p.lastDate)
  {
    var m := Groups.Members(rows, ByKey(), RowKey(w));
    MemberOfKey(rows, w);
    var i :| 0 <= i < |m| && m[i] == w;
    assert p.firstDate == Earliest(m) && p.lastDate == Latest(m);
    NotAfterTransitive(p.firstDate, w.date, p.lastDate);
  }

  lemma {:induction false} KeyOfMember(rows: seq<Row>, w: Row)
    requires w in rows
    ensures RowKey(w) in Groups.KeysOf(rows, ByKey())
  {
    var init := rows[..|rows| - 1];
    if w != rows[|rows| - 1] {
      assert rows == init + [rows[|rows| - 1]];
      KeyOfMember(init, w);
    }
  }

  lemma {:induction false} MemberOfKey(rows: seq<Row>, w: Row)
    requires w in rows
    ensures w in Groups.Members(rows, ByKey(), RowKey(w))
  {
    var init := rows[..|rows| - 1];
    if w != rows[|rows| - 1] {
      assert rows == init + [rows[|rows| - 1]];
      MemberOfKey(init, w);
    }
  }

  function SumPosts(ps: seq<Post>): Counters {
    if |ps| == 0 then Zero else SumPosts(ps[..|ps| - 1]).Plus(ps[|ps| - 1].counts)
  }

  lemma {:induction false} MergeTotals(ps: seq<Post>, i: nat, w: Row)
    requires i < |ps|
    ensures SumPosts(ps[i := Merge(ps[i], w)]) == SumPosts(ps).Plus(w.counts)
  {
    var ps' := ps[i := Merge(ps[i], w)];
    if i < |ps| - 1 {
      assert ps'[..|ps| - 1] == ps[..|ps| - 1][i := Merge(ps[i], w)];
      MergeTotals(ps[..|ps| - 1], i, w);
    } else {
      assert ps'[..|ps| - 1] == ps[..|ps| - 1];
    }
  }

  /** One more row is one more bucket step. */
  lemma RollupSnoc(rows: seq<Row>, w: Row)
    ensures RollupByUrl(rows + [w]) == Bucket(RollupByUrl(rows), w)
  {
    assert (rows + [w])[..|rows|] == rows;
  }

  lemma RollupOne(w: Row)
    ensures RollupByUrl([w]) == [Seed(w)]
  {
    RollupSnoc([], w);
    assert [] + [w] == [w];
  }

  lemma BucketTotals(ps: seq<Post>, w: Row)
    ensures SumPosts(Bucket(ps, w)) == SumPosts(ps).Plus(w.counts)
  {
    var i := IndexOfPost(ps, RowKey(w));
    if i >= 0 {
      MergeTotals(ps, i, w);
    } else {
      assert (ps + [Seed(w)])[..|ps|] == ps;
    }
  }

  /** Combining rows neither loses nor invents counts. */
  lemma {:induction false} RollupKeepsTotals(rows: seq<Row>)
    ensures SumPosts(RollupByUrl(rows)) == Groups.SumOf(rows, ByKey())
  {
    if |rows| > 0 {
      var init := rows[..|rows| - 1];
      var w := rows[|rows| - 1];
      assert rows == init + [w];
      RollupKeepsTotals(init);
      RollupSnoc(init, w);
      BucketTotals(RollupByUrl(init), w);
      Groups.SumSnoc(init, w, ByKey());
    }
  }

  /** Rows with distinct keys stay separate posts. */
  lemma RollupCount(rows: seq<Row>)
    ensures |RollupByUrl(rows)| == |Groups.KeysOf(rows, ByKey())|
  {
    var ps := RollupByUrl(rows);
    PostKeysCount(ps);
  }

  lemma {:induction false} PostKeysCount(ps: seq<Post>)
    requires DistinctPostKeys(ps)
    ensures |PostKeys(ps)| == |ps|
  {
    if |ps| > 0 {
      var init := ps[..|ps| - 1];
      PostKeysCount(init);
      assert PostKeys(ps) == PostKeys(init) + {PostKey(ps[|ps| - 1])};
      assert PostKey(ps[|ps| - 1]) !in PostKeys(init);
    }
  }

  /** The position of the first row with key `k`, or -1 when no row has it. */
  function FirstSeen(rows: seq<Row>, k: string): (r: int)
    ensures -1 <= r < |rows|
    ensures r >= 0 ==> RowKey(rows[r]) == k && forall m | 0 <= m < r :: RowKey(rows[m]) != k
    ensures r == -1 ==> forall m | 0 <= m < |rows| :: RowKey(rows[m]) != k
  {
    if |rows| == 0 then -1
    else
      var f := FirstSeen(rows[..|rows| - 1], k);
      if f >= 0 then f
      else if RowKey(rows[|rows| - 1]) == k then |rows| - 1
      else -1
  }

  /** The posts' keys are seen in the rows, each later post's key for the
      first time after every earlier post's key. */
  predicate SeenInOrder(ps: seq<Post>, rows: seq<Row>) {
    && (forall i | 0 <= i < |ps| :: FirstSeen(rows, PostKey(ps[i])) >= 0)
    && (forall i, j | 0 <= i < j < |ps| :: FirstSeen(rows, PostKey(ps[i])) < FirstSeen(rows, PostKey(ps[j])))
  }

  /** A key already seen keeps its first position when a row is added. */
  lemma SeenBefore(rows: seq<Row>, w: Row, k: string)
    requires FirstSeen(rows, k) >= 0
    ensures FirstSeen(rows + [w], k) == FirstSeen(rows, k)
  {
    assert (rows + [w])[..|rows|] == rows;
  }

  /** Adding a row whose key is new to the rows puts it at the end. */
  lemma SeenLast(rows: seq<Row>, w: Row)
    requires FirstSeen(rows, RowKey(w)) == -1
    ensures FirstSeen(rows + [w], RowKey(w)) == |rows|
  {
    assert (rows + [w])[..|rows|] == rows;
  }

  lemma SeenAfterMerge(ps: seq<Post>, rows: seq<Row>, w: Row, at: nat)
    requires SeenInOrder(ps, rows) && at < |ps|
    ensures SeenInOrder(ps[at := Merge(ps[at], w)], rows + [w])
  {
    var ps' := ps[at := Merge(ps[at], w)];
    SameKeysAfterMerge(ps, ps', at, w);
    forall i | 0 <= i < |ps| ensures FirstSeen(rows + [w], PostKey(ps'[i])) == FirstSeen(rows, PostKey(ps[i])) {
      SeenBefore(rows, w, PostKey(ps[i]));
    }
  }

  lemma SeenAfterAppend(ps: seq<Post>, rows: seq<Row>, w: Row)
    requires SeenInOrder(ps, rows) && FirstSeen(rows, RowKey(w)) == -1
    ensures SeenInOrder(ps + [Seed(w)], rows + [w])
  {
    var ps' := ps + [Seed(w)];
    assert PostKey(Seed(w)) == RowKey(w);
    SeenLast(rows, w);
    forall i | 0 <= i < |ps| ensures FirstSeen(rows + [w], PostKey(ps'[i])) == FirstSeen(rows, PostKey(ps[i])) {
      assert ps'[i] == ps[i];
      SeenBefore(rows, w, PostKey(ps[i]));
    }
  }

  /** A key no post has was never seen in the rows the posts roll up. */
  lemma UnseenKey(ps: seq<Post>, rows: seq<Row>, k: string)
    requires PostKeys(ps) == Groups.KeysOf(rows, ByKey())
    requires forall j | 0 <= j < |ps| :: PostKey(ps[j]) != k
    ensures FirstSeen(rows, k) == -1
  {
    var f := FirstSeen(rows, k);
    if f >= 0 {
      KeyOfMember(rows, rows[f]);
      assert false;
    }
  }

  lemma {:induction false} SeenInOrderOf(rows: seq<Row>)
    ensures SeenInOrder(RollupByUrl(rows), rows)
  {
    if |rows| > 0 {
      var init := rows[..|rows| - 1];
      var w := rows[|rows| - 1];
      assert rows == init + [w];
      var prev := RollupByUrl(init);
      assert RollupByUrl(rows) == Bucket(prev, w);
      SeenInOrderOf(init);
      var at := IndexOfPost(prev, RowKey(w));
      if at >= 0 {
        SeenAfterMerge(prev, init, w, at);
      } else {
        UnseenKey(prev, init, RowKey(w));
        SeenAfterAppend(prev, init, w);
      }
    }
  }

  /** Posts come out in the order their keys were first seen, as the
      insertion order of a dict keeps them: an earlier post's key first
      occurs in the rows before a later post's key does. */
  lemma RollupOrder(rows: seq<Row>)
    ensures forall i | 0 <= i < |RollupByUrl(rows)| :: FirstSeen(rows, PostKey(RollupByUrl(rows)[i])) >= 0
    ensures forall i, j | 0 <= i < j < |RollupByUrl(rows)| ::
      FirstSeen(rows, PostKey(RollupByUrl(rows)[i])) < FirstSeen(rows, PostKey(RollupByUrl(rows)[j]))
  {
    SeenInOrderOf(rows);
  }

  /** The first row seen names the post: a later row with the same url but
      another title only adds its counts. */
  lemma FirstTitleWins(d: Date)
    ensures var a := Row("Launch", d, "Linkedin", Counters(10, 1, 50), "u");
      var b := Row("Launch (edited)", d, "Blog", Counters(5, 0, 20), "u");
      RollupByUrl([a, b]) == [Post("u", "Launch", "Linkedin", Counters(15, 1, 70), d, d)]
  {
    var a := Row("Launch", d, "Linkedin", Counters(10, 1, 50), "u");
    var b := Row("Launch (edited)", d, "Blog", Counters(5, 0, 20), "u");
    RollupOne(a);
    RollupSnoc([a], b);
    assert [a] + [b] == [a, b];
    assert IndexOfPost([Seed(a)], RowKey(b)) == 0;
    assert Bucket([Seed(a)], b) == [Merge(Seed(a), b)];
    assert Earlier(d, d) == d && Later(d, d) == d;
    assert Merge(Seed(a), b) == Post("u", "Launch", "Linkedin", Counters(15, 1, 70), d, d);
  }

  /** Keys built from title and channel share their space with urls: a row
      whose url is literally "A|B" is combined with an url-less row titled
      "A" on channel "B". */
  lemma KeyCollision(d: Date)
    ensures var a := Row("X", d, "Blog", Counters(1, 0, 0), "A|B");
      var b := Row("A", d, "B", Counters(2, 0, 0), "");
      |RollupByUrl([a, b])| == 1
  {
    var a := Row("X", d, "Blog", Counters(1, 0, 0), "A|B");
    var b := Row("A", d, "B", Counters(2, 0, 0), "");
    assert RowKey(b) == "A|B";
    RollupOne(a);
    RollupSnoc([a], b);
    assert [a] + [b] == [a, b];
    assert IndexOfPost([Seed(a)], RowKey(b)) == 0;
  }
}

=== FILE: text.dfy ===
/**
 * The string operations the reports apply to cells: Python's `str.strip()`,
 * `str.rstrip(c)`, `str.lower()` and `str.title()`.
 *
 * Whitespace is exactly the set of characters for which Python's
 * `str.isspace()` holds. Case mapping is modelled for ASCII letters only.
 * A cell pandas reads goes through `read_csv`'s missing-value detection
 * and then `astype(str)`.
 */
module Text {
  import opened Wrappers

  /** Python's `str.isspace()` for one character. */
  predicate IsSpace(c: char) {
    || c == ' '
    || ('\t' <= c <= '\r')
    || ('\U{1C}' <= c <= '\U{1F}')
    || c == '\U{85}' || c == '\U{A0}' || c == '\U{1680}'
    || ('\U{2000}' <= c <= '\U{200A}')
    || c == '\U{2028}' || c == '\U{2029}' || c == '\U{202F}' || c == '\U{205F}'
    || c == '\U{3000}'
  }

  predicate AllSpace(s: string) {
    forall k | 0 <= k < |s| :: IsSpace(s[k])
  }

  /** `s.lstrip()`: drops the leading whitespace and nothing else. */
  function LStrip(s: string): (r: string)
    ensures |r| <= |s| && r == s[|s| - |r|..]
    ensures AllSpace(s[..|s| - |r|])
    ensures |r| > 0 ==> !IsSpace(r[0])
  {
    if |s| > 0 && IsSpace(s[0]) then LStrip(s[1..]) else s
  }

  /** `s.rstrip()`: drops the trailing whitespace and nothing else. */
  function RStrip(s: string): (r: string)
    ensures |r| <= |s| && r == s[..|r|]
    ensures AllSpace(s[|r|..])
    ensures |r| > 0 ==> !IsSpace(r[|r| - 1])
  {
    if |s| > 0 && IsSpace(s[|s| - 1]) then RStrip(s[..|s| - 1]) else s
  }

  /** `s.strip()`. */
  function Strip(s: string): (r: string)
    ensures |r| <= |s|
    ensures |r| > 0 ==> !IsSpace(r[0]) && !IsSpace(r[|r| - 1])
  {
    var l := LStrip(s);
    var r := RStrip(l);
    assert |r| > 0 ==> r[0] == l[0];
    r
  }

  /** A stripped string is the middle of its input with only whitespace cut
      away on both sides, the leading part being what `lstrip` removes. */
  lemma StripShape(s: string)
    ensures var r := Strip(s); var i := |s| - |LStrip(s)|;
      && 0 <= i <= |s| - |r|
      && r == s[i..][..|r|] && AllSpace(s[..i]) && AllSpace(s[i..][|r|..])
  {
    assert Strip(s) == RStrip(LStrip(s));
  }

  /** Text with no whitespace at either end: what `strip()` leaves. */
  predicate Trimmed(t: string) {
    |t| > 0 ==> !IsSpace(t[0]) && !IsSpace(t[|t| - 1])
  }

  /** Text with no whitespace at either end is its own strip. */
  lemma StripOfTrimmed(t: string)
    requires Trimmed(t)
    ensures Strip(t) == t
  {
  }

  /** pandas' `astype(str)` of a cell: a blank cell becomes the text "nan". */
  function AsText(cell: Option<string>): string {
    cell.GetOr("nan")
  }

  /** The text of a blank cell has nothing to strip. */
  lemma NanStrip()
    ensures Strip("nan") == "nan"
  {
    StripOfTrimmed("nan");
  }

  /** The field texts `read_csv` takes for a missing value by default, the
      empty field among them. */
  predicate NaText(s: string) {
    s in NaSpellings()
  }

  function NaSpellings(): set<string> {
    {"", "#N/A", "#N/A N/A", "#NA", "-1.#IND", "-1.#QNAN", "-NaN", "-nan", "1.#IND",
     "1.#QNAN", "<NA>", "N/A", "NA", "NULL", "NaN", "None", "n/a", "nan", "null"}
  }

  /** A field as `read_csv` reads it: blank for an absent column and for a
      missing-value spelling, and its own text otherwise. */
  function ReadCsv(cell: Option<string>): (c: Option<string>)
    ensures c.None? <==> cell.None? || NaText(cell.value)
    ensures c.Some? ==> c == cell
  {
    if cell.Some? && !NaText(cell.value) then cell else None
  }

  /** Stripping twice is stripping once. */
  lemma StripIdempotent(s: string)
    ensures Strip(Strip(s)) == Strip(s)
  {
    StripOfTrimmed(Strip(s));
  }

  /** `s.rstrip(c)`: drops every trailing copy of `c`. */
  function RStripChar(s: string, c: char): (r: string)
    ensures |r| <= |s| && r == s[..|r|]
    ensures forall k | |r| <= k < |s| :: s[k] == c
    ensures |r| > 0 ==> r[|r| - 1] != c
  {
    if |s| > 0 && s[|s| - 1] == c then RStripChar(s[..|s| - 1], c) else s
  }

  /** The index of the first `c` in `s`, or -1: Python's `s.find(c)`. */
  function Find(s: string, c: char): (i: int)
    ensures -1 <= i < |s|
    ensures i >= 0 ==> s[i] == c && c !in s[..i]
    ensures i == -1 ==> c !in s
  {
    if |s| == 0 then -1
    else if s[0] == c then 0
    else
      var j := Find(s[1..], c);
      if j == -1 then -1 else j + 1
  }

  predicate IsUpper(c: char) { 'A' <= c <= 'Z' }
  predicate IsLower(c: char) { 'a' <= c <= 'z' }

  /** A cased character in the sense of `str.title()` (ASCII letters). */
  predicate IsLetter(c: char) { IsUpper(c) || IsLower(c) }

  function LowerChar(c: char): char {
    if IsUpper(c) then (c as int + 32) as char else c
  }

  function UpperChar(c: char): char {
    if IsLower(c) then (c as int - 32) as char else c
  }

  /** `s.lower()`: no upper-case letter is left, each upper-case letter
      becomes its lower-case partner, and every other character is kept. */
  function Lower(s: string): (r: string)
    ensures |r| == |s|
    ensures forall k | 0 <= k < |s| :: !IsUpper(r[k])
    ensures forall k | 0 <= k < |s| ::
      if IsUpper(s[k]) then r[k] as int == s[k] as int + 32 else r[k] == s[k]
  {
    seq(|s|, k requires 0 <= k < |s| => LowerChar(s[k]))
  }

  /** The character `str.title()` puts at position `k`: a letter that starts
      a word (no letter just before it) is upper-cased, any other letter is
      lower-cased, everything else is kept. */
  function TitleChar(s: string, k: nat): char
    requires k < |s|
  {
    if !IsLetter(s[k]) then s[k]
    else if k == 0 || !IsLetter(s[k - 1]) then UpperChar(s[k])
    else LowerChar(s[k])
  }

  /** `s.title()`: every non-letter is kept; every letter stays the same
      letter, upper-case where it starts a word (at the front or after a
      non-letter) and lower-case where it follows another letter. */
  function Title(s: string): (r: string)
    ensures |r| == |s|
    ensures forall k | 0 <= k < |s| && !IsLetter(s[k]) :: r[k] == s[k]
    ensures forall k | 0 <= k < |s| && IsLetter(s[k]) ::
      LowerChar(r[k]) == LowerChar(s[k])
    ensures forall k | 0 <= k < |s| && IsLetter(s[k]) && (k == 0 || !IsLetter(s[k - 1])) ::
      IsUpper(r[k])
    ensures forall k | 0 < k < |s| && IsLetter(s[k]) && IsLetter(s[k - 1]) ::
      IsLower(r[k])
  {
    assert forall k | 0 <= k < |s| && IsLetter(s[k]) ::
        LowerChar(UpperChar(s[k])) == LowerChar(s[k]) && IsUpper(UpperChar(s[k])) && IsLower(LowerChar(s[k])) by {
      forall k | 0 <= k < |s| && IsLetter(s[k])
        ensures LowerChar(UpperChar(s[k])) == LowerChar(s[k]) && IsUpper(UpperChar(s[k])) && IsLower(LowerChar(s[k]))
      {
        LetterCases(s[k]);
      }
    }
    seq(|s|, k requires 0 <= k < |s| => TitleChar(s, k))
  }

  lemma LetterCases(c: char)
    requires IsLetter(c)
    ensures LowerChar(UpperChar(c)) == LowerChar(c) && IsUpper(UpperChar(c)) && IsLower(LowerChar(c))
  {
  }

  lemma LowerDropFirst(s: string)
    requires |s| > 0
    ensures Lower(s)[1..] == Lower(s[1..])
  {
    var a, b := Lower(s)[1..], Lower(s[1..]);
    assert forall k | 0 <= k < |a| :: a[k] == Lower(s)[k + 1] && b[k] == LowerChar(s[1..][k]);
  }

  lemma LowerPrefix(s: string, n: nat)
    requires n <= |s|
    ensures Lower(s)[..n] == Lower(s[..n])
  {
    var a, b := Lower(s)[..n], Lower(s[..n]);
    assert forall k | 0 <= k < n :: a[k] == Lower(s)[k] && b[k] == LowerChar(s[..n][k]);
  }

  /** Lower-casing and stripping commute: lower-casing changes only
      letters, and no letter is whitespace. */
  lemma {:induction false} LStripLower(s: string)
    ensures LStrip(Lower(s)) == Lower(LStrip(s))
    decreases |s|
  {
    var t := Lower(s);
    if |s| > 0 && IsSpace(s[0]) {
      assert t[0] == s[0];
      LowerDropFirst(s);
      LStripLower(s[1..]);
      LStripStep(t);
      LStripStep(s);
    } else {
      assert |s| > 0 ==> !IsSpace(t[0]);
      LStripStop(t);
      LStripStop(s);
    }
  }

  lemma {:induction false} RStripLower(s: string)
    ensures RStrip(Lower(s)) == Lower(RStrip(s))
    decreases |s|
  {
    var t := Lower(s);
    if |s| > 0 && IsSpace(s[|s| - 1]) {
      assert t[|s| - 1] == s[|s| - 1];
      LowerPrefix(s, |s| - 1);
      RStripLower(s[..|s| - 1]);
      RStripStep(t);
      RStripStep(s);
    } else {
      assert |s| > 0 ==> !IsSpace(t[|s| - 1]);
      RStripStop(t);
      RStripStop(s);
    }
  }

  lemma {:induction false} StripLower(s: string)
    ensures Strip(Lower(s)) == Lower(Strip(s))
  {
    LStripLower(s);
    RStripLower(LStrip(s));
  }

  /** Removing a trailing non-letter and lower-casing commute. */
  lemma {:induction false} RStripCharLower(s: string, c: char)
    requires !IsLetter(c)
    ensures RStripChar(Lower(s), c) == Lower(RStripChar(s, c))
    decreases |s|
  {
    var t := Lower(s);
    if |s| > 0 && s[|s| - 1] == c {
      assert t[|s| - 1] == c;
      LowerPrefix(s, |s| - 1);
      RStripCharLower(s[..|s| - 1], c);
    } else {
      assert |s| > 0 ==> t[|s| - 1] != c;
    }
  }

  /** Title-casing keeps every non-letter where it was. */
  lemma TitleKeepsNonLetters(s: string, k: nat)
    requires k < |s| && !IsLetter(s[k])
    ensures Title(s)[k] == s[k]
  {
  }

  /** Cutting a non-letter off the front does not change how the rest is
      title-cased: the next character starts a word either way. */
  lemma TitleDropFirst(s: string)
    requires |s| > 0 && !IsLetter(s[0])
    ensures Title(s)[1..] == Title(s[1..])
  {
    var a := Title(s)[1..];
    var b := Title(s[1..]);
    forall k | 0 <= k < |a|
      ensures a[k] == b[k]
    {
      assert a[k] == TitleChar(s, k + 1);
    }
  }

  /** Title-casing a prefix gives the prefix of the title-cased string. */
  lemma TitlePrefix(s: string, n: nat)
    requires n <= |s|
    ensures Title(s)[..n] == Title(s[..n])
  {
    var a := Title(s)[..n];
    var b := Title(s[..n]);
    forall k | 0 <= k < n
      ensures a[k] == b[k]
    {
      assert a[k] == TitleChar(s, k);
    }
  }

  lemma {:induction false} LStripTitle(s: string)
    ensures LStrip(Title(s)) == Title(LStrip(s))
    decreases |s|
  {
    var t := Title(s);
    if |s| > 0 && IsSpace(s[0]) {
      assert t[0] == s[0];
      TitleDropFirst(s);
      LStripTitle(s[1..]);
      LStripStep(t);
      LStripStep(s);
    } else {
      assert |s| > 0 ==> !IsSpace(t[0]);
      LStripStop(t);
      LStripStop(s);
    }
  }

  lemma {:induction false} RStripTitle(s: string)
    ensures RStrip(Title(s)) == Title(RStrip(s))
    decreases |s|
  {
    var t := Title(s);
    if |s| > 0 && IsSpace(s[|s| - 1]) {
      assert t[|s| - 1] == s[|s| - 1];
      TitlePrefix(s, |s| - 1);
      RStripTitle(s[..|s| - 1]);
      RStripStep(t);
      RStripStep(s);
    } else {
      assert |s| > 0 ==> !IsSpace(t[|s| - 1]);
      RStripStop(t);
      RStripStop(s);
    }
  }

  lemma LStripStep(t: string)
    requires |t| > 0 && IsSpace(t[0])
    ensures LStrip(t) == LStrip(t[1..])
  {
  }

  lemma LStripStop(t: string)
    requires |t| > 0 ==> !IsSpace(t[0])
    ensures LStrip(t) == t
  {
  }

  lemma RStripStep(t: string)
    requires |t| > 0 && IsSpace(t[|t| - 1])
    ensures RStrip(t) == RStrip(t[..|t| - 1])
  {
  }

  lemma RStripStop(t: string)
    requires |t| > 0 ==> !IsSpace(t[|t| - 1])
    ensures RStrip(t) == t
  {
  }

  /** `s.strip().title()` and `s.title().strip()` agree: the report assigns
      channels with the first order and builds the channel filter with the
      second, so a channel always matches a filter spelt the same way. */
  lemma {:induction false} TitleStripCommute(s: string)
    ensures Strip(Title(s)) == Title(Strip(s))
  {
    LStripTitle(s);
    RStripTitle(LStrip(s));
  }

  /** Title-casing ignores the case the input was written in. */
  lemma TitleIgnoresCase(a: string, b: string)
    requires Lower(a) == Lower(b)
    ensures Title(a) == Title(b)
  {
    assert |a| == |b| by { assert |Lower(a)| == |a|; }
    forall k | 0 <= k < |a|
      ensures Title(a)[k] == Title(b)[k]
    {
      assert LowerChar(a[k]) == LowerChar(b[k]) by {
        assert Lower(a)[k] == Lower(b)[k];
      }
      if k > 0 {
        assert LowerChar(a[k - 1]) == LowerChar(b[k - 1]) by {
          assert Lower(a)[k - 1] == Lower(b)[k - 1];
        }
      }
    }
  }

  /** Title-casing keeps text trimmed: it changes only letters, and those
      stay letters. */
  lemma TitleOfTrimmed(t: string)
    requires Trimmed(t)
    ensures Trimmed(Title(t))
  {
    if |t| > 0 {
      assert Title(t)[0] == TitleChar(t, 0);
      assert Title(t)[|t| - 1] == TitleChar(t, |t| - 1);
    }
  }

  /** Title-casing twice is the same as once. */
  lemma TitleIdempotent(s: string)
    ensures Title(Title(s)) == Title(s)
  {
    var t := Title(s);
    forall k | 0 <= k < |s|
      ensures Title(t)[k] == t[k]
    {
      assert IsLetter(t[k]) == IsLetter(s[k]);
      if k > 0 {
        assert IsLetter(t[k - 1]) == IsLetter(s[k - 1]);
      }
    }
  }
}

=== FILE: urls.dfy ===
/**
 * The url helpers of w6_join_campaigns.py: `normalize_url`, the join key,
 * and `utm_from_url`, which reads the five `utm_*` query parameters with
 * `urlparse` and `parse_qs`.
 *
 * `urlparse` is modelled as `urlsplit` in the Python 3.12 standard library
 * does it: leading C0 controls and spaces are dropped, tab, CR and LF are
 * removed, a scheme is split off at the first ':' when everything before it
 * is a scheme character, a network location follows "//" up to the first of
 * "/?#", the fragment is cut at the first '#' and the query at the first
 * '?'. Its errors on ASCII input come from square brackets in the network
 * location: an unpaired '[' or ']', and, when both are present, text
 * before the '[' (after any '@'), text after the ']' that does not start a
 * port, or a bracketed host that is neither an IPv6 address nor an
 * IPvFuture literal. `parse_qs` splits the query on '&', keeps the pieces
 * that have an '=' followed by a non-empty value, and splits each at its
 * first '='.
 */
module Urls {
  import opened Wrappers
  import opened Text
  import Numbers

  // ----- normalize_url -----

  /** `normalize_url`: the url stripped of surrounding whitespace, then of
      trailing slashes, then lower-cased. */
  function NormalizeUrl(s: string): (r: string)
    ensures |r| <= |s|
    ensures |r| > 0 ==> r[|r| - 1] != '/'
    ensures |r| > 0 ==> !IsSpace(r[0])
    ensures forall k | 0 <= k < |r| :: !IsUpper(r[k])
  {
    var t := Strip(s);
    var u := RStripChar(t, '/');
    assert |u| > 0 ==> u[0] == t[0];
    Lower(u)
  }

  /** Stripping happens before the slashes are removed, so a space in
      front of a trailing slash survives one normalisation and goes at the
      next: the normalisation is not idempotent. */
  lemma NormalizeUrlNotIdempotent(t: string)
    requires |t| > 0 && Trimmed(t) && t[|t| - 1] != '/'
    ensures NormalizeUrl(t + " /") == Lower(t) + " "
    ensures NormalizeUrl(NormalizeUrl(t + " /")) == Lower(t)
  {
    SpaceBeforeSlashKept(t);
    assert Lower(t)[0] == LowerChar(t[0]);
    assert Lower(t)[|t| - 1] == LowerChar(t[|t| - 1]);
    TrailingSpaceDropped(Lower(t));
    LowerOfUncased(Lower(t));
  }

  lemma SpaceBeforeSlashKept(t: string)
    requires |t| > 0 && Trimmed(t) && t[|t| - 1] != '/'
    ensures NormalizeUrl(t + " /") == Lower(t) + " "
  {
    var v := t + " /";
    RStripCharOne(t + " ", v, '/');
    assert Lower(t + " ") == Lower(t) + " ";
    assert Strip(v) == v by {
      assert v[0] == t[0] && v[|v| - 1] == '/';
      StripOfTrimmed(v);
    }
    NormalizeSteps(v, v, t + " ");
  }

  lemma TrailingSpaceDropped(t: string)
    requires |t| > 0 && !IsSpace(t[0]) && !IsSpace(t[|t| - 1]) && t[|t| - 1] != '/'
    ensures NormalizeUrl(t + " ") == Lower(t)
  {
    StripOnce(t);
    RStripCharAbsent(t, '/');
    NormalizeSteps(t + " ", t, t);
  }

  /** The key ignores the case a url was written in. */
  lemma NormalizeUrlIgnoresCase(a: string, b: string)
    requires Lower(a) == Lower(b)
    ensures NormalizeUrl(a) == NormalizeUrl(b)
  {
    NormalizeOfLower(a);
    NormalizeOfLower(b);
  }

  /** Lower-casing may as well come first. */
  lemma NormalizeOfLower(s: string)
    ensures NormalizeUrl(s) == RStripChar(Strip(Lower(s)), '/')
  {
    StripLower(s);
    RStripCharLower(Strip(s), '/');
  }

  lemma NormalizeSteps(s: string, t: string, u: string)
    requires Strip(s) == t && RStripChar(t, '/') == u
    ensures NormalizeUrl(s) == Lower(u)
  {
  }

  lemma LowerOfUncased(u: string)
    requires forall k | 0 <= k < |u| :: !IsUpper(u[k])
    ensures Lower(u) == u
  {
  }

  lemma RStripCharAbsent(t: string, c: char)
    requires |t| == 0 || t[|t| - 1] != c
    ensures RStripChar(t, c) == t
  {
  }

  lemma RStripCharOne(t: string, v: string, c: char)
    requires v == t + [c]
    requires |t| == 0 || t[|t| - 1] != c
    ensures RStripChar(v, c) == t
  {
    assert v[..|v| - 1] == t;
  }

  /** One trailing space goes. */
  lemma StripOnce(t: string)
    requires |t| > 0 && !IsSpace(t[0]) && !IsSpace(t[|t| - 1])
    ensures Strip(t + " ") == t
  {
    LStripUnspaced(t + " ");
    RStripOneSpace(t, t + " ");
  }

  lemma LStripUnspaced(v: string)
    requires |v| > 0 && !IsSpace(v[0])
    ensures LStrip(v) == v
  {
  }

  lemma RStripOneSpace(t: string, v: string)
    requires |t| > 0 && !IsSpace(t[|t| - 1])
    requires |v| == |t| + 1 && v[..|t|] == t && v[|t|] == ' '
    ensures RStrip(v) == t
  {
    assert v[..|v| - 1] == t;
  }

  lemma TrimmedSlash(u: string)
    requires Trimmed(u)
    ensures Trimmed(u + "/")
  {
    var v := u + "/";
    if |u| > 0 { assert v[0] == u[0]; } else { assert v[0] == '/'; }
  }

  /** A trailing slash does not change the key of a url that carries no
      surrounding whitespace. */
  lemma TrailingSlashIgnored(u: string)
    requires Trimmed(u)
    ensures NormalizeUrl(u + "/") == NormalizeUrl(u)
  {
    var v := u + "/";
    TrimmedSlash(u);
    var w := RStripChar(u, '/');
    assert RStripChar(v, '/') == w by { assert v[..|v| - 1] == u; }
    StripOfTrimmed(v);
    NormalizeSteps(v, v, w);
    StripOfTrimmed(u);
    NormalizeSteps(u, u, w);
  }

  // ----- split and join -----

  /** `s.split(c)`. */
  function Split(s: string, c: char): (parts: seq<string>)
    ensures |parts| > 0
    ensures forall i | 0 <= i < |parts| :: c !in parts[i]
    decreases |s|
  {
    var i := Find(s, c);
    if i < 0 then [s] else [s[..i]] + Split(s[i + 1..], c)
  }

  /** `c.join(parts)`. */
  function Join(parts: seq<string>, c: char): string
    requires |parts| > 0
  {
    if |parts| == 1 then parts[0] else parts[0] + [c] + Join(parts[1..], c)
  }

  /** Joining the pieces of a split gives the text back. */
  lemma {:induction false} JoinSplit(s: string, c: char)
    ensures Join(Split(s, c), c) == s
    decreases |s|
  {
    var i := Find(s, c);
    if i >= 0 {
      var rest := s[i + 1..];
      JoinSplit(rest, c);
      SplitStep(s, c, i);
      JoinStep([s[..i]] + Split(rest, c), c);
      assert ([s[..i]] + Split(rest, c))[1..] == Split(rest, c);
      Reassemble(s, i);
    }
  }

  /** Splitting a join gives the pieces back, when no piece holds `c`. */
  lemma {:induction false} SplitJoin(parts: seq<string>, c: char)
    requires |parts| > 0
    requires forall i | 0 <= i < |parts| :: c !in parts[i]
    ensures Split(Join(parts, c), c) == parts
  {
    if |parts| == 1 {
      SplitWithout(parts[0], c);
    } else {
      SplitOfJoinStep(parts, c);
      SplitJoin(parts[1..], c);
      assert parts == [parts[0]] + parts[1..];
    }
  }

  lemma SplitWithout(s: string, c: char)
    requires c !in s
    ensures Split(s, c) == [s]
  {
    assert Find(s, c) == -1;
  }

  /** The first piece of a join comes off first when it has no `c`. */
  lemma SplitOfJoinStep(parts: seq<string>, c: char)
    requires |parts| > 1 && c !in parts[0]
    ensures Split(Join(parts, c), c) == [parts[0]] + Split(Join(parts[1..], c), c)
  {
    var p, rest := parts[0], Join(parts[1..], c);
    JoinStep(parts, c);
    AroundSeparator(p, c, rest);
    FindAt(p + [c] + rest, c, |p|);
    SplitStep(p + [c] + rest, c, |p|);
  }

  /** The split at the first `c`, as one step. */
  lemma SplitStep(s: string, c: char, i: nat)
    requires Find(s, c) == i
    ensures Split(s, c) == [s[..i]] + Split(s[i + 1..], c)
  {
  }

  lemma Reassemble<T>(s: seq<T>, i: nat)
    requires i < |s|
    ensures s == s[..i] + [s[i]] + s[i + 1..]
  {
  }

  lemma AroundSeparator<T>(p: seq<T>, c: T, rest: seq<T>)
    ensures var s := p + [c] + rest;
      s[..|p|] == p && s[|p|] == c && s[|p| + 1..] == rest
  {
  }

  lemma JoinStep(parts: seq<string>, c: char)
    requires |parts| > 1
    ensures Join(parts, c) == parts[0] + [c] + Join(parts[1..], c)
  {
  }

  /** The first `c` is at `k` when `s[k]` is `c` and none comes before. */
  lemma FindAt(s: string, c: char, k: nat)
    requires k < |s| && s[k] == c && c !in s[..k]
    ensures Find(s, c) == k
  {
    assert s[k] in s;
  }

  // ----- parse_qs -----

  type Pair = (string, string)

  /** One piece as `parse_qsl` reads it: a pair when it has an '=' and
      something after it, split at the first '='. */
  function PairOf(piece: string): (r: Option<Pair>)
    ensures r.Some? ==> r.value.0 + "=" + r.value.1 == piece && '=' !in r.value.0 && r.value.1 != ""
  {
    var i := Find(piece, '=');
    if i < 0 || i == |piece| - 1 then None
    else
      assert piece == piece[..i] + "=" + piece[i + 1..];
      Some((piece[..i], piece[i + 1..]))
  }

  function Pairs(pieces: seq<string>): seq<Pair> {
    if |pieces| == 0 then []
    else
      match PairOf(pieces[0])
      case None => Pairs(pieces[1..])
      case Some(p) => [p] + Pairs(pieces[1..])
  }

  /** The name/value pairs of a query string, in order. */
  function QueryPairs(q: string): seq<Pair> {
    Pairs(Split(q, '&'))
  }

  /** The first value given for `key`: `(parse_qs(q).get(key) or [None])[0]`. */
  function Pick(pairs: seq<Pair>, key: string): (r: Option<string>)
    ensures r.None? <==> forall i | 0 <= i < |pairs| :: pairs[i].0 != key
    ensures r.Some? ==> exists i | 0 <= i < |pairs| ::
      pairs[i] == (key, r.value) && forall j | 0 <= j < i :: pairs[j].0 != key
  {
    if |pairs| == 0 then None
    else if pairs[0].0 == key then
      assert pairs[0] == (key, pairs[0].1);
      Some(pairs[0].1)
    else
      var r := Pick(pairs[1..], key);
      PickLater(pairs, key, r);
      r
  }

  lemma PickLater(pairs: seq<Pair>, key: string, r: Option<string>)
    requires |pairs| > 0 && pairs[0].0 != key
    requires r.Some? ==> exists i | 0 <= i < |pairs[1..]| ::
      pairs[1..][i] == (key, r.value) && forall j | 0 <= j < i :: pairs[1..][j].0 != key
    ensures r.Some? ==> exists i | 0 <= i < |pairs| ::
      pairs[i] == (key, r.value) && forall j | 0 <= j < i :: pairs[j].0 != key
  {
    if r.Some? {
      var i :| 0 <= i < |pairs[1..]| && pairs[1..][i] == (key, r.value) && forall j | 0 <= j < i :: pairs[1..][j].0 != key;
      assert pairs[i + 1] == (key, r.value);
      forall j | 0 <= j < i + 1 ensures pairs[j].0 != key {
        if j > 0 { assert pairs[j] == pairs[1..][j - 1]; }
      }
    }
  }

  /** A query string written from pairs: `name=value` joined by '&'. */
  function Encode(pairs: seq<Pair>): string {
    if |pairs| == 0 then "" else Join(Pieces(pairs), '&')
  }

  function Pieces(pairs: seq<Pair>): (ps: seq<string>)
    ensures |ps| == |pairs|
    ensures forall i | 0 <= i < |pairs| :: ps[i] == pairs[i].0 + "=" + pairs[i].1
  {
    seq(|pairs|, i requires 0 <= i < |pairs| => pairs[i].0 + "=" + pairs[i].1)
  }

  /** Pairs that survive a trip through a query string: no '&' anywhere, no
      '=' in a name, no empty value, and nothing `parse_qs` would decode
      ('+' or '%'). */
  predicate Plain(pairs: seq<Pair>) {
    forall i | 0 <= i < |pairs| ::
      && '&' !in pairs[i].0 && '=' !in pairs[i].0 && '&' !in pairs[i].1 && pairs[i].1 != ""
      && '+' !in pairs[i].0 && '%' !in pairs[i].0 && '+' !in pairs[i].1 && '%' !in pairs[i].1
  }

  /** `parse_qs` reads back exactly the pairs a query was written from. */
  lemma QueryRoundTrip(pairs: seq<Pair>)
    requires Plain(pairs)
    ensures QueryPairs(Encode(pairs)) == pairs
  {
    if |pairs| == 0 {
      assert Split("", '&') == [""];
    } else {
      var ps := Pieces(pairs);
      forall i | 0 <= i < |ps| ensures '&' !in ps[i] {
        assert ps[i] == pairs[i].0 + "=" + pairs[i].1;
      }
      SplitJoin(ps, '&');
      PairsOfPieces(pairs);
    }
  }

  lemma {:induction false} PairsOfPieces(pairs: seq<Pair>)
    requires Plain(pairs)
    ensures Pairs(Pieces(pairs)) == pairs
  {
    if |pairs| > 0 {
      var p := pairs[0];
      var piece := p.0 + "=" + p.1;
      assert piece[..|p.0|] == p.0 && piece[|p.0|] == '=';
      assert Find(piece, '=') == |p.0|;
      assert piece[|p.0| + 1..] == p.1;
      assert Pieces(pairs)[0] == piece;
      assert Pieces(pairs)[1..] == Pieces(pairs[1..]);
      PairsOfPieces(pairs[1..]);
      assert pairs == [p] + pairs[1..];
    }
  }

  /** A name given twice yields its first value. */
  lemma FirstValueWins(key: string, first: string, second: string)
    requires Plain([(key, first), (key, second)])
    ensures Pick(QueryPairs(Encode([(key, first), (key, second)])), key) == Some(first)
  {
    QueryRoundTrip([(key, first), (key, second)]);
  }

  // ----- urlsplit -----

  /** The parts `urlsplit` returns. */
  datatype Parts = Parts(scheme: string, netloc: string, path: string, query: string, fragment: string)

  predicate IsC0OrSpace(c: char) { c <= ' ' }

  function LStripC0(s: string): (r: string)
    ensures |r| <= |s| && r == s[|s| - |r|..]
    ensures |r| > 0 ==> !IsC0OrSpace(r[0])
  {
    if |s| > 0 && IsC0OrSpace(s[0]) then LStripC0(s[1..]) else s
  }

  predicate IsUnsafe(c: char) { c == '\t' || c == '\r' || c == '\n' }

  /** Every tab, CR and LF removed. */
  function RemoveUnsafe(s: string): (r: string)
    ensures |r| <= |s|
    ensures forall k | 0 <= k < |r| :: !IsUnsafe(r[k])
  {
    if |s| == 0 then ""
    else if IsUnsafe(s[0]) then RemoveUnsafe(s[1..])
    else [s[0]] + RemoveUnsafe(s[1..])
  }

  predicate SchemeChar(c: char) {
    IsLetter(c) || Numbers.IsDigit(c) || c == '+' || c == '-' || c == '.'
  }

  /** Scheme and remainder: split at the first ':' when it is not the first
      character, the first character is an ASCII letter, and all before it
      are scheme characters. */
  function SplitScheme(u: string): (string, string) {
    var i := Find(u, ':');
    if i > 0 && IsLetter(u[0]) && forall k | 0 <= k < i :: SchemeChar(u[k]) then
      (Lower(u[..i]), u[i + 1..])
    else ("", u)
  }

  predicate EndsNetloc(c: char) { c == '/' || c == '?' || c == '#' }

  /** The first position from `k` on that ends a network location. */
  function NetlocEnd(s: string, k: nat): (e: nat)
    requires k <= |s|
    ensures k <= e <= |s|
    ensures forall j | k <= j < e :: !EndsNetloc(s[j])
    ensures e < |s| ==> EndsNetloc(s[e])
    decreases |s| - k
  {
    if k == |s| then k else if EndsNetloc(s[k]) then k else NetlocEnd(s, k + 1)
  }

  /** Text before and after the first `c`, or all of `s` and "":
      `s.split(c, 1)` when `c in s`. */
  function Cut(s: string, c: char): (r: (string, string))
    ensures c !in r.0
    ensures c in s ==> s == r.0 + [c] + r.1
    ensures c !in s ==> r == (s, "")
  {
    var i := Find(s, c);
    if i < 0 then (s, "")
    else
      assert s == s[..i] + [c] + s[i + 1..];
      (s[..i], s[i + 1..])
  }

  /** Leading C0 controls and spaces dropped, then tab, CR and LF removed. */
  function Prepare(url: string): string {
    RemoveUnsafe(LStripC0(url))
  }

  /** The network location after a leading "//", and what follows it. */
  function SplitNetloc(rest: string): (r: (string, string))
    ensures |rest| >= 2 && rest[..2] == "//" ==> rest == "//" + r.0 + r.1
    ensures !(|rest| >= 2 && rest[..2] == "//") ==> r == ("", rest)
  {
    if |rest| >= 2 && rest[..2] == "//" then
      var e := NetlocEnd(rest, 2);
      assert rest == rest[..2] + rest[2..e] + rest[e..];
      (rest[2..e], rest[e..])
    else ("", rest)
  }

  /** Path, query and fragment: the fragment is cut off first, at the first
      '#', then the query at the first '?'. */
  function SplitTail(rest: string): (r: (string, string, string))
    ensures '#' !in r.0 && '#' !in r.1 && '?' !in r.0
  {
    var (beforeHash, fragment) := Cut(rest, '#');
    var (path, query) := Cut(beforeHash, '?');
    assert '#' !in query by {
      if '?' in beforeHash {
        assert forall k | 0 <= k < |query| :: query[k] == beforeHash[|path| + 1 + k];
      }
    }
    (path, query, fragment)
  }

  /** An unpaired square bracket in a network location. */
  predicate BadBrackets(netloc: string) {
    ('[' in netloc) != (']' in netloc)
  }

  // ----- bracketed hosts -----

  /** The text after the last `c`, or all of `s`: `s.rpartition(c)[2]`. */
  function AfterLast(s: string, c: char): (r: string)
    ensures c !in r
    ensures |r| <= |s|
  {
    if |s| == 0 || s[|s| - 1] == c then ""
    else AfterLast(s[..|s| - 1], c) + [s[|s| - 1]]
  }

  predicate IsHexDigit(c: char) {
    Numbers.IsDigit(c) || ('a' <= c <= 'f') || ('A' <= c <= 'F')
  }

  predicate AllHex(s: string) {
    forall k | 0 <= k < |s| :: IsHexDigit(s[k])
  }

  /** One group of an IPv6 address: one to four hexadecimal digits. */
  predicate Hextet(p: string) {
    1 <= |p| <= 4 && AllHex(p)
  }

  /** One part of a dotted IPv4 address: one to three decimal digits, no
      leading zero, at most 255. */
  predicate Octet(p: string) {
    && 1 <= |p| <= 3 && Numbers.AllDigits(p)
    && (p[0] == '0' ==> |p| == 1)
    && Numbers.DigitsValue(p) <= 255
  }

  /** Text the standard library reads as an IPv4 address. */
  predicate Ipv4Text(h: string) {
    var parts := Split(h, '.');
    |parts| == 4 && forall i | 0 <= i < 4 :: Octet(parts[i])
  }

  /** No empty group between the first and the last. */
  predicate NoGap(hs: seq<string>) {
    forall i | 1 <= i < |hs| - 1 :: hs[i] != ""
  }

  /** The groups of an IPv6 address with one "::" at position `s`: no other
      gap, an empty first (last) group only when the gap is right after
      (before) it, at least one group left out, and every written group a
      hextet. */
  predicate GapAt(hs: seq<string>, s: nat)
    requires 1 <= s < |hs| - 1
  {
    && hs[s] == ""
    && (forall i | 1 <= i < |hs| - 1 && i != s :: hs[i] != "")
    && (hs[0] == "" ==> s == 1)
    && (hs[|hs| - 1] == "" ==> s == |hs| - 2)
    && var hi := if hs[0] == "" then 0 else s;
       var lo := if hs[|hs| - 1] == "" then 0 else |hs| - s - 1;
       && hi + lo <= 7
       && (forall i | 0 <= i < hi :: Hextet(hs[i]))
       && (forall i | |hs| - lo <= i < |hs| :: Hextet(hs[i]))
  }

  /** The groups of an IPv6 address: eight hextets, or fewer with one gap. */
  predicate Hextets(hs: seq<string>)
    requires |hs| >= 2
  {
    || (|hs| == 8 && forall i | 0 <= i < 8 :: Hextet(hs[i]))
    || exists s | 1 <= s < |hs| - 1 :: GapAt(hs, s)
  }

  /** Text the standard library reads as an IPv6 address without its scope:
      at least three ':'-separated parts, the last of which may be a dotted
      IPv4 address standing for two groups, at most nine parts then. */
  predicate Ipv6Address(a: string) {
    var parts := Split(a, ':');
    && |parts| >= 3
    && var last := parts[|parts| - 1];
       var hs := if '.' in last then parts[..|parts| - 1] + ["0", "0"] else parts;
       && ('.' in last ==> Ipv4Text(last))
       && |hs| <= 9
       && Hextets(hs)
  }

  /** An IPv6 address with an optional non-empty "%scope" suffix, and no
      '/' anywhere. */
  predicate Ipv6Text(h: string) {
    var (a, scope) := Cut(h, '%');
    && '/' !in h
    && ('%' in h ==> scope != "" && '%' !in scope)
    && Ipv6Address(a)
  }

  /** An IPvFuture literal: 'v', hexadecimal digits, '.', and at least one
      more character on the same line. */
  predicate IpvFuture(h: string) {
    && |h| > 0 && h[0] == 'v'
    && '.' in h[1..]
    && var (digits, rest) := Cut(h[1..], '.');
       |digits| > 0 && AllHex(digits) && |rest| > 0 && '\n' !in rest
  }

  /** A host that may stand between square brackets: an IPvFuture literal
      when it starts with 'v', an IPv6 (and not an IPv4) address otherwise. */
  predicate BracketedHost(h: string) {
    if |h| > 0 && h[0] == 'v' then IpvFuture(h) else !Ipv4Text(h) && Ipv6Text(h)
  }

  /** The network location check that runs when both brackets are present:
      after the last '@', nothing may come before the '[', whatever follows
      the ']' must start with ':', and the bracketed host must be valid;
      without a '[' after the '@', the host up to ':' is checked. */
  predicate BracketedNetloc(netloc: string) {
    var hp := AfterLast(netloc, '@');
    if '[' in hp then
      var (before, bracketed) := Cut(hp, '[');
      var (host, port) := Cut(bracketed, ']');
      && before == ""
      && (port == "" || port[0] == ':')
      && BracketedHost(host)
    else
      BracketedHost(Cut(hp, ':').0)
  }

  /** The network locations `urlsplit` refuses with "Invalid IPv6 URL". */
  predicate NetlocError(netloc: string) {
    || BadBrackets(netloc)
    || ('[' in netloc && ']' in netloc && !BracketedNetloc(netloc))
  }

  /** `urlsplit`; None for its "Invalid IPv6 URL" ValueError. */
  function UrlSplit(url: string): (r: Option<Parts>)
    ensures r.None? <==> NetlocError(SplitNetloc(SplitScheme(Prepare(url)).1).0)
    ensures r.Some? ==> !NetlocError(r.value.netloc)
    ensures r.Some? ==> '#' !in r.value.path && '#' !in r.value.query && '?' !in r.value.path
  {
    var (scheme, rest) := SplitScheme(Prepare(url));
    var (netloc, rest') := SplitNetloc(rest);
    if NetlocError(netloc) then None
    else
      var (path, query, fragment) := SplitTail(rest');
      Some(Parts(scheme, netloc, path, query, fragment))
  }

  // ----- utm_from_url -----

  /** The five UTM fields; None is a parameter that is not there. */
  datatype Utm = Utm(campaign: Option<string>, source: Option<string>, medium: Option<string>,
                     term: Option<string>, content: Option<string>)

  const NoUtm := Utm(None, None, None, None, None)

  /** `utm_from_url`: the first value of each `utm_*` parameter, and all
      five None when the url cannot be split. */
  function UtmFromUrl(url: string): (r: Utm)
    ensures UrlSplit(url).None? ==> r == NoUtm
  {
    match UrlSplit(url)
    case None => NoUtm
    case Some(p) =>
      var q := QueryPairs(p.query);
      Utm(Pick(q, "utm_campaign"), Pick(q, "utm_source"), Pick(q, "utm_medium"),
          Pick(q, "utm_term"), Pick(q, "utm_content"))
  }

  /** No tab, CR or LF anywhere. */
  predicate Safe(s: string) {
    forall k | 0 <= k < |s| :: !IsUnsafe(s[k])
  }

  /** A host as it appears between "//" and the path: no '/', '?', '#',
      tab, CR or LF. Square brackets are allowed. */
  predicate HostText(host: string) {
    Safe(host) && forall k | 0 <= k < |host| :: !EndsNetloc(host[k])
  }

  /** A path: empty or starting with '/', without '?', '#', tab, CR or LF. */
  predicate PlainPath(path: string) {
    && (|path| > 0 ==> path[0] == '/')
    && Safe(path)
    && forall k | 0 <= k < |path| :: path[k] != '?' && path[k] != '#'
  }

  /** A query without '#', tab, CR or LF. */
  predicate PlainQuery(q: string) {
    Safe(q) && '#' !in q
  }

  lemma SafeConcat(a: string, b: string)
    requires Safe(a) && Safe(b)
    ensures Safe(a + b)
  {
    var s := a + b;
    forall k | 0 <= k < |s| ensures !IsUnsafe(s[k]) {
      if k < |a| { assert s[k] == a[k]; } else { assert s[k] == b[k - |a|]; }
    }
  }

  lemma {:induction false} RemoveUnsafeOfSafe(s: string)
    requires Safe(s)
    ensures RemoveUnsafe(s) == s
  {
    if |s| > 0 {
      RemoveUnsafeOfSafe(s[1..]);
      assert s == [s[0]] + s[1..];
    }
  }

  /** A url that starts with a printable character and holds no tab, CR
      or LF is left as it is before splitting. */
  lemma PrepareClean(url: string)
    requires |url| > 0 && !IsC0OrSpace(url[0]) && Safe(url)
    ensures Prepare(url) == url
  {
    RemoveUnsafeOfSafe(url);
  }

  /** The https url written from a host, a path and a query. */
  function HttpsUrl(host: string, path: string, q: string): string {
    "https://" + host + path + "?" + q
  }

  /** `urlsplit` takes an https url written from its parts back apart, and
      raises exactly when the host is a network location it refuses. */
  lemma SplitOfHttps(host: string, path: string, q: string)
    requires HostText(host) && PlainPath(path) && PlainQuery(q)
    ensures UrlSplit(HttpsUrl(host, path, q))
      == if NetlocError(host) then None else Some(Parts("https", host, path, q, ""))
  {
    var after := path + "?" + q;
    var rest := "//" + host + after;
    var url := HttpsUrl(host, path, q);
    assert SplitScheme(Prepare(url)) == ("https", rest) by {
      HttpsShape(host, path, q);
      HttpsPrepared(host, path, q);
      SchemeOfHttps(url, rest);
    }
    assert SplitNetloc(rest) == (host, after) by {
      AfterPath(path, q);
      NetlocOfHost(rest, host, after);
    }
    assert SplitTail(after) == (path, q, "") by {
      TailOfPathQuery(path, q);
    }
    UrlSplitSteps(url, "https", rest, host, after, path, q, "");
  }

  lemma HttpsPrepared(host: string, path: string, q: string)
    requires HostText(host) && PlainPath(path) && PlainQuery(q)
    ensures Prepare(HttpsUrl(host, path, q)) == HttpsUrl(host, path, q)
  {
    var after := path + "?" + q;
    var rest := "//" + host + after;
    HttpsShape(host, path, q);
    SafeConcat(path, "?");
    SafeConcat(path + "?", q);
    SafeConcat("//", host);
    SafeConcat("//" + host, after);
    SafeConcat("https:", rest);
    PrepareClean(HttpsUrl(host, path, q));
  }

  lemma HttpsShape(host: string, path: string, q: string)
    ensures HttpsUrl(host, path, q) == "https:" + ("//" + host + (path + "?" + q))
  {
  }

  lemma AfterPath(path: string, q: string)
    requires PlainPath(path)
    ensures var after := path + "?" + q; |after| > 0 && EndsNetloc(after[0])
  {
    var after := path + "?" + q;
    if |path| > 0 { assert after[0] == path[0]; } else { assert after[0] == '?'; }
  }

  lemma UrlSplitSteps(url: string, scheme: string, rest: string, netloc: string, after: string,
                      path: string, query: string, fragment: string)
    requires SplitScheme(Prepare(url)) == (scheme, rest)
    requires SplitNetloc(rest) == (netloc, after)
    requires SplitTail(after) == (path, query, fragment)
    ensures UrlSplit(url)
      == if NetlocError(netloc) then None else Some(Parts(scheme, netloc, path, query, fragment))
  {
  }

  lemma SchemeOfHttps(url: string, rest: string)
    requires url == "https:" + rest
    ensures SplitScheme(url) == ("https", rest)
  {
    assert url[..5] == "https";
    FindAt(url, ':', 5);
    assert forall k | 0 <= k < 5 :: SchemeChar(url[k]);
    LowerOfUncased("https");
    assert url[6..] == rest;
  }

  lemma NetlocOfHost(rest: string, host: string, after: string)
    requires rest == "//" + host + after
    requires HostText(host)
    requires |after| > 0 && EndsNetloc(after[0])
    ensures SplitNetloc(rest) == (host, after)
  {
    assert rest[..2] == "//";
    forall j | 2 <= j < 2 + |host| ensures !EndsNetloc(rest[j]) {
      assert rest[j] == host[j - 2];
    }
    assert rest[2 + |host|] == after[0];
    NetlocEndAt(rest, 2, 2 + |host|);
    assert rest[2..2 + |host|] == host && rest[2 + |host|..] == after;
  }

  /** The scan stops at the first character that ends a network location. */
  lemma {:induction false} NetlocEndAt(s: string, k: nat, e: nat)
    requires k <= e < |s| && EndsNetloc(s[e])
    requires forall j | k <= j < e :: !EndsNetloc(s[j])
    ensures NetlocEnd(s, k) == e
    decreases e - k
  {
    if k < e {
      NetlocEndAt(s, k + 1, e);
    }
  }

  lemma TailOfPathQuery(path: string, q: string)
    requires PlainPath(path) && PlainQuery(q)
    ensures SplitTail(path + "?" + q) == (path, q, "")
  {
    var after := path + "?" + q;
    forall k | 0 <= k < |after| ensures after[k] != '#' {
      if k < |path| { assert after[k] == path[k]; }
      else if k > |path| { assert after[k] == q[k - |path| - 1]; }
    }
    assert Cut(after, '#') == (after, "");
    assert after[..|path|] == path;
    FindAt(after, '?', |path|);
    assert after[|path| + 1..] == q;
  }

  /** For an https url with a host `urlsplit` accepts, a path, and a query
      written from pairs, each UTM field is the first value its parameter
      was given. */
  lemma UtmOfHttps(host: string, path: string, pairs: seq<Pair>)
    requires HostText(host) && !NetlocError(host) && PlainPath(path)
    requires Plain(pairs) && PlainQuery(Encode(pairs))
    ensures UtmFromUrl(HttpsUrl(host, path, Encode(pairs)))
      == Utm(Pick(pairs, "utm_campaign"), Pick(pairs, "utm_source"), Pick(pairs, "utm_medium"),
             Pick(pairs, "utm_term"), Pick(pairs, "utm_content"))
  {
    SplitOfHttps(host, path, Encode(pairs));
    QueryRoundTrip(pairs);
  }

  /** A host `urlsplit` refuses makes `urlparse` raise, and every field
      falls back to None whatever the query says. */
  lemma RefusedHostLosesUtm(host: string, path: string, q: string)
    requires HostText(host) && NetlocError(host) && PlainPath(path) && PlainQuery(q)
    ensures UtmFromUrl(HttpsUrl(host, path, q)) == NoUtm
  {
    SplitOfHttps(host, path, q);
  }

  lemma {:induction false} AfterLastWithout(s: string, c: char)
    requires c !in s
    ensures AfterLast(s, c) == s
  {
    if |s| > 0 {
      var p, x := s[..|s| - 1], s[|s| - 1];
      assert s == p + [x];
      assert x != c;
      assert c !in p by {
        forall k | 0 <= k < |p| ensures p[k] != c {
          assert p[k] == s[k];
        }
      }
      AfterLastWithout(p, c);
    }
  }

  /** A network location written as a bracketed host and a port suffix,
      with no user info, is refused exactly when the suffix does not start
      with ':' or the host is not one that may stand in brackets. */
  lemma BracketedNetlocOf(host: string, port: string)
    requires '[' !in host && ']' !in host && '@' !in host && '@' !in port
    ensures NetlocError("[" + host + "]" + port)
      <==> !((port == "" || port[0] == ':') && BracketedHost(host))
  {
    var n := "[" + host + "]" + port;
    BracketedPieces(host, port);
    AfterLastWithout(n, '@');
    assert '[' in n && ']' in n && !BadBrackets(n);
    assert BracketedNetloc(n) <==> (port == "" || port[0] == ':') && BracketedHost(host);
  }

  lemma BracketedAccepted(host: string, port: string)
    requires '[' !in host && ']' !in host && '@' !in host && '@' !in port
    requires (port == "" || port[0] == ':') && BracketedHost(host)
    ensures !NetlocError("[" + host + "]" + port)
  {
    BracketedNetlocOf(host, port);
  }

  /** How the checks of `BracketedNetloc` cut `"[" + host + "]" + port`. */
  lemma BracketedPieces(host: string, port: string)
    requires '[' !in host && ']' !in host && '@' !in host && '@' !in port
    ensures '@' !in "[" + host + "]" + port
    ensures Cut("[" + host + "]" + port, '[') == ("", host + "]" + port)
    ensures Cut(host + "]" + port, ']') == (host, port)
  {
    var n := "[" + host + "]" + port;
    var b := host + "]" + port;
    assert n == ['['] + b;
    forall k | 0 <= k < |n| ensures n[k] != '@' {
      if 0 < k <= |host| {
        assert n[k] == host[k - 1];
      } else if k > |host| + 1 {
        assert n[k] == port[k - |host| - 2];
      }
    }
    FindAt(n, '[', 0);
    assert n[1..] == b;
    assert b[..|host|] == host && b[|host|] == ']';
    FindAt(b, ']', |host|);
    assert b[|host| + 1..] == port;
  }

  /** A bracketed "::" and one group, such as the loopback address
      "[::1]", is accepted, with or without a port. */
  lemma GapGroupAccepted(x: string, port: string)
    requires Hextet(x) && (port == "" || port[0] == ':') && '@' !in port
    ensures !NetlocError("[::" + x + "]" + port)
  {
    var h := "::" + x;
    HexFree(x);
    assert '[' !in h && ']' !in h && '@' !in h by {
      assert forall k | 0 <= k < |h| :: h[k] == ':' || h[k] in x;
    }
    assert "[::" + x + "]" + port == "[" + h + "]" + port;
    GapGroupHost(x);
    BracketedAccepted(h, port);
  }

  /** A hexadecimal group holds none of the separators. */
  lemma HexFree(x: string)
    requires AllHex(x)
    ensures ':' !in x && '.' !in x && '%' !in x && '/' !in x
    ensures '[' !in x && ']' !in x && '@' !in x
  {
  }

  lemma GapGroupHost(x: string)
    requires Hextet(x)
    ensures BracketedHost("::" + x)
  {
    var h := "::" + x;
    HexFree(x);
    assert h[0] != 'v';
    assert '.' !in h && '%' !in h && '/' !in h by {
      assert forall k | 0 <= k < |h| :: h[k] == ':' || h[k] in x;
    }
    assert !Ipv4Text(h) by {
      SplitWithout(h, '.');
    }
    assert Cut(h, '%') == (h, "");
    GapGroupAddress(x);
  }

  lemma GapGroupAddress(x: string)
    requires Hextet(x)
    ensures Ipv6Address("::" + x)
  {
    var h := "::" + x;
    var hs := ["", "", x];
    HexFree(x);
    assert Split(h, ':') == hs by {
      FindAt(h, ':', 0);
      assert h[1..] == ":" + x;
      FindAt(":" + x, ':', 0);
      assert (":" + x)[1..] == x;
      SplitWithout(x, ':');
    }
    assert GapAt(hs, 1);
  }

  /** A bracketed word that is no address is refused. */
  lemma WordInBracketsRefused()
    ensures NetlocError("[x]")
  {
    BracketedNetlocOf("x", "");
    assert "[" + "x" + "]" + "" == "[x]";
    assert Split("x", ':') == ["x"] by { SplitWithout("x", ':'); }
    assert Cut("x", '%') == ("x", "");
  }

  /** Text before the '[' is refused, even around a valid address. */
  lemma TextBeforeBracketRefused()
    ensures NetlocError("a[::1]")
  {
    var n := "a[::1]";
    assert '@' !in n;
    AfterLastWithout(n, '@');
    FindAt(n, '[', 1);
  }

  /** A host without square brackets is never refused. */
  lemma PlainHostAccepted(host: string)
    requires '[' !in host && ']' !in host
    ensures !NetlocError(host)
  {
  }
}

=== FILE: wrappers.dfy ===
/** The optional value used wherever the source returns or stores `None`. */
module Wrappers {

  datatype Option<+T> = None | Some(value: T) {

    /** The wrapped value, or `default` when there is none. */
    function GetOr(default: T): T
    {
      match this
      case Some(v) => v
      case None => default
    }
  }
}
